=== FILE: README.md ===
# gevent core, modelled in Dafny

This project models the core of gevent (the 0.13/1.0-era code base): the
cooperative networking library that runs greenlets on top of an event loop.
It covers six parts, each with its own module:

- **The hub** (`Hub`, `Watchers`). This is the per-thread scheduling
  greenlet. The model covers `Hub.switch`, `Hub.run` with its
  `core.dispatch()` restarts, `Hub.shutdown`, `get_hub`, `kill` and `sleep`.
  It also covers the `Waiter` hand-off, which is safe against lost and
  duplicated wakeups, and the wait/cancel protocol of io watchers.
- **The cooperative socket** (`CoopSocket`). These are non-blocking system
  calls retried after waiting on a watcher: `wait`, `wait_read`,
  `wait_write`, `wait_readwrite`, `cancel_wait`, `_wait`, `accept`,
  `recv`, `recv_into`, `recvfrom`, `recvfrom_into`, `connect`, `connect_ex`,
  `sendall`, `close` and `shutdown`.
- **The cooperative `select`** (`Select`). It keeps one watcher per
  descriptor, shares a result object, and stops every watcher whatever
  happens.
- **The c-ares resolver** (`Resolver`). This covers the `Values`
  counted-completion join, `_lookup_port`, the `_getaddrinfo` socket-type
  filter and result layout, `_getnameinfo` and `_resolve_special`. It also
  covers the fork-safe retry loops of `gethostbyname_ex`, `getaddrinfo`,
  `gethostbyaddr` and `getnameinfo`.
- **The WSGI server** (`WsgiInput`, `Chunked`, `WsgiRequest`,
  `WsgiResponse`, `WsgiEnviron`, `HttpDate`). This covers:
  - the request body reader, including its chunked transfer coding
    (section 4.1 of RFC 7230);
  - request-line and HTTP-version validation;
  - `handle_one_request`;
  - `start_response`, `finalize_headers`, `write` and `process_result`;
  - `get_environ`;
  - `format_date_time`, the HTTP-date of section 7.1.1.1 of RFC 7231.
- **Shared pieces** (`Text`, `Wrappers`, `Exceptions`). These hold the
  Python string operations the core relies on (`int(s)`, `int(s, 16)`,
  `%d`, `%x`, `split`, `join`, `strip`, `lower`, `capitalize`), the
  `Option`/`Result` types, and one datatype for the exceptions the core
  raises.

Everything the core gets from outside is a parameter of the model. That
includes:

- the outcome of a system call;
- a c-ares answer;
- a `core.dispatch()` return;
- what a greenlet is resumed with;
- a clock reading;
- a `getservbyname` lookup.

Where the code loops until the environment says stop (`while True`
retries), the model takes a finite sequence of environment outcomes. It
reports `StillRunning` when they run out before the call ends. Errno and
address-family constants are the Linux values. They are `EBADF` = 9,
`EAGAIN`/`EWOULDBLOCK` = 11, `EALREADY` = 114, `EINPROGRESS` = 115,
`EISCONN` = 106, `AF_INET` = 2 and `AF_INET6` = 10, with `SOCK_STREAM`,
`SOCK_DGRAM` and `SOCK_RAW` = 1, 2 and 3.

Where the documented behaviour and the code differ, the model follows the
code, except for the two defects in "## Findings" that the rest of the model
uses corrected: the `_getaddrinfo` socket-type filter and the negative size
handed to `_do_read`. Both are modelled as written too, and "## Left out"
says where the corrected versions are used. Otherwise:

- `Hub.shutdown` swallows a `DispatchExit` whose code is 1, not 0
  (`gevent/hub.py:176`).
- The WSGI environment always reports `SERVER_PROTOCOL` as `HTTP/1.0`
  (`gevent/pywsgi.py:495`).
- `read_request` and `get_environ` decide "chunked" from different views of
  the Transfer-Encoding header. `read_request` uses the last field.
  `get_environ` uses all fields joined with ",". `WsgiEnviron.ChunkedAgrees`
  proves the two agree when there is one such field.
  `WsgiEnviron.TwoTransferEncodingsDisagree` shows that two fields, "gzip"
  then "chunked", make them disagree.

`gevent/py3/socket.py` does not run as written, and the model follows the
evident intent:

- The `__init__` uses an undefined name `fileno` (line 157). The model
  takes the socket's descriptor.
- `close` calls the real close on an undefined name `selfi` (line 198).
- `connect` reads `SO_ERROR` from an undefined `sock` (line 215) and passes
  `self` twice to `connect_ex` (line 218).
- The module uses `timeout(...)` and `error(...)` before defining them
  (lines 69 and 124).
- Lines 148 and 198 start with two tabs inside methods indented with
  spaces, so as text the module does not even import (TabError under
  Python 3, IndentationError under Python 2). The as-written members below
  model what those two methods do once that indentation is repaired.

`close` and `connect` are modelled both as written and as intended; see
"## Findings".

## Model

| member | source | states |
|---|---|---|
| Hub.HubSwitch | gevent/hub.py:133-142 | Switching into the hub fails with an AssertionError exactly when called from the hub itself. Otherwise control goes to the hub, and a `switch_out` hook that raises is reported, never propagated. |
| Hub.SwitchOutCannotPreventSwitch | gevent/hub.py:136-142 | Whatever the `switch_out` hook does, it cannot change whether the switch happens or where it goes. |
| Hub.Attach | gevent/hub.py:255-256 | `Waiter.wait` refuses a waiter that is already in use. Otherwise it records the calling greenlet as the waiter. |
| Hub.WaiterWait | gevent/hub.py:252-260 | For a waiter already in use, wait raises an AssertionError and leaves the waiter unchanged. Otherwise the waiter is empty again afterwards, whatever happened. Called from the hub, it fails. Called elsewhere, it returns the value it was switched with or raises what was thrown in. |
| Hub.WaiterSwitch | gevent/hub.py:229-238 | `Waiter.switch` is allowed only from the hub. It is a no-op exactly when nobody waits. Otherwise it resumes the waiter with the value and leaves the slot empty. |
| Hub.WaiterThrow | gevent/hub.py:240-249 | `Waiter.throw` is allowed only from the hub. It is a no-op exactly when nobody waits. Otherwise it resumes the waiter with the exception and leaves the slot empty. |
| Hub.Deliver | gevent/hub.py:229-249 | The shared delivery succeeds exactly when run from the hub. It does nothing for an idle waiter and detaches a waiting one. |
| Hub.DeliverAtMostOnce | gevent/hub.py:188-198 | After one delivery succeeded, a second delivery to the same waiter is a no-op. |
| Hub.ReplayConservation | gevent/hub.py:229-260 | Over any sequence of waits and deliveries, the number of successful attaches plus the initial occupancy equals the deliveries plus the aborted waits plus the final occupancy. |
| Hub.FreshWaiterDeliversAtMostOncePerWait | gevent/hub.py:188-198 | Starting from a fresh waiter, the number of resumed greenlets never exceeds the number of waits. |
| Hub.GetHub | gevent/hub.py:111-125 | `get_hub` returns the cached hub when there is one. Otherwise it creates and caches one, or raises NotImplementedError exactly when the thread has no hub type bound. |
| Hub.GetHubCaches | gevent/hub.py:111-125 | A second `get_hub` returns the same hub as the first and changes nothing. |
| Hub.Run | gevent/hub.py:144-165 | Run refuses to start outside the hub. In the hub it always cancels the Ctrl-C signal and removes the hub from the thread-local registry if it is there. It calls dispatch at least once and at most 16 times, and it goes around again only after an IOError, which includes `socket.error`, `socket.gaierror` and `socket.timeout`. A return from dispatch ends with DispatchExit carrying that code. Any other exception dispatch raises leaves at once, unchanged, through the `finally`. The 16th IOError is re-raised. |
| Hub.HubShutdown | gevent/hub.py:167-178 | Shutdown is allowed only from MAIN. It clears the Ctrl-C registration, returns normally on DispatchExit code 1 and re-raises anything else. |
| Hub.ShutdownAfterRun | gevent/hub.py:167-178 | Shutting down from MAIN after the hub's run ended: DispatchExit with code 1 returns normally and any other end is raised to MAIN unchanged. Either way the Ctrl-C handler is gone and the resolver was told to shut down. |
| Hub.ShutdownFromHubRefused | gevent/hub.py:167-178 | A case the source never reaches, since `get_hub` makes the hub a new greenlet: if MAIN were the hub itself, the switch would be refused with "Cannot switch to MAINLOOP from MAINLOOP", after the Ctrl-C handler is cleared. |
| Hub.ShutdownCurrent | gevent/hub.py:103-108 | The module-level `shutdown` does nothing without a live hub and is `Hub.shutdown` otherwise. |
| Hub.Kill | gevent/hub.py:76-83 | `kill` queues exactly one throw into a live greenlet, and nothing for a dead one. The queue keeps its earlier entries. |
| Hub.Sleep | gevent/hub.py:55-73 | `sleep` succeeds exactly when called outside the hub and resumed with its own unique mark. Its timer is cancelled exactly when it fails, and an exception thrown in propagates. |
| Watchers.NewIo | gevent/py3/socket.py:96 | `loop.io(fd, mode)` yields an idle watcher on that descriptor and mode at the default priority. |
| Watchers.HubWait | gevent/py3/socket.py:81 | `hub.wait(watcher)` is assumed to refuse an armed watcher; its callers assert first, so they never reach that case. Otherwise it leaves the watcher idle afterwards, succeeds exactly when the watcher fired, and raises what was thrown in. |
| Watchers.CancelWait | gevent/py3/socket.py:127-128 | `hub.cancel_wait` queues the exception for an armed watcher and does nothing for an idle one. |
| Watchers.CellStep | gevent/py3/socket.py:69-84 | One event resumes at most one greenlet, and only the one armed on the watcher, which is disarmed. |
| Watchers.EachWaitResumedAtMostOnce | gevent/py3/socket.py:69-84 | In any interleaving of arming, readiness, cancellation and queued callbacks, each arming is matched by at most one wakeup. Arms before plus armings equal wakeups plus arms left. |
| Watchers.CancelRacesReadiness | gevent/py3/socket.py:124-128 | When readiness and a cancellation race on one watcher, the waiter is resumed exactly once, with whichever came first. |
| CoopSocket.Wait | gevent/py3/socket.py:69-84 | `wait` refuses a watcher that is in use. Otherwise it starts a timer exactly when a timeout is given and always cancels it. It leaves the watcher idle, succeeds exactly when the watcher fired, and raises the exception thrown in. |
| CoopSocket.WaitRead | gevent/py3/socket.py:88-97 | `wait_read` waits on a fresh read watcher (mask 1) on the descriptor. It is never refused, starts a timer exactly when a timeout is given and cancels it, and succeeds exactly when the descriptor became readable. |
| CoopSocket.WaitWrite | gevent/py3/socket.py:100-109 | `wait_write` does the same with a write watcher (mask 2). |
| CoopSocket.WaitReadWrite | gevent/py3/socket.py:112-121 | `wait_readwrite` does the same with a watcher for both (mask 3). |
| CoopSocket.CancelWait | gevent/py3/socket.py:124-128 | `cancel_wait` queues the EBADF "closed in another greenlet" error for an armed watcher and does nothing otherwise. |
| CoopSocket.CancelGrows | gevent/py3/socket.py:127-128 | Cancelling leaves a watcher unchanged exactly when it is idle. |
| CoopSocket.NewSocket | gevent/py3/socket.py:147-158 | A new socket has idle read (mask 1) and write (mask 2) watchers on its descriptor and the given timeout. |
| CoopSocket.Close | gevent/py3/socket.py:197-201 | `close`, as intended, keeps descriptor and timeout. A greenlet waiting on either watcher gets the EBADF cancellation queued for it, and an idle watcher is left exactly as it was. |
| CoopSocket.CloseAsWritten | gevent/py3/socket.py:197-201 | `close`, as written, fails before cancelling anything and leaves the socket as it was. |
| CoopSocket.CloseWakesReader | gevent/py3/socket.py:197-201 | A greenlet blocked reading a socket that is then closed is woken with the EBADF cancellation error. |
| CoopSocket.CloseAsWrittenLeavesReaderWaiting | gevent/py3/socket.py:197-201 | With `close` as written, that greenlet is not woken. |
| CoopSocket.Shutdown | gevent/py3/socket.py:372-380 | `shutdown` returns the real shutdown's outcome and keeps descriptor and timeout. The read wait is cancelled unless `how` is 1, and the write wait unless `how` is 0. |
| CoopSocket.ShutdownCancels | gevent/py3/socket.py:372-380 | `shutdown(0)` cancels only the read wait. `shutdown(1)` cancels only the write wait. Any other `how` cancels both, exactly as `close` does. The real shutdown's outcome is returned. |
| CoopSocket.FirstDecisionIsFirst | gevent/py3/socket.py:179-195 | A `while True` retry loop finishes exactly when some round decides, and then with the first deciding round's outcome. |
| CoopSocket.RetryLoop | gevent/py3/socket.py:179-195 | The loop of `accept` and the `recv` family finishes exactly when some round decides, and then with what the first deciding round decided. |
| CoopSocket.RetriesOnlyAfterReadiness | gevent/py3/socket.py:248-266 | A round goes around again exactly when the call would block (EWOULDBLOCK on a blocking socket) and the wait then succeeded. |
| CoopSocket.DecidedBySomeRound | gevent/py3/socket.py:179-195 | A finished loop ends with the decision of one of its rounds. |
| CoopSocket.ReturnedValue | gevent/py3/socket.py:248-266 | A round that returns a value returns the system call's result or the end-of-stream value. |
| CoopSocket.LoopValue | gevent/py3/socket.py:248-307 | Whatever a finished loop returns is some system call's result or the end-of-stream value. |
| CoopSocket.NonBlockingNeverWaits | gevent/py3/socket.py:191 | On a non-blocking socket (timeout 0.0) the first system call decides and no wait happens. |
| CoopSocket.BadfReadsAsEnd | gevent/py3/socket.py:254-255 | For `recv` and `recv_into`, EBADF never escapes: a socket closed underneath reads as end of stream. |
| CoopSocket.Accept | gevent/py3/socket.py:179-195 | `accept` returns a cooperative socket for a descriptor some accept call produced, with that call's address. It stops exactly when the retry loop does. |
| CoopSocket.Recv | gevent/py3/socket.py:248-266 | `recv` returns some call's data, or "" when EBADF was seen. It never raises EBADF. |
| CoopSocket.RecvInto | gevent/py3/socket.py:290-307 | `recv_into` returns some call's count, or 0 when EBADF was seen. It never raises EBADF. |
| CoopSocket.RecvFrom | gevent/py3/socket.py:268-288 | `recvfrom` and `recvfrom_into` return some call's result. EBADF is raised like any other error. |
| CoopSocket.Connect | gevent/py3/socket.py:203-227 | On a non-blocking socket, `connect` is the real connect. A resolution failure is raised before any timer. A timer starts exactly for a blocking socket with a timeout, and it is always cancelled once the call finishes. |
| CoopSocket.ConnectRoundSucceeds | gevent/py3/socket.py:215-220 | A connect round ends successfully exactly when no error is pending and `connect_ex` reports 0 or EISCONN. |
| CoopSocket.ConnectRoundRetries | gevent/py3/socket.py:219-222 | A connect round goes around again exactly when the connect is in progress (EWOULDBLOCK, EINPROGRESS or EALREADY) and the write wait succeeded. |
| CoopSocket.ConnectEx | gevent/py3/socket.py:229-239 | `connect_ex` returns 0 on success, EAGAIN on a timeout and the errno of a plain `socket.error`. It raises exactly when the connect failed with something else, such as `gaierror`, and then raises that exception. |
| CoopSocket.ConnectSucceedsOnlyWhenConnected | gevent/py3/socket.py:203-227 | A blocking connect succeeds only through a round that connected. |
| CoopSocket.ConnectAsWritten | gevent/py3/socket.py:203-227 | As written, a blocking connect that reaches its loop always raises NameError for `sock`. |
| CoopSocket.ConnectAsWrittenNeverConnects | gevent/py3/socket.py:215-218 | A connection the intended loop completes in one round fails as written. |
| CoopSocket.Accepted | gevent/py3/socket.py:342 | A send takes no more than it was given, and exactly its count when that fits. |
| CoopSocket.SendAll | gevent/py3/socket.py:334-353 | What reaches the wire is exactly a prefix of the data, and its length is what the sends made so far accepted. Success means all of it was sent, with every send succeeding. The call stops short only when the sends or clock readings given run out, and then, without a timeout, data is still unsent. Without a timeout there is never a deadline error. With one, `socket.timeout` is raised only at the first clock reading past the deadline. Any other error is the last send's, every earlier send having succeeded. |
| CoopSocket.SentBy | gevent/py3/socket.py:341-348 | Each send is handed only the unsent rest, so the running total never exceeds the data. |
| CoopSocket.SentIsCountSum | gevent/py3/socket.py:341-348 | While the sends take no more than they were offered, the total `sendall` counts is the sum of the counts the sends returned. |
| Select.GetFileno | gevent/select.py:14-22 | An int is its own descriptor, and an object with `fileno()` gives what that returns. Anything else raises TypeError. |
| Select.AddRead | gevent/select.py:34-36 | `add_read` appends the object to the read list only and sets the event. |
| Select.AddWrite | gevent/select.py:38-40 | `add_write` appends the object to the write list only and sets the event. |
| Select.DeliverAccumulates | gevent/select.py:25-40 | Running callbacks appends each object to its own list, in order. The event is set exactly when some callback ran. |
| Select.ArmOne | gevent/select.py:57-59 | Arming succeeds exactly when the descriptor is found and `loop.io` accepts it. The watcher reports that object at the highest priority. |
| Select.ArmList | gevent/select.py:56-65 | Arming a list yields one watcher per object for a prefix of the list. On failure it stops at the first failing object with that object's error. |
| Select.ArmListStops | gevent/select.py:56-68 | Objects after a failing one are never armed. |
| Select.AsSelectError | gevent/select.py:66-68 | An IOError during arming, including a `socket.error` or one of its subclasses, becomes `select.error` with the same arguments, and other errors pass unchanged. |
| Select.ClosedSocketRaisesSelectError | gevent/select.py:55-68 | A socket whose `fileno()` raises `socket.error(EBADF)` arms nothing and is reported as `select.error(EBADF, ...)`. |
| Select.ArmLoop | gevent/select.py:56-65 | The arming loop computes exactly the watchers and error of the reference arming. |
| Select.StopAll | gevent/select.py:71-73 | The `finally` loop stops every started watcher, in order. |
| Select.Select | gevent/select.py:43-74 | Every started watcher is stopped and the timeout is always cancelled. An arming IOError, such as EBADF from the `fileno()` of a socket closed elsewhere, is raised as `select.error`. An interrupted wait raises its exception. Otherwise the result is the objects of the fired read and write watchers, with an empty third list. |
| Select.ArmedLayout | gevent/select.py:56-65 | After full arming, watcher i watches `rlist[i]` for reading, and watcher `len(rlist)+i` watches `wlist[i]` for writing. |
| Select.SelectReportsOwnLists | gevent/select.py:43-74 | Everything reported readable came from `rlist`, and everything reported writable from `wlist`. |
| Resolver.OnAnswer | gevent/resolver_ares.py:257-264 | Each answer lowers the count by one. A success is appended to the values and an error replaces the stored error. The waiter is switched exactly when the count is at or below zero afterwards. |
| Resolver.Get | gevent/resolver_ares.py:266-271 | `Values.get` succeeds exactly when some value was collected, returning them all. Otherwise it raises the stored error. |
| Resolver.CollectInvariant | gevent/resolver_ares.py:251-264 | After k answers the count has dropped by k and the values are the successes in order. The error is the last error, and the waiter was switched once when the count hit zero. |
| Resolver.JoinSucceedsIffAnySucceeded | gevent/resolver_ares.py:245-271 | A `Values(n)` fed its n answers wakes its waiter once. It succeeds exactly when some answer succeeded, with all successes. Otherwise it raises the last error. |
| Resolver.SuccessesNonEmptyIff | gevent/resolver_ares.py:268-271 | Some value is collected exactly when some answer succeeded. |
| Resolver.RewrappedBadServiceText | gevent/resolver_ares.py:81-87 | The text `str()` gives the EAI_SERVICE gaierror is "[Errno -8] Servname not supported for ai_socktype". |
| Resolver.LookupService | gevent/resolver_ares.py:68-87 | A service name is looked up as tcp then udp (socktype 0), as tcp, or as udp, and the socktype is set to match. For any other socktype the EAI_SERVICE gaierror is caught by `except error` and raised again as a gaierror whose only argument is its text, "[Errno -8] Servname not supported for ai_socktype". A lookup error saying "not found" becomes EAI_SERVICE, and other lookup errors are re-raised by their text. |
| Resolver.LookupPort | gevent/resolver_ares.py:63-97 | The port is always in [0, 65536). None gives 0, an int n gives n mod 65536, a decimal string gives its value mod 65536, and other types raise "Int or String expected". A service name with a socktype other than 0, 1 or 2 raises the rewrapped "[Errno -8] ..." gaierror. |
| Resolver.LookupPortDecimalString | gevent/resolver_ares.py:64-66 | A port written as a decimal string is looked up the same as the integer. |
| Resolver.FilterPairs | gevent/resolver_ares.py:112-116 | The filter keeps exactly the (socktype, proto) pairs that pass both tests, in order. |
| Resolver.FilterTable | gevent/resolver_ares.py:112-116 | On the three-entry table, the filter keeps each entry exactly when it passes. |
| Resolver.SocktypeProtoFilterAsWritten | gevent/resolver_ares.py:112-116 | As written, a pair is kept when `socktype & x == x` holds for its socket type and its protocol matches a non-zero `proto`. |
| Resolver.RawSocktypeMatchesEveryPair | gevent/resolver_ares.py:114 | As written, asking for SOCK_RAW (3) keeps the stream and datagram pairs too. |
| Resolver.SocktypeProtoFilter | gevent/resolver_ares.py:112-116 | As intended, a pair is kept when its socket type equals a non-zero `socktype` and its protocol a non-zero `proto`. |
| Resolver.FilterSelectsOwnPair | gevent/resolver_ares.py:112-116 | As intended, each socket type selects only its own pair, and protocol 17 selects the datagram pair. |
| Resolver.FilterAgreesOnPlainTypes | gevent/resolver_ares.py:112-116 | The corrected filter and the filter as written keep the same pairs whenever the socket type asked for is 0, stream or datagram once SOCK_NONBLOCK and SOCK_CLOEXEC are cleared. |
| Resolver.LowBits | gevent/resolver_ares.py:114 | `socktype & x == x` for x = 1, 2 and 3 tests the low bit, the second bit, and both. |
| Resolver.Entries | gevent/resolver_ares.py:146-147 | An address yields one entry per kept pair. |
| Resolver.AppendV4 | gevent/resolver_ares.py:143-147 | The IPv4 loop appends every address once per pair, in order. |
| Resolver.AppendV6 | gevent/resolver_ares.py:148-156 | The IPv6 loop sends `::1` entries to the front list and every other address to the IPv6 list, once per pair and in order. |
| Resolver.AssembleAddrInfo | gevent/resolver_ares.py:138-158 | The result is the `::1` entries, then all IPv4 entries, then the other IPv6 entries. |
| Resolver.Layout | gevent/resolver_ares.py:138-158 | The result has exactly one entry per answered address per kept pair, and every entry carries the looked-up port. |
| Resolver.Dedup | gevent/resolver_ares.py:135-136 | Two identical answers collapse to one, and anything else is kept. |
| Resolver.DuplicateAnswersCollapse | gevent/resolver_ares.py:134-158 | Identical IPv4 and IPv6 answers produce the layout of a single answer. |
| Resolver.Delegates | gevent/resolver_ares.py:100-107 | A unicode host is never handed to the system `getaddrinfo`. A host that is not a string always is. A byte string is handed over exactly when the AI_NUMERICHOST bit is set in the flags. |
| Resolver.HasBitFour | gevent/resolver_ares.py:102 | `flags & AI_NUMERICHOST` tests bit 2 of the flags alone. |
| Resolver.LookupFamilies | gevent/resolver_ares.py:120-132 | AF_UNSPEC queries both families, and AF_INET or AF_INET6 queries its own. Any other family is delegated. |
| Resolver.GetAddrInfo | gevent/resolver_ares.py:99-163 | `_getaddrinfo` delegates non-string hosts and AI_NUMERICHOST. It raises the port error before any lookup and delegates unknown families. It never returns an empty list for a family it resolves itself. Every entry it resolves itself carries the looked-up port. |
| Resolver.GetAddrInfoOutcome | gevent/resolver_ares.py:99-163 | For a family it resolves, `_getaddrinfo` fails with the last error when every lookup failed. Otherwise it returns the layout of the de-duplicated answers, or "No address associated with hostname" (-5) when that layout is empty. |
| Resolver.OnFork | gevent/resolver_ares.py:31-36 | In the same process the fork handler changes nothing. In a new process it replaces the channel with a new one and records the pid. |
| Resolver.OnForkIdempotent | gevent/resolver_ares.py:31-36 | Running the fork handler twice in the same process equals running it once. |
| Resolver.Retry | gevent/resolver_ares.py:165-172 | The retry loop uses at most the attempts given and stops early only when a call ends. |
| Resolver.RetryFirstAttempt | gevent/resolver_ares.py:165-172 | The first attempt decides, unless it failed with a gaierror after the channel was replaced by a fork. Then, and only then, the call is repeated. |
| Resolver.RetriesBoundedByForks | gevent/resolver_ares.py:165-172 | The loop never spins on its own: the number of attempts is at most one plus the number of forks seen. |
| Resolver.RetryKeeps | gevent/resolver_ares.py:235-242 | A successful result of the retry loop is the outcome of one of its attempts. |
| Resolver.HostByNameExAttempt | gevent/resolver_ares.py:52-57 | An answer with no addresses becomes gaierror -5, and any other answer passes through. |
| Resolver.GetHostByNameEx | gevent/resolver_ares.py:48-61 | `gethostbyname_ex` never returns an answer without addresses. |
| Resolver.ResolveSpecial | gevent/resolver_ares.py:274-280 | A non-empty name is kept. The empty name becomes the host of the single wildcard address, raises if the wildcard resolves to several, and passes on a lookup error. |
| Resolver.GetHostByName | gevent/resolver_ares.py:44-46 | `gethostbyname` raises a special-name error unchanged and otherwise returns the first address of a non-empty answer. |
| Resolver.GetHostByAddrOnce | gevent/resolver_ares.py:174-190 | The channel's answer is returned unless the text is not an IP. In that case the resolved address is asked instead, or the original error is re-raised when there is none or it is the same text. |
| Resolver.GetHostByAddr | gevent/resolver_ares.py:192-207 | The special name is resolved once before the retry loop, and a first successful round is returned. |
| Resolver.GetHostByAddrAnswered | gevent/resolver_ares.py:174-207 | A host `gethostbyaddr` returns is the channel's answer in one of the rounds, either for the special-resolved address or for the first address `_getaddrinfo` found for it. |
| Resolver.ChannelAddress | gevent/resolver_ares.py:221-227 | An IPv4 address must come from a 2-tuple. An IPv6 address keeps the resolved host and port and takes the caller's flow info and scope id. |
| Resolver.GetNameInfo | gevent/resolver_ares.py:209-233 | Non-int flags and non-tuple sockaddrs raise TypeError, and several resolved addresses raise an error. The call succeeds exactly when one address resolves and the channel answers, and a missing service reads "0". |
| Resolver.NameInfoQueriesGivenPort | gevent/resolver_ares.py:209-233 | When `getnameinfo` answers through c-ares, exactly one address resolved. The channel was asked about it at the caller's port (mod 65536), and the answer is the channel's node with its service, or "0". |
| WsgiInput.RfileRead | gevent/pywsgi.py:89 | `rfile.read(n)` takes a prefix of the stream of length min(n, available), or everything for a negative n. Nothing is lost or reordered. |
| WsgiInput.RfileReadLine | gevent/pywsgi.py:89 | `rfile.readline(n)` takes a prefix with no newline except at its end, at most n long. It stops at a newline whenever more data follows. |
| WsgiInput.ReadLineExact | gevent/pywsgi.py:129 | A line ending at its only newline is read whole, whatever follows. |
| WsgiInput.NewInput | gevent/pywsgi.py:50-56 | A new body reader is at position 0, before any chunk, and has sent nothing. |
| WsgiInput.SendContinue | gevent/pywsgi.py:66-69 | "100 Continue" is sent exactly once, when a socket is pending, and nothing else changes. |
| WsgiInput.DoReadAsWritten | gevent/pywsgi.py:71-95 | `_do_read` as written: without Content-Length it reads nothing. Otherwise it sends any pending continue and returns exactly the bytes consumed. A short read without a line end raises IOError naming the position reached (`WsgiInput.ShortReadNamesPosition`). |
| WsgiInput.ShortReadNamesPosition | gevent/pywsgi.py:88-93 | A body cut short after two of its four declared bytes fails with "unexpected end of file while reading request at position 2", the position counting the bytes the short read returned. |
| WsgiInput.NegativeLengthReadsPastBody | gevent/pywsgi.py:83-89 | As written, a negative size reads past the declared Content-Length. |
| WsgiInput.NoNegative | gevent/pywsgi.py:104-105 | A negative size is treated as no size, and other sizes are kept. |
| WsgiInput.DoRead | gevent/pywsgi.py:71-95 | The corrected `_do_read` returns exactly the bytes consumed and advances the position by their count. |
| WsgiInput.DoReadStaysInBody | gevent/pywsgi.py:82-89 | The corrected reader never moves past the declared Content-Length. |
| WsgiInput.SizeField | gevent/pywsgi.py:142 | The chunk-size field is the text before any ';'. |
| WsgiInput.DataRound | gevent/pywsgi.py:118-130 | A data round reads at most what is left of the chunk, only from the stream front, and advances the position by what it read. |
| WsgiInput.HeaderRound | gevent/pywsgi.py:137-145 | A header round consumes a size line and starts the chunk at position 0. A truncated line raises IOError and zeroes the chunk length. |
| WsgiInput.HeaderRoundReads | gevent/pywsgi.py:138-143 | A complete hexadecimal size line starts a chunk of that size. |
| WsgiInput.ChunkLoop | gevent/pywsgi.py:113-146 | The chunk loop only consumes the stream and returns no more than the size asked for. Without a size it ends at the last chunk, and an IOError leaves the chunk length zero. |
| WsgiInput.ChunkedRead | gevent/pywsgi.py:97-146 | `_chunked_read` sends any pending continue, reads nothing for size 0, and returns at most a positive size. Unbounded, it reads to the last chunk. |
| WsgiInput.Read | gevent/pywsgi.py:148-151 | `read` only consumes the stream from the front. A body bounded by Content-Length returns exactly what it consumed and, read from inside the body, never leaves it. A chunked read returns "" for size 0 and never more than a positive size. |
| WsgiInput.ReadLine | gevent/pywsgi.py:153-157 | `readline` gives the same guarantees, reading by lines. |
| Chunked.SizeLine | gevent/pywsgi.py:138-142 | A `%x\r\n` size line is read whole and parses back to the size. |
| Chunked.HeaderOfFrame | gevent/pywsgi.py:138-143 | The header of a written frame announces the frame's size. |
| Chunked.DataOfFrame | gevent/pywsgi.py:118-129 | The data of a frame is read in one round, with its trailing line break consumed. |
| Chunked.LoopFrameStep | gevent/pywsgi.py:113-143 | Reading one whole frame at a boundary appends exactly its data. |
| Chunked.LoopLastChunk | gevent/pywsgi.py:138-146 | The last chunk ends the loop, leaving the stream after it. |
| Chunked.LoopDecodesFrames | gevent/pywsgi.py:113-146 | The loop decodes any run of frames into their concatenation. |
| Chunked.ChunkedRoundTrip | gevent/pywsgi.py:97-146 | A body written as chunks of non-empty pieces and the last chunk reads back as the concatenated pieces. The bytes after it are left unread. |
| WsgiRequest.ParseInts | gevent/pywsgi.py:216 | `tuple(int(x) ...)` succeeds exactly when every part is an integer, giving each part's value. |
| WsgiRequest.CheckHttpVersion | gevent/pywsgi.py:212-219 | A version is accepted exactly when it reads "HTTP/" followed by two or more dot-separated integers whose tuple, compared as Python compares tuples, lies from (0, 9) up to but not including (2, 0), with a non-negative second part; so "HTTP/1.1.5" is accepted. A non-integer part raises ValueError, and fewer than two parts raise IndexError. |
| WsgiRequest.SupportedIsTupleRange | gevent/pywsgi.py:217 | Python's tuple comparisons against (0, 9) and (2, 0) describe exactly the supported range. |
| WsgiRequest.VersionNumbersOf | gevent/pywsgi.py:216 | The version "HTTP/M.N" reads back as (M, N). |
| WsgiRequest.VersionAccepted | gevent/pywsgi.py:212-219 | "HTTP/M.N" is accepted exactly for 0.9 to 1.x. |
| WsgiRequest.VersionShape | gevent/pywsgi.py:263 | Only 1.1 is spelled "HTTP/1.1". |
| WsgiRequest.Get | gevent/pywsgi.py:245 | A header lookup finds nothing exactly when no field has the name, ignoring case. Otherwise it gives the last such field's value. |
| WsgiRequest.Delete | gevent/pywsgi.py:246-249 | Deleting a header removes every field of that name and keeps all others. |
| WsgiRequest.RequestLine | gevent/pywsgi.py:222-238 | The line, stripped on the right, is accepted only with three words and a valid version, or as two words "GET path" at HTTP/0.9. Other word counts and other two-word verbs are refused. It raises exactly when the third of three words is a version that does not parse. |
| WsgiRequest.CheckHeaders | gevent/pywsgi.py:240-272 | A bad header block is refused. A chunked request loses its Content-Length. A negative length, or a non-zero one on GET or HEAD, is refused. `close_connection` is decided from the version and the Connection field. |
| WsgiRequest.ReadRequest | gevent/pywsgi.py:221-272 | `read_request` accepts exactly a valid request line followed by accepted headers. A version that does not parse raises. |
| WsgiRequest.CloseConnection | gevent/pywsgi.py:263-270 | The connection stays open exactly for HTTP/1.1 without "Connection: close", ignoring case. |
| WsgiRequest.RequestLineWords | gevent/pywsgi.py:222-223 | "verb path version" followed by line-end whitespace splits into those three words. |
| WsgiRequest.RequestLineAccepted | gevent/pywsgi.py:221-272 | A well-formed three-word line with a supported version and clean headers is accepted with those words. |
| WsgiRequest.HandleOneRequest | gevent/pywsgi.py:292-318 | A closed stream, a read error or an empty request line ends quietly, and nothing else does. The only answers are 414 and 400 with their fixed bodies. Proceeding means the line was non-empty, shorter than 8192 and accepted by `read_request`. |
| WsgiRequest.TooLongIff | gevent/pywsgi.py:297-308 | The 414 answer comes exactly when the line read is 8192 bytes long. |
| WsgiRequest.LineReadLength | gevent/pywsgi.py:290 | `readline(n)` returns n bytes exactly when n are available and no newline comes before the last. |
| WsgiRequest.ProceedIff | gevent/pywsgi.py:292-318 | The handler proceeds to the application exactly when the line is non-empty, shorter than 8192 and accepted by `read_request`. |
| WsgiResponse.CapitalizeAll | gevent/pywsgi.py:405 | Each piece is capitalised and the count is kept. |
| WsgiResponse.TitleFrom | gevent/pywsgi.py:405 | The one-pass reference normalisation keeps the length. |
| WsgiResponse.HeaderNameIsTitle | gevent/pywsgi.py:405 | Split on '-', capitalise and join equals the one-pass reference: upper case after each '-' and at the start, lower case elsewhere. |
| WsgiResponse.TitleIgnoresCase | gevent/pywsgi.py:405 | Names that differ only in case normalise alike. |
| WsgiResponse.TitleIdempotent | gevent/pywsgi.py:405 | Normalising twice equals normalising once. |
| WsgiResponse.HeaderNameNormalises | gevent/pywsgi.py:405 | Header-name normalisation ignores case and is idempotent. |
| WsgiResponse.StatusCode | gevent/pywsgi.py:403 | The code is the integer before the first space, and a non-integer raises. |
| WsgiResponse.StatusCodeOf | gevent/pywsgi.py:403 | "NNN reason" yields NNN. |
| WsgiResponse.NewHandler | gevent/pywsgi.py:446-451 | A response starts with no status, no headers sent, not chunked and length 0. |
| WsgiResponse.StartResponse | gevent/pywsgi.py:394-406 | With exception info after the headers went out, the exception is re-raised. Otherwise the status, its code and the normalised headers are recorded, and a bad code raises. |
| WsgiResponse.TotalLengthIsConcat | gevent/pywsgi.py:356 | The summed lengths of the pieces equal the length of their concatenation. |
| WsgiResponse.DateHeader | gevent/pywsgi.py:342-344 | A Date header is added exactly when the application did not set one. |
| WsgiResponse.ConnectionHeader | gevent/pywsgi.py:346-348 | "Connection: close" is added exactly for HTTP/1.0 without a Connection header. |
| WsgiResponse.FramingHeader | gevent/pywsgi.py:352-360 | For a status that has a body and no Content-Length, a sized result gets Content-Length. An unsized one gets chunked coding except on HTTP/1.0. |
| WsgiResponse.FinalizeHeaders | gevent/pywsgi.py:341-360 | The application's headers are kept as a prefix. The connection closes exactly on HTTP/1.0 without Connection or on "Connection: close". Chunking is used exactly when needed. |
| WsgiResponse.FinalizeShape | gevent/pywsgi.py:341-360 | The finalised headers are the application's followed by the added ones. |
| WsgiResponse.FinalizeAddsOnlyMissing | gevent/pywsgi.py:341-360 | Every added header except Transfer-Encoding has a name the application did not use. |
| WsgiResponse.FinalizeDate | gevent/pywsgi.py:342-344 | A Date header is always present afterwards, and the server's is added exactly when missing. |
| WsgiResponse.FinalizeChunked | gevent/pywsgi.py:358-360 | A chunked response carries "Transfer-Encoding: chunked" and no Content-Length. |
| WsgiResponse.FinalizeSized | gevent/pywsgi.py:354-356 | A sized result gets a Content-Length equal to the total of its pieces. |
| WsgiResponse.FinalizeDelimited | gevent/pywsgi.py:352-360 | Every response with a body to a request newer than HTTP/1.0 is delimited by Content-Length or chunking. |
| WsgiResponse.Write | gevent/pywsgi.py:362-392 | `write` before `start_response` raises an AssertionError. The first write sends the header block once. Data is framed when chunked, and the counted length grows by what was sent. A failed send records a "socket error" status and negates the code. |
| WsgiResponse.StartHeaders | gevent/pywsgi.py:366-374 | The header block goes out once: later writes add nothing. |
| WsgiResponse.NonEmpty | gevent/pywsgi.py:431-433 | Skipping empty pieces leaves the concatenated body unchanged. |
| WsgiResponse.Trailer | gevent/pywsgi.py:434-438 | After the pieces, the last chunk follows a chunked body. The header block is sent alone if no piece carried it. |
| WsgiResponse.WriteAll | gevent/pywsgi.py:431-433 | After `start_response`, writing the pieces raises nothing, keeps the status, and has the headers sent exactly when they already were or some piece is non-empty. Before it, a non-empty piece raises the "did not call start_response()" AssertionError and nothing is sent. |
| WsgiResponse.ProcessResult | gevent/pywsgi.py:430-438 | After `start_response`, the headers are always sent and a chunked response ends with the last chunk. Without it, a non-empty result raises the AssertionError and nothing is sent. |
| WsgiResponse.WriteAllAfterHeaders | gevent/pywsgi.py:431-433 | Once the headers are out, writing the pieces sends exactly their body and changes nothing but the count. |
| WsgiResponse.WriteAllFromStart | gevent/pywsgi.py:431-433 | Before the headers, empty pieces send nothing, and the first non-empty piece sends the finalised header block and then the body. |
| WsgiResponse.ResponseLayout | gevent/pywsgi.py:430-438 | The whole response is the header block exactly once, then the body, framed and followed by the last chunk when chunked. |
| WsgiResponse.ContentLengthMatchesBody | gevent/pywsgi.py:354-356 | A sized response's Content-Length equals the length of the body actually sent. |
| WsgiResponse.ChunkedBodyRoundTrip | gevent/pywsgi.py:376-379 | The server's own chunked reader decodes a chunked response body back into the concatenated pieces. |
| WsgiEnviron.PathQuery | gevent/pywsgi.py:482-485 | The path splits at the first '?', or has an empty query when there is none. |
| WsgiEnviron.Unquote | gevent/pywsgi.py:486 | Unescaping never lengthens the text and leaves text without '%' unchanged. |
| WsgiEnviron.Quote | gevent/pywsgi.py:486 | The reference escaping never produces '?'. |
| WsgiEnviron.UnquoteQuote | gevent/pywsgi.py:486 | Unescaping undoes escaping, for every string. |
| WsgiEnviron.EnvName | gevent/pywsgi.py:504 | The variable name is the field name with '-' as '_', in upper case, character by character. |
| WsgiEnviron.HeaderKey | gevent/pywsgi.py:503-507 | Every field except Content-Type and Content-Length goes under an `HTTP_` variable. |
| WsgiEnviron.AddHeaders | gevent/pywsgi.py:502-514 | The header loop keeps every variable it found, and it adds only variables some field goes under. |
| WsgiEnviron.AddHeadersValue | gevent/pywsgi.py:502-514 | After the header loop, a variable is set exactly when it was set before or some field goes under it. It holds its values in order, joined by "; " for cookies and "," otherwise. |
| WsgiEnviron.KeepsOthers | gevent/pywsgi.py:502-514 | The header loop leaves every variable outside `HTTP_*` untouched. |
| WsgiEnviron.BaseVars | gevent/pywsgi.py:477-500 | The per-request variables keep the server's variables and add only the nine request variables. A server variable outside those nine is unchanged. REMOTE_ADDR is added only when the client address is a tuple. |
| WsgiEnviron.GetEnviron | gevent/pywsgi.py:477-523 | The body stream reads the request stream with its Content-Length. It owes "100 Continue" exactly for "Expect: 100-continue" and decodes chunks exactly for a chunked Transfer-Encoding variable. |
| WsgiEnviron.RequestVariables | gevent/pywsgi.py:479-495 | REQUEST_METHOD is the command and SCRIPT_NAME is empty. PATH_INFO is the unescaped path, QUERY_STRING the query, and SERVER_PROTOCOL "HTTP/1.0". |
| WsgiEnviron.ContentVariables | gevent/pywsgi.py:489-494 | CONTENT_TYPE is the request's type, and CONTENT_LENGTH is its length when non-empty. |
| WsgiEnviron.PeerVariables | gevent/pywsgi.py:497-500 | REMOTE_ADDR and REMOTE_PORT give the peer's host and port. |
| WsgiEnviron.PathRoundTrip | gevent/pywsgi.py:482-487 | An escaped path with a query arrives unescaped in PATH_INFO, with the query intact. |
| WsgiEnviron.HeaderVariables | gevent/pywsgi.py:502-514 | Every `HTTP_*` variable the base environment lacks holds exactly the joined stripped values of its fields, or is absent. |
| WsgiEnviron.FreshVariable | gevent/pywsgi.py:508-514 | A variable first set by the loop holds the joined values of its fields. |
| WsgiEnviron.NoHttpContentVariables | gevent/pywsgi.py:505 | No `HTTP_CONTENT_TYPE` or `HTTP_CONTENT_LENGTH` is ever made from the fields. |
| WsgiEnviron.TransferEncodingName | gevent/pywsgi.py:504-507 | A field goes under HTTP_TRANSFER_ENCODING exactly when its name is "transfer-encoding" in any case. |
| WsgiEnviron.ChunkedAgrees | gevent/pywsgi.py:245 | With one well-formed Transfer-Encoding field, `get_environ` and `read_request` agree on chunking. |
| WsgiEnviron.TwoTransferEncodingsDisagree | gevent/pywsgi.py:520 | With Transfer-Encoding "gzip" then "chunked", `read_request` treats the request as chunked and `get_environ` does not. |
| WsgiEnviron.JoinedVariable | gevent/pywsgi.py:508-512 | Two fields under one variable leave it holding both values joined with the separator. |
| HttpDate.Repeat | gevent/pywsgi.py:45 | Padding is n copies of the fill character. |
| HttpDate.LeftPad | gevent/pywsgi.py:45 | A field is right-aligned to its width and never truncated. |
| HttpDate.FormatDateTime | gevent/pywsgi.py:43-45 | The date reads weekday name, ", ", the two-digit day, a space, the month name, a space, the year, a space, two-digit hour, minute and second separated by ":", and " GMT", each field holding its value. |
| HttpDate.LayoutFields | gevent/pywsgi.py:45 | A head and a tail that read as the time's fields, put around the year, lay the fields out at their fixed positions. |
| HttpDate.ParseDateTime | gevent/pywsgi.py:43-45 | Whatever the reader accepts is a broken-down time within the ranges `gmtime` produces. |
| HttpDate.FormatLength | gevent/pywsgi.py:43-45 | The date is 29 characters for four-digit years and longer only by extra year digits. |
| HttpDate.ParseFormat | gevent/pywsgi.py:43-45 | Round trip: reading the formatted date recovers every field of the broken-down time. |
| HttpDate.NamesShape | gevent/pywsgi.py:45 | Weekday and month names are distinct three-letter words. |
| Text.ShowNatValue | gevent/pywsgi.py:356 | `str(n)` for a natural n consists of digits whose value is n. |
| Text.ParseShowInt | gevent/resolver_ares.py:66 | `int(str(i)) == i` for every integer. |
| Text.ShowHexValue | gevent/pywsgi.py:379 | `%x` of n consists of hexadecimal digits whose value is n. |
| Text.ParseShowHex | gevent/pywsgi.py:142 | `int("%x" % n + tail, 16)` gives n back when the tail is whitespace. |
| Text.JoinSplit | gevent/pywsgi.py:405 | Joining the pieces of a split with the separator gives back the string. |
| Text.SplitNoSeparator | gevent/pywsgi.py:405 | No piece of a split contains the separator. |
| Text.WordsSingle | gevent/pywsgi.py:223 | A word without whitespace splits into itself. |

## Left out

- Threads: one hub per thread is modelled through the thread-local record only. Thread creation is left out.
- `spawn_raw`, `signal`, `fork` and `core.reinit` in `gevent/hub.py`: these only forward to the event loop. `kill` is modelled as the queueing of a throw.
- The event loop itself (libev `core`, `dispatch`, timers, `active_event` callbacks): its outcomes are parameters. Timers are recorded as started or cancelled, and their expiry is one of the ways a wait ends.
- `Timeout`: only its start and cancel are recorded. Its expiry is a thrown-in exception.
- `traceback.print_exc` and `sys.stderr.write`: logging becomes a "reported" flag or is left out.
- `log_error`, `log_request`, `format_request` and `handle_error` in `gevent/pywsgi.py`: these are logging and error reporting with no effect on the protocol state modelled.
- `handle_one_response`, `run_application` and `Input._discard`: the application call and its `close` are not modelled. `process_result` is modelled given the pieces the application returned.
- `Input.readlines`, `Input.__iter__` and `Input.next`: these are thin loops over `readline`.
- The `mimetools.Message` header parser: the header block is given already parsed, as fields and a status. Continuation lines and `typeheader` parsing are not modelled.
- `time.gmtime` and `time.time`: the clock and the broken-down time are parameters of `HttpDate` and `CoopSocket.SendAll`.
- Floating-point timeouts: a timeout is an optional real, compared only with 0.0 and the clock.
- c-ares channel calls (`gethostbyname`, `gethostbyaddr`, `getnameinfo`) and the system `getaddrinfo`/`getservbyname`: their answers are parameters.
- `Resolver.close` and resolver construction: lifecycle only.
- IDNA encoding of host names, and the Python 3 `decode('idna')` of `gethostbyaddr` results: these are identity maps on the ASCII names modelled.
- `_getaddrinfo` for a unicode host: the source encodes it with IDNA (`gevent/resolver_ares.py:100-101`) and then resolves it with c-ares, never delegating it. The model keeps that branch structure but takes the encoding as the identity on the ASCII names modelled.
- The socket's `send`, `sendto` and `dup`: `sendall` takes the outcomes of its `send` calls as input.
- `_get_memory`, and the text-to-bytes encoding in `sendall`.
- The Windows `EINVAL` branch of `connect` (`gevent/py3/socket.py:221`): the model is for Linux.
- The `getaddrinfo` call inside `connect`: its outcome is the `resolution` parameter.
- `select`'s `xlist`: the source ignores it, and so does the model.
- CoopSocket.Accept, CoopSocket.Recv, CoopSocket.RecvInto, CoopSocket.RecvFrom, CoopSocket.Connect, Resolver.Retry, Resolver.GetHostByNameEx, Resolver.GetHostByAddr: an unbounded `while True` loop is modelled over a finite sequence of environment outcomes, and returns `StillRunning` when they run out. A call that never ends is not distinguished from one whose outcomes were cut short.
- Hub.Run: the sixteen dispatch attempts are explicit. The `signal(2, ...)` registration is a given id.
- WsgiResponse.Write: a failed send is modelled only in `write`.
- WsgiResponse.ProcessResult, WsgiResponse.WriteAll: modelled for sends that succeed. A failing `sendall` that `write` re-raises (`gevent/pywsgi.py:384-390`) is not followed through `process_result`, so "raises nothing" holds only under that assumption.
- Resolver.GetAddrInfo: uses the corrected socket-type filter, which compares the type asked for, with SOCK_NONBLOCK and SOCK_CLOEXEC cleared, for equality. It agrees with the source's bit test whenever that type is 0, stream or datagram (`Resolver.FilterAgreesOnPlainTypes`). It differs for other types such as SOCK_RAW, for which the source also keeps the stream and datagram pairs (`Resolver.RawSocktypeMatchesEveryPair`).
- Resolver.GetAddrInfoOutcome: states its layout with the same corrected filter as `Resolver.GetAddrInfo`.
- WsgiInput.Read: a body bounded by Content-Length is read through the corrected `_do_read`, so a negative size stops at Content-Length where the source reads past it (`WsgiInput.NegativeLengthReadsPastBody`).
- WsgiInput.ReadLine: the same corrected `_do_read` is used for lines.
- Watchers.HubWait, Watchers.CancelWait, Watchers.NewIo: `hub.wait`, `hub.cancel_wait` and `loop.io` are called by `gevent/py3/socket.py` but are not defined in the `gevent/hub.py` modelled. These members stand for the protocol their callers rely on. The refusal of an armed watcher, and its message, are assumed.
- Hub.Attach, Hub.WaiterWait, Hub.Sleep, CoopSocket.Wait: the assertion messages stop before the `%r` the source appends (`gevent/hub.py:70`, `gevent/hub.py:255`, `gevent/py3/socket.py:77`). The repr of a greenlet, a switch result or a callback is not modelled.
- Hub.Sleep: the hub is a parameter, so a `get_hub()` that raises (no hub type bound to the thread) is not modelled inside `sleep`; `Hub.GetHub` models that failure on its own.
- WsgiRequest.Get: keys are looked up in lower case, with the last matching field winning, which is what `rfc822.Message.get` does for a header stored once per name.

## Findings

| source | as written | input that shows it | evidently intended | confidence | as-written member | corrected member |
|---|---|---|---|---|---|---|
| gevent/pywsgi.py:82-89 | A negative `length` passed to `read`/`readline` is handed to `rfile.read`/`readline`, which reads to end of stream, past the Content-Length. | Body "ab" with Content-Length 2 and "cd" behind it; `read(-1)` returns "abcd". | A negative size means the rest of the body, as `_chunked_read` does at line 104. | not executed | WsgiInput.DoReadAsWritten, WsgiInput.NegativeLengthReadsPastBody | WsgiInput.DoRead, WsgiInput.DoReadStaysInBody |
| gevent/resolver_ares.py:114 | The socket-type filter tests `socktype & x == x`. | `getaddrinfo(host, port, 0, SOCK_RAW)`: 3 & 1 == 1 and 3 & 2 == 2, so all three pairs are kept. | Keep the pair whose socket type equals the requested one, ignoring the SOCK_NONBLOCK and SOCK_CLOEXEC flags, which is what the bit test already does for stream and datagram. | not executed, medium | Resolver.SocktypeProtoFilterAsWritten, Resolver.RawSocktypeMatchesEveryPair | Resolver.SocktypeProtoFilter, Resolver.FilterSelectsOwnPair, Resolver.FilterAgreesOnPlainTypes |
| gevent/py3/socket.py:198 | `close` calls the real close on the undefined name `selfi`, so it raises before cancelling the waits. This shows once the tab indentation of line 198 is repaired; as text the module does not import. | Any `close()` while another greenlet waits to read. That greenlet is never woken. | Close the descriptor, then cancel both waits with EBADF. | not executed | CoopSocket.CloseAsWritten, CoopSocket.CloseAsWrittenLeavesReaderWaiting | CoopSocket.Close, CoopSocket.CloseWakesReader |
| gevent/py3/socket.py:215-218 | The connect loop reads `SO_ERROR` from an undefined `sock` and calls `self.connect_ex(self, address)`. This shows once the tab indentation of lines 148 and 198 is repaired; as text the module does not import. | Any blocking `connect` raises NameError before its first connect attempt. | Read the pending error from `self`, then call `self.connect_ex(address)`. | not executed | CoopSocket.ConnectAsWritten, CoopSocket.ConnectAsWrittenNeverConnects | CoopSocket.Connect, CoopSocket.ConnectSucceedsOnlyWhenConnected |

=== FILE: chunked.dfy ===
/** The chunked transfer coding of section 4.1 of RFC 7230 as the WSGI
    server writes it (each non-empty piece of the response as a size line in
    hexadecimal, the data and a line break, then a zero-size last chunk),
    and the proof that the server's own chunked body reader decodes it back
    to the data written. */
module Chunked {
  import opened Wrappers
  import opened Text
  import WsgiInput

  const CRLF := "\r\n"

  /** `"%x\r\n%s\r\n" % (len(data), data)`: one chunk. */
  function Frame(data: string): string {
    ShowHex(|data|) + CRLF + data + CRLF
  }

  /** The terminating zero-size chunk with an empty trailer. */
  const LastChunk := "0\r\n\r\n"

  function Frames(ds: seq<string>): string {
    if |ds| == 0 then "" else Frame(ds[0]) + Frames(ds[1..])
  }

  function Concat(ds: seq<string>): string {
    if |ds| == 0 then "" else ds[0] + Concat(ds[1..])
  }

  predicate NonEmptyPieces(ds: seq<string>) {
    forall i :: 0 <= i < |ds| ==> |ds[i]| > 0
  }

  /** A size line is read whole and parses back to the size. */
  lemma SizeLine(n: nat, rest: string)
    ensures WsgiInput.RfileReadLine(ShowHex(n) + CRLF + rest, -1) == (ShowHex(n) + CRLF, rest)
    ensures WsgiInput.SizeField(ShowHex(n) + CRLF) == ShowHex(n) + CRLF
    ensures ParseHex(ShowHex(n) + CRLF) == Some(n)
  {
    var line := ShowHex(n) + CRLF;
    assert forall i :: 0 <= i < |line| - 1 ==> line[i] != '\n' by {
      forall i | 0 <= i < |line| - 1
        ensures line[i] != '\n'
      {
        if i < |ShowHex(n)| {
          assert IsHexDigit(ShowHex(n)[i]);
        }
      }
    }
    assert ShowHex(n) + CRLF + rest == line + rest;
    WsgiInput.ReadLineExact(line, rest);
    assert ';' !in line by {
      forall i | 0 <= i < |line|
        ensures line[i] != ';'
      {
        if i < |ShowHex(n)| {
          assert ShowHex(n)[i] != ';';
        }
      }
    }
    ParseShowHex(n, CRLF);
  }

  /** The header line of a frame announces the frame's size. */
  lemma HeaderOfFrame(inp: WsgiInput.Input, d: string, after: string)
    requires |d| > 0
    requires inp.rfile == ShowHex(|d|) + CRLF + (d + CRLF + after)
    ensures WsgiInput.HeaderRound(inp).0.None?
    ensures WsgiInput.HeaderRound(inp).1.rfile == d + CRLF + after
    ensures WsgiInput.HeaderRound(inp).1.chunkLength == |d| && WsgiInput.HeaderRound(inp).1.position == 0
  {
    SizeLine(|d|, d + CRLF + after);
    WsgiInput.HeaderRoundReads(inp, ShowHex(|d|) + CRLF, d + CRLF + after, |d|);
  }

  /** The data of a frame is read in one round, with its line break. */
  lemma DataOfFrame(inp: WsgiInput.Input, d: string, after: string)
    requires |d| > 0 && inp.rfile == d + CRLF + after
    requires inp.chunkLength == |d| && inp.position == 0
    ensures WsgiInput.DataRound(inp, |d|, false).0 == d
    ensures WsgiInput.DataRound(inp, |d|, false).1.rfile == after
    ensures WsgiInput.DataRound(inp, |d|, false).1.chunkLength == |d|
    ensures WsgiInput.DataRound(inp, |d|, false).1.position == |d|
  {
    assert inp.rfile == d + (CRLF + after);
    WsgiInput.SplitAt(inp.rfile, d, CRLF + after);
    assert WsgiInput.Reader(inp.rfile, |d|, false) == (d, CRLF + after);
    WsgiInput.ReadLineExact(CRLF, after);
    assert WsgiInput.RfileReadLine(CRLF + after, -1) == (CRLF, after);
    var r := WsgiInput.DataRound(inp, |d|, false);
    assert r.0 == d;
    assert r.1.position == |d|;
    assert r.1.rfile == after;
  }

  /** At a chunk boundary the loop reads the next header and goes on. */
  lemma LoopHeaderStep(inp: WsgiInput.Input, acc: string)
    requires inp.chunkLength != 0 && inp.chunkLength <= inp.position
    requires WsgiInput.HeaderRound(inp).0.None?
    ensures WsgiInput.ChunkLoop(inp, None, false, acc) == WsgiInput.ChunkLoop(WsgiInput.HeaderRound(inp).1, None, false, acc)
  {
  }

  /** Inside a chunk the loop reads its data and goes on. */
  lemma LoopDataStep(inp: WsgiInput.Input, acc: string)
    requires inp.chunkLength > inp.position >= 0
    requires |WsgiInput.DataRound(inp, inp.chunkLength - inp.position, false).0| > 0
    ensures var r := WsgiInput.DataRound(inp, inp.chunkLength - inp.position, false);
      WsgiInput.ChunkLoop(inp, None, false, acc) == WsgiInput.ChunkLoop(r.1, None, false, acc + r.0)
  {
    var none: Option<int> := None;
    var r := WsgiInput.DataRound(inp, inp.chunkLength - inp.position, false);
    assert WsgiInput.ChunkLoop(inp, none, false, acc) == WsgiInput.ChunkLoop(r.1, none, false, acc + r.0);
  }

  /** The last chunk ends the body and its trailing line break is consumed. */
  lemma HeaderOfLastChunk(inp: WsgiInput.Input, rest: string)
    requires inp.rfile == LastChunk + rest
    ensures WsgiInput.HeaderRound(inp).0.None?
    ensures WsgiInput.HeaderRound(inp).1.rfile == rest && WsgiInput.HeaderRound(inp).1.chunkLength == 0
  {
    assert ShowHex(0) == "0";
    SizeLine(0, CRLF + rest);
    assert inp.rfile == ShowHex(0) + CRLF + (CRLF + rest);
    WsgiInput.ReadLineExact(CRLF, rest);
  }

  /** One whole frame at a chunk boundary: the loop reads its header and
      its data and is back at a chunk boundary after it. */
  lemma LoopFrameStep(inp: WsgiInput.Input, ds: seq<string>, rest: string, acc: string) returns (inp2: WsgiInput.Input)
    requires inp.chunkLength != 0 && inp.chunkLength <= inp.position
    requires |ds| > 0 && NonEmptyPieces(ds)
    requires inp.rfile == Frames(ds) + LastChunk + rest
    ensures inp2.rfile == Frames(ds[1..]) + LastChunk + rest
    ensures inp2.chunkLength != 0 && inp2.chunkLength <= inp2.position
    ensures NonEmptyPieces(ds[1..])
    ensures WsgiInput.ChunkLoop(inp, None, false, acc) == WsgiInput.ChunkLoop(inp2, None, false, acc + ds[0])
  {
    var d := ds[0];
    var after := Frames(ds[1..]) + LastChunk + rest;
    NonEmptyTail(ds);
    FramesCons(ds, rest);
    HeaderOfFrame(inp, d, after);
    var inp1 := WsgiInput.HeaderRound(inp).1;
    DataOfFrame(inp1, d, after);
    inp2 := WsgiInput.DataRound(inp1, |d|, false).1;
    LoopHeaderStep(inp, acc);
    LoopDataStep(inp1, acc);
  }

  /** At a chunk boundary the last chunk ends the loop. */
  lemma LoopLastChunk(inp: WsgiInput.Input, rest: string, acc: string)
    requires inp.chunkLength != 0 && inp.chunkLength <= inp.position
    requires inp.rfile == LastChunk + rest
    ensures var out := WsgiInput.ChunkLoop(inp, None, false, acc);
      out.0 == Success(acc) && out.1.rfile == rest && out.1.chunkLength == 0
  {
    HeaderOfLastChunk(inp, rest);
    LoopHeaderStep(inp, acc);
  }

  lemma ConcatCons(acc: string, ds: seq<string>)
    requires |ds| > 0
    ensures acc + ds[0] + Concat(ds[1..]) == acc + Concat(ds)
  {
  }

  lemma FramesCons(ds: seq<string>, rest: string)
    requires |ds| > 0
    ensures Frames(ds) + LastChunk + rest
      == ShowHex(|ds[0]|) + CRLF + (ds[0] + CRLF + (Frames(ds[1..]) + LastChunk + rest))
  {
    var t := Frames(ds[1..]) + LastChunk + rest;
    calc {
      Frames(ds) + LastChunk + rest;
      (ShowHex(|ds[0]|) + CRLF + ds[0] + CRLF + Frames(ds[1..])) + LastChunk + rest;
      ShowHex(|ds[0]|) + CRLF + ds[0] + CRLF + t;
      ShowHex(|ds[0]|) + CRLF + (ds[0] + CRLF + t);
    }
  }

  lemma NonEmptyTail(ds: seq<string>)
    requires |ds| > 0 && NonEmptyPieces(ds)
    ensures |ds[0]| > 0 && NonEmptyPieces(ds[1..])
  {
    assert |ds[0]| > 0;
    forall i | 0 <= i < |ds[1..]|
      ensures |ds[1..][i]| > 0
    {
      assert ds[1..][i] == ds[i + 1];
    }
  }

  /** The chunk loop, started at a chunk boundary, decodes a run of frames
      and the last chunk into the concatenated data, leaving exactly what
      follows the last chunk unread. */
  lemma {:induction false} LoopDecodesFrames(inp: WsgiInput.Input, ds: seq<string>, rest: string, acc: string)
    requires inp.chunkLength != 0 && inp.chunkLength <= inp.position
    requires inp.rfile == Frames(ds) + LastChunk + rest
    requires NonEmptyPieces(ds)
    ensures var out := WsgiInput.ChunkLoop(inp, None, false, acc);
      out.0 == Success(acc + Concat(ds)) && out.1.rfile == rest && out.1.chunkLength == 0
    decreases |ds|
  {
    if |ds| == 0 {
      assert inp.rfile == LastChunk + rest;
      LoopLastChunk(inp, rest, acc);
      assert acc + Concat(ds) == acc;
    } else {
      var inp2 := LoopFrameStep(inp, ds, rest, acc);
      LoopDecodesFrames(inp2, ds[1..], rest, acc + ds[0]);
      ConcatCons(acc, ds);
    }
  }

  /** Round trip: a body written as chunks of non-empty pieces followed by
      the last chunk is read back by `wsgi.input.read()` as the pieces
      concatenated, and reading stops right after the last chunk. */
  lemma ChunkedRoundTrip(ds: seq<string>, rest: string)
    requires NonEmptyPieces(ds)
    ensures var inp := WsgiInput.NewInput(Frames(ds) + LastChunk + rest, None, false, true);
      var out := WsgiInput.Read(inp, None);
      out.0 == Success(Concat(ds)) && out.1.rfile == rest
  {
    var inp := WsgiInput.NewInput(Frames(ds) + LastChunk + rest, None, false, true);
    LoopDecodesFrames(inp, ds, rest, "");
    assert "" + Concat(ds) == Concat(ds);
  }
}

=== FILE: coop_socket.dfy ===
/** The cooperative socket: non-blocking system calls retried after waiting
    on the socket's read or write watcher, timeouts armed around each wait
    and always disarmed, and closing or shutting down a socket cancelling the
    waits of other greenlets with EBADF.

    The system calls, `getaddrinfo`, the clock and the outcome of each wait
    are not modelled; their outcomes are handed in as finite scripts, and a
    call whose script runs out before it finishes is `StillRunning`. The
    timer of `Timeout.start_new` is modelled only as started or cancelled:
    when it fires, the wait ends with the timeout exception thrown in. */
module CoopSocket {
  import opened Wrappers
  import opened Exceptions
  import Hub
  import Watchers

  /** Linux errno values. */
  const EBADF := 9
  const EAGAIN := 11
  const EWOULDBLOCK := 11
  const EISCONN := 106
  const EALREADY := 114
  const EINPROGRESS := 115

  /** `cancel_wait_ex`: what a cancelled wait raises. */
  const CancelWaitEx := SocketError(EBADF)

  /** `args[0]` of a caught `socket.error` when it is an errno: the error
      itself and `gaierror` carry a number, a timeout or an error made from
      a message carry text, and anything else is not a `socket.error`. */
  function ErrnoOf(e: Exc): Option<int> {
    match e
    case SocketError(n) => Some(n)
    case GaiError(c, _) => Some(c)
    case _ => None
  }

  /** A socket timeout of 0.0: the socket is in non-blocking mode. */
  predicate NonBlocking(timeout: Option<real>) {
    timeout == Some(0.0)
  }

  // ---------------------------------------------------------------------
  // wait, wait_read, wait_write, wait_readwrite, cancel_wait

  /** Whether a timer was started for a wait and whether it was cancelled. */
  datatype TimerLog = TimerLog(started: bool, cancelled: bool)

  datatype WaitOutcome = WaitOutcome(result: Result<(), Exc>, watcher: Watchers.IoWatcher, timer: TimerLog)

  /** `wait(io, timeout)` (and the socket's own `_wait`, which takes the
      socket's timeout) from greenlet `cur`: a watcher another greenlet
      waits on is refused before any timer starts; otherwise a timer is
      started when a timeout is given, the hub waits on the watcher, and
      the timer is cancelled however the wait ended. */
  function Wait(io: Watchers.IoWatcher, timeout: Option<real>, cur: Hub.TaskId, hub: Hub.TaskId, end: Watchers.WaitEnd): (r: WaitOutcome)
    ensures io.Armed() ==> r.result.Failure? && r.result.error.AssertionError? && r.watcher == io && !r.timer.started
    ensures !io.Armed() ==> (r.timer.started <==> timeout.Some?) && r.timer.cancelled == r.timer.started
    ensures !io.Armed() ==> !r.watcher.Armed() && r.watcher.fd == io.fd && r.watcher.mode == io.mode
    ensures !io.Armed() && cur != hub ==> (r.result.Success? <==> end.Ready?)
    ensures !io.Armed() && cur != hub && end.ThrownIn? ==> r.result == Failure(end.exc)
  {
    if io.Armed() then
      WaitOutcome(Failure(AssertionError("This socket is already used by another greenlet")), io, TimerLog(false, false))
    else
      var started := timeout.Some?;
      var (result, w) := Watchers.HubWait(io, cur, hub, end);
      WaitOutcome(result, w, TimerLog(started, started))
  }

  /** `wait_read`, `wait_write` and `wait_readwrite` wait on a fresh watcher
      for the descriptor with event mask 1, 2 and 3: they are never refused,
      and they end as the wait did with the timer, if any, cancelled. */
  function WaitRead(fileno: int, timeout: Option<real>, cur: Hub.TaskId, hub: Hub.TaskId, end: Watchers.WaitEnd): (r: WaitOutcome)
    ensures r.watcher.fd == fileno && r.watcher.mode == 1 && !r.watcher.Armed()
    ensures r.timer.started == timeout.Some? && r.timer.cancelled == r.timer.started
    ensures cur != hub ==> (r.result.Success? <==> end.Ready?)
  {
    Wait(Watchers.NewIo(fileno, Watchers.ReadMode), timeout, cur, hub, end)
  }

  function WaitWrite(fileno: int, timeout: Option<real>, cur: Hub.TaskId, hub: Hub.TaskId, end: Watchers.WaitEnd): (r: WaitOutcome)
    ensures r.watcher.fd == fileno && r.watcher.mode == 2 && !r.watcher.Armed()
    ensures r.timer.started == timeout.Some? && r.timer.cancelled == r.timer.started
    ensures cur != hub ==> (r.result.Success? <==> end.Ready?)
  {
    Wait(Watchers.NewIo(fileno, Watchers.WriteMode), timeout, cur, hub, end)
  }

  function WaitReadWrite(fileno: int, timeout: Option<real>, cur: Hub.TaskId, hub: Hub.TaskId, end: Watchers.WaitEnd): (r: WaitOutcome)
    ensures r.watcher.fd == fileno && r.watcher.mode == 3 && !r.watcher.Armed()
    ensures r.timer.started == timeout.Some? && r.timer.cancelled == r.timer.started
    ensures cur != hub ==> (r.result.Success? <==> end.Ready?)
  {
    Wait(Watchers.NewIo(fileno, Watchers.ReadWriteMode), timeout, cur, hub, end)
  }

  /** `cancel_wait(watcher)`: cancel with EBADF. */
  function CancelWait(c: Watchers.Cell): (r: Watchers.Cell)
    ensures c.w.Armed() ==> r.queued == c.queued + [CancelWaitEx] && r.w == c.w
    ensures !c.w.Armed() ==> r == c
  {
    Watchers.CancelWait(c, CancelWaitEx)
  }

  // ---------------------------------------------------------------------
  // The socket object, close and shutdown

  /** A socket: its descriptor, its timeout (None: blocking without limit)
      and its read and write watchers with the cancellations queued for
      them. */
  datatype Sock = Sock(fd: int, timeout: Option<real>, readEvent: Watchers.Cell, writeEvent: Watchers.Cell)

  /** `socket(...)`: idle read (mask 1) and write (mask 2) watchers on the
      descriptor. */
  function NewSocket(fd: int, timeout: Option<real>): (s: Sock)
    ensures !s.readEvent.w.Armed() && s.readEvent.w.fd == fd && s.readEvent.w.mode == Watchers.ReadMode
    ensures !s.writeEvent.w.Armed() && s.writeEvent.w.fd == fd && s.writeEvent.w.mode == Watchers.WriteMode
    ensures s.readEvent.queued == [] && s.writeEvent.queued == [] && s.timeout == timeout
  {
    Sock(fd, timeout, Watchers.Cell(Watchers.NewIo(fd, Watchers.ReadMode), []), Watchers.Cell(Watchers.NewIo(fd, Watchers.WriteMode), []))
  }

  /** `close()`: the real close, then both waits cancelled: a watcher some
      greenlet waits on keeps that waiter and gets EBADF queued for it, an
      idle one is left alone. */
  function Close(s: Sock): (r: Sock)
    ensures r.fd == s.fd && r.timeout == s.timeout
    ensures s.readEvent.w.Armed() ==>
      r.readEvent.w == s.readEvent.w && r.readEvent.queued == s.readEvent.queued + [CancelWaitEx]
    ensures !s.readEvent.w.Armed() ==> r.readEvent == s.readEvent
    ensures s.writeEvent.w.Armed() ==>
      r.writeEvent.w == s.writeEvent.w && r.writeEvent.queued == s.writeEvent.queued + [CancelWaitEx]
    ensures !s.writeEvent.w.Armed() ==> r.writeEvent == s.writeEvent
  {
    s.(readEvent := CancelWait(s.readEvent), writeEvent := CancelWait(s.writeEvent))
  }

  /** `close()` as written: the real close is called on an undefined name,
      so the call raises `NameError` and cancels nothing. */
  function CloseAsWritten(s: Sock): (r: (Result<(), Exc>, Sock))
    ensures r.0.Failure? && r.1 == s
  {
    (Failure(NameError("selfi")), s)
  }

  /** `shutdown(how)`: 0 cancels the waits for reading, 1 those for
      writing, anything else both; then the real shutdown, whose outcome
      is handed in. */
  function Shutdown(s: Sock, how: int, outcome: Result<(), Exc>): (r: (Result<(), Exc>, Sock))
    ensures r.0 == outcome && r.1.fd == s.fd && r.1.timeout == s.timeout
    ensures r.1.readEvent == (if how != 1 then CancelWait(s.readEvent) else s.readEvent)
    ensures r.1.writeEvent == (if how != 0 then CancelWait(s.writeEvent) else s.writeEvent)
  {
    var s1 :=
      if how == 0 then s.(readEvent := CancelWait(s.readEvent))
      else if how == 1 then s.(writeEvent := CancelWait(s.writeEvent))
      else s.(readEvent := CancelWait(s.readEvent), writeEvent := CancelWait(s.writeEvent));
    (outcome, s1)
  }

  /** Which waits `shutdown` cancels, and that shutting down both
      directions cancels exactly what `close` does. */
  lemma ShutdownCancels(s: Sock, how: int, outcome: Result<(), Exc>)
    ensures var r := Shutdown(s, how, outcome);
      && r.0 == outcome && r.1.fd == s.fd && r.1.timeout == s.timeout
      && (r.1.readEvent == CancelWait(s.readEvent) <==> how != 1 || !s.readEvent.w.Armed())
      && (r.1.readEvent == s.readEvent <==> how == 1 || !s.readEvent.w.Armed())
      && (r.1.writeEvent == CancelWait(s.writeEvent) <==> how != 0 || !s.writeEvent.w.Armed())
      && (r.1.writeEvent == s.writeEvent <==> how == 0 || !s.writeEvent.w.Armed())
    ensures how != 0 && how != 1 ==> Shutdown(s, how, outcome).1 == Close(s)
  {
    CancelGrows(s.readEvent);
    CancelGrows(s.writeEvent);
  }

  lemma CancelGrows(c: Watchers.Cell)
    ensures CancelWait(c) == c <==> !c.w.Armed()
  {
    if c.w.Armed() {
      assert |CancelWait(c).queued| == |c.queued| + 1;
    }
  }

  /** A greenlet blocked reading a socket that another greenlet closes is
      woken, when the hub runs the queued cancellation, with EBADF. */
  lemma CloseWakesReader(s: Sock, task: Hub.TaskId)
    requires s.readEvent.w.callback == Some(task) && s.readEvent.queued == []
    ensures Watchers.CellStep(Close(s).readEvent, Watchers.RunQueued).1 == [Watchers.Wakeup(task, Watchers.ThrownIn(CancelWaitEx))]
  {
  }

  /** As written, `close` leaves such a greenlet waiting: nothing is queued
      for its watcher. */
  lemma CloseAsWrittenLeavesReaderWaiting(s: Sock, task: Hub.TaskId)
    requires s.readEvent.w.callback == Some(task) && s.readEvent.queued == []
    ensures Watchers.CellStep(CloseAsWritten(s).1.readEvent, Watchers.RunQueued).1 == []
  {
  }

  // ---------------------------------------------------------------------
  // The retry loops

  datatype CallEnd<T> = Finished(result: Result<T, Exc>) | StillRunning

  /** A `while True` retry loop over rounds: each round either decides the
      outcome or goes round again. */
  function FirstDecision<R, T>(rounds: seq<R>, decide: R -> Option<Result<T, Exc>>): (r: CallEnd<T>)
    decreases |rounds|
  {
    if |rounds| == 0 then StillRunning
    else match decide(rounds[0])
      case Some(res) => Finished(res)
      case None => FirstDecision(rounds[1..], decide)
  }

  /** The loop finishes exactly when some round decides, and then with the
      outcome of the first round that does. */
  lemma {:induction false} FirstDecisionIsFirst<R, T>(rounds: seq<R>, decide: R -> Option<Result<T, Exc>>)
    ensures FirstDecision(rounds, decide).Finished? <==> exists i :: 0 <= i < |rounds| && decide(rounds[i]).Some?
    ensures forall i :: 0 <= i < |rounds| && decide(rounds[i]).Some? && (forall j :: 0 <= j < i ==> decide(rounds[j]).None?) ==>
      FirstDecision(rounds, decide) == Finished(decide(rounds[i]).value)
    decreases |rounds|
  {
    if |rounds| > 0 {
      FirstDecisionIsFirst(rounds[1..], decide);
      if decide(rounds[0]).None? {
        forall i | 0 < i < |rounds| && decide(rounds[i]).Some?
          ensures decide(rounds[1..][i - 1]).Some?
        {
          assert rounds[1..][i - 1] == rounds[i];
        }
        forall i | 0 <= i < |rounds| && decide(rounds[i]).Some? && (forall j :: 0 <= j < i ==> decide(rounds[j]).None?)
          ensures FirstDecision(rounds, decide) == Finished(decide(rounds[i]).value)
        {
          assert i > 0;
          assert rounds[1..][i - 1] == rounds[i];
          forall j | 0 <= j < i - 1
            ensures decide(rounds[1..][j]).None?
          {
            assert rounds[1..][j] == rounds[j + 1];
          }
        }
      }
    }
  }

  /** One iteration of `accept`, `recv`, `recvfrom`, `recvfrom_into` or
      `recv_into`: the outcome of the non-blocking call, and the outcome of
      waiting on the read watcher should the call block. */
  datatype Round<T> = Round(call: Result<T, Exc>, wait: Result<(), Exc>)

  /** What one round decides. An error whose errno is EBADF, from the call
      or from the wait, means the socket was closed under the caller, and
      `recv`/`recv_into` then return their end-of-stream value `onBadf`;
      EWOULDBLOCK on a socket with a timeout other than 0.0 waits and goes
      round again; any other error is raised. */
  function RoundEnd<T>(timeout: Option<real>, onBadf: Option<T>, r: Round<T>): Option<Result<T, Exc>> {
    match r.call
    case Success(v) => Some(Success(v))
    case Failure(e) =>
      if onBadf.Some? && ErrnoOf(e) == Some(EBADF) then Some(Success(onBadf.value))
      else if ErrnoOf(e) != Some(EWOULDBLOCK) || NonBlocking(timeout) then Some(Failure(e))
      else match r.wait
        case Success(_) => None
        case Failure(w) => if onBadf.Some? && ErrnoOf(w) == Some(EBADF) then Some(Success(onBadf.value)) else Some(Failure(w))
  }

  /** A round goes round again exactly when the call would have blocked,
      the socket has a timeout other than 0.0, and the wait ended with the
      watcher ready. */
  lemma RetriesOnlyAfterReadiness<T>(timeout: Option<real>, onBadf: Option<T>, r: Round<T>)
    ensures RoundEnd(timeout, onBadf, r).None? <==>
      r.call.Failure? && ErrnoOf(r.call.error) == Some(EWOULDBLOCK) && !NonBlocking(timeout) && r.wait.Success?
  {
  }

  function Decider<T>(timeout: Option<real>, onBadf: Option<T>): Round<T> -> Option<Result<T, Exc>> {
    (r: Round<T>) => RoundEnd(timeout, onBadf, r)
  }

  /** The loop of `accept` and the `recv` family: it finishes exactly when
      some round decides, with what the first such round decided. */
  function RetryLoop<T>(timeout: Option<real>, onBadf: Option<T>, rounds: seq<Round<T>>): (r: CallEnd<T>)
    ensures r.Finished? <==> exists i :: 0 <= i < |rounds| && RoundEnd(timeout, onBadf, rounds[i]).Some?
    ensures forall i ::
      (0 <= i < |rounds| && RoundEnd(timeout, onBadf, rounds[i]).Some?
       && forall j :: 0 <= j < i ==> RoundEnd(timeout, onBadf, rounds[j]).None?)
      ==> r == Finished(RoundEnd(timeout, onBadf, rounds[i]).value)
  {
    var decide := Decider(timeout, onBadf);
    FirstDecisionIsFirst(rounds, decide);
    FirstDecision(rounds, decide)
  }

  /** A finished loop ends with what some round decided. */
  lemma {:induction false} DecidedBySomeRound<R, T>(rounds: seq<R>, decide: R -> Option<Result<T, Exc>>)
    ensures var r := FirstDecision(rounds, decide);
      r.Finished? ==> exists i :: 0 <= i < |rounds| && decide(rounds[i]) == Some(r.result)
    decreases |rounds|
  {
    if |rounds| > 0 && decide(rounds[0]).None? {
      DecidedBySomeRound(rounds[1..], decide);
      var r := FirstDecision(rounds, decide);
      if r.Finished? {
        var i :| 0 <= i < |rounds[1..]| && decide(rounds[1..][i]) == Some(r.result);
        assert rounds[1..][i] == rounds[i + 1];
      }
    }
  }

  /** A round that returns a value returns the call's, or the end-of-stream
      value. */
  lemma ReturnedValue<T>(timeout: Option<real>, onBadf: Option<T>, r: Round<T>, v: T)
    requires RoundEnd(timeout, onBadf, r) == Some(Success(v))
    ensures r.call == Success(v) || onBadf == Some(v)
  {
  }

  /** Whatever a finished loop returns is a call's result or the
      end-of-stream value. */
  lemma LoopValue<T>(timeout: Option<real>, onBadf: Option<T>, rounds: seq<Round<T>>)
    ensures var r := RetryLoop(timeout, onBadf, rounds);
      r.Finished? && r.result.Success? ==>
        onBadf == Some(r.result.value) || exists i :: 0 <= i < |rounds| && rounds[i].call == r.result
  {
    var r := RetryLoop(timeout, onBadf, rounds);
    DecidedBySomeRound(rounds, Decider(timeout, onBadf));
    if r.Finished? && r.result.Success? {
      var i :| 0 <= i < |rounds| && Decider(timeout, onBadf)(rounds[i]) == Some(r.result);
      ReturnedValue(timeout, onBadf, rounds[i], r.result.value);
    }
  }

  /** On a non-blocking socket the first call decides: its result is
      returned or its error raised (EBADF aside), with no wait. */
  lemma NonBlockingNeverWaits<T>(timeout: Option<real>, onBadf: Option<T>, rounds: seq<Round<T>>)
    requires NonBlocking(timeout) && |rounds| > 0
    requires rounds[0].call.Failure? ==> onBadf.None? || ErrnoOf(rounds[0].call.error) != Some(EBADF)
    ensures RetryLoop(timeout, onBadf, rounds) == Finished(rounds[0].call)
  {
  }

  /** With an end-of-stream value, EBADF never escapes: a socket closed
      under the caller reads as the end of the stream. */
  lemma {:induction false} BadfReadsAsEnd<T>(timeout: Option<real>, onBadf: Option<T>, rounds: seq<Round<T>>)
    requires onBadf.Some?
    ensures var r := RetryLoop(timeout, onBadf, rounds);
      r.Finished? && r.result.Failure? ==> ErrnoOf(r.result.error) != Some(EBADF)
    decreases |rounds|
  {
    if |rounds| > 0 {
      BadfReadsAsEnd(timeout, onBadf, rounds[1..]);
    }
  }

  /** `accept()`: the loop on the read watcher; the accepted descriptor
      becomes a cooperative socket with the given default timeout. */
  function Accept(timeout: Option<real>, defaultTimeout: Option<real>, rounds: seq<Round<(int, string)>>): (r: CallEnd<(Sock, string)>)
    ensures r.Finished? && r.result.Success? ==>
      exists i :: 0 <= i < |rounds| && rounds[i].call.Success? &&
        r.result.value == (NewSocket(rounds[i].call.value.0, defaultTimeout), rounds[i].call.value.1)
    ensures r.StillRunning? <==> RetryLoop(timeout, None, rounds).StillRunning?
  {
    LoopValue(timeout, None, rounds);
    match RetryLoop(timeout, None, rounds)
    case StillRunning => StillRunning
    case Finished(Failure(e)) => Finished(Failure(e))
    case Finished(Success(p)) => Finished(Success((NewSocket(p.0, defaultTimeout), p.1)))
  }

  /** `recv()`: returns what the call returned, or "" once the socket was
      closed under it. */
  function Recv(timeout: Option<real>, rounds: seq<Round<string>>): (r: CallEnd<string>)
    ensures r.Finished? && r.result.Success? ==>
      r.result.value == "" || exists i :: 0 <= i < |rounds| && rounds[i].call == r.result
    ensures r.Finished? && r.result.Failure? ==> ErrnoOf(r.result.error) != Some(EBADF)
  {
    LoopValue(timeout, Some(""), rounds);
    BadfReadsAsEnd(timeout, Some(""), rounds);
    RetryLoop(timeout, Some(""), rounds)
  }

  /** `recv_into()`: the count the call returned, or 0 once the socket was
      closed under it. */
  function RecvInto(timeout: Option<real>, rounds: seq<Round<nat>>): (r: CallEnd<nat>)
    ensures r.Finished? && r.result.Success? ==>
      r.result.value == 0 || exists i :: 0 <= i < |rounds| && rounds[i].call == r.result
    ensures r.Finished? && r.result.Failure? ==> ErrnoOf(r.result.error) != Some(EBADF)
  {
    LoopValue(timeout, Some(0), rounds);
    BadfReadsAsEnd(timeout, Some(0), rounds);
    RetryLoop(timeout, Some(0), rounds)
  }

  /** `recvfrom()` and `recvfrom_into()`: the plain loop, EBADF raised like
      any other error. */
  function RecvFrom<T>(timeout: Option<real>, rounds: seq<Round<T>>): (r: CallEnd<T>)
    ensures r.Finished? && r.result.Success? ==> exists i :: 0 <= i < |rounds| && rounds[i].call == r.result
  {
    LoopValue(timeout, None, rounds);
    RetryLoop(timeout, None, rounds)
  }

  // ---------------------------------------------------------------------
  // connect

  /** What `connect_ex` returns: an errno, or the text of an error built
      from a message. */
  datatype ConnectCode = Code(n: int) | Text(msg: string)

  /** `connect_ex(address)` given the outcome of the real connect: 0 on
      success, EAGAIN for a timeout, `args[0]` of a plain `socket.error`;
      anything else (such as `gaierror`) is raised. */
  function ConnectEx(attempt: Result<(), Exc>): (r: Result<ConnectCode, Exc>)
    ensures attempt.Success? ==> r == Success(Code(0))
    ensures attempt == Failure(SocketTimeout) ==> r == Success(Code(EAGAIN))
    ensures attempt.Failure? && attempt.error.SocketError? ==> r == Success(Code(attempt.error.errno))
    ensures r.Failure? <==>
      attempt.Failure? && !(attempt.error.SocketTimeout? || attempt.error.SocketError? || attempt.error.SocketErrorMsg?)
    ensures r.Failure? ==> attempt == Failure(r.error)
  {
    match attempt
    case Success(_) => Success(Code(0))
    case Failure(SocketTimeout) => Success(Code(EAGAIN))
    case Failure(SocketError(n)) => Success(Code(n))
    case Failure(SocketErrorMsg(m)) => Success(Text(m))
    case Failure(e) => Failure(e)
  }

  /** One iteration of the connect loop: the pending error the socket
      reports (`SO_ERROR`), the real connect, and the wait on the write
      watcher should the connect still be in progress. */
  datatype ConnectRound = ConnectRound(soError: int, connect: Result<(), Exc>, wait: Result<(), Exc>)

  predicate InProgress(n: int) {
    n == EWOULDBLOCK || n == EINPROGRESS || n == EALREADY
  }

  /** What one round of the connect loop decides: a pending error is
      raised; result 0 (or an empty text, which is as false) or EISCONN is
      the connection made; EWOULDBLOCK, EINPROGRESS and EALREADY wait on
      the write watcher and go round again; any other errno is raised, and
      a text, which `strerror` cannot take, raises `TypeError`. */
  function ConnectStep(r: ConnectRound): Option<Result<(), Exc>> {
    if r.soError != 0 then Some(Failure(SocketError(r.soError)))
    else match ConnectEx(r.connect)
      case Failure(e) => Some(Failure(e))
      case Success(Text(m)) => if m == "" then Some(Success(())) else Some(Failure(TypeError("strerror() argument must be an int")))
      case Success(Code(n)) =>
        if n == 0 || n == EISCONN then Some(Success(()))
        else if InProgress(n) then
          match r.wait
          case Success(_) => None
          case Failure(w) => Some(Failure(w))
        else Some(Failure(SocketError(n)))
  }

  /** `connect(address)`. On a non-blocking socket it is the real connect
      alone. Otherwise the address is resolved first (the outcome of
      `getaddrinfo`, success for an address that needs none), a timer is
      started when the socket has a timeout, the loop runs, and the timer
      is cancelled however the loop ended. */
  function Connect(timeout: Option<real>, direct: Result<(), Exc>, resolution: Result<(), Exc>, rounds: seq<ConnectRound>): (r: (CallEnd<()>, TimerLog))
    ensures NonBlocking(timeout) ==> r.0 == Finished(direct) && !r.1.started
    ensures !NonBlocking(timeout) && resolution.Failure? ==> r.0 == Finished(resolution) && !r.1.started
    ensures r.1.started <==> !NonBlocking(timeout) && resolution.Success? && timeout.Some?
    ensures r.0.Finished? ==> r.1.cancelled == r.1.started
  {
    if NonBlocking(timeout) then (Finished(direct), TimerLog(false, false))
    else if resolution.Failure? then (Finished(resolution), TimerLog(false, false))
    else
      var started := timeout.Some?;
      var end := FirstDecision(rounds, ConnectStep);
      (end, TimerLog(started, started && end.Finished?))
  }

  /** A connect round ends the call successfully exactly when no error is
      pending and the real connect succeeded, found the socket connected,
      or failed with an empty message. */
  lemma ConnectRoundSucceeds(r: ConnectRound)
    ensures ConnectStep(r) == Some(Success(())) <==>
      r.soError == 0 && (r.connect.Success? || r.connect == Failure(SocketError(EISCONN)) || r.connect == Failure(SocketError(0))
                         || r.connect == Failure(SocketErrorMsg("")))
  {
  }

  /** A connect round goes round again exactly when the connect is in
      progress and the write watcher became ready. */
  lemma ConnectRoundRetries(r: ConnectRound)
    ensures ConnectStep(r).None? <==>
      r.soError == 0 && r.wait.Success? &&
      (r.connect == Failure(SocketTimeout) || (r.connect.Failure? && r.connect.error.SocketError? && InProgress(r.connect.error.errno)))
  {
  }

  /** A blocking connect succeeds only through a round that connected,
      after rounds that were all in progress. */
  lemma ConnectSucceedsOnlyWhenConnected(timeout: Option<real>, direct: Result<(), Exc>, rounds: seq<ConnectRound>)
    requires !NonBlocking(timeout)
    ensures Connect(timeout, direct, Success(()), rounds).0 == Finished(Success(())) ==>
      exists i :: 0 <= i < |rounds| && ConnectStep(rounds[i]) == Some(Success(())) &&
        forall j :: 0 <= j < i ==> ConnectStep(rounds[j]).None?
  {
    FirstDecisionIsFirst(rounds, ConnectStep);
    if Connect(timeout, direct, Success(()), rounds).0 == Finished(Success(())) {
      var i := FirstIndex(rounds, ConnectStep);
      assert ConnectStep(rounds[i]) == Some(Success(()));
    }
  }

  /** The index of the first round that decides. */
  lemma FirstIndex<R, T>(rounds: seq<R>, decide: R -> Option<Result<T, Exc>>) returns (i: int)
    requires exists i :: 0 <= i < |rounds| && decide(rounds[i]).Some?
    ensures 0 <= i < |rounds| && decide(rounds[i]).Some? && forall j :: 0 <= j < i ==> decide(rounds[j]).None?
    ensures FirstDecision(rounds, decide) == Finished(decide(rounds[i]).value)
  {
    FirstDecisionIsFirst(rounds, decide);
    i := 0;
    while decide(rounds[i]).None?
      invariant 0 <= i < |rounds|
      invariant forall j :: 0 <= j < i ==> decide(rounds[j]).None?
      invariant exists k :: i <= k < |rounds| && decide(rounds[k]).Some?
      decreases |rounds| - i
    {
      i := i + 1;
    }
  }

  /** `connect` as written: the loop reads the pending error from an
      undefined name, so a blocking connect raises `NameError` on its first
      round whatever the network does. */
  function ConnectAsWritten(timeout: Option<real>, direct: Result<(), Exc>, resolution: Result<(), Exc>): (r: (CallEnd<()>, TimerLog))
    ensures !NonBlocking(timeout) && resolution.Success? ==> r.0 == Finished(Failure(NameError("sock")))
  {
    if NonBlocking(timeout) then (Finished(direct), TimerLog(false, false))
    else if resolution.Failure? then (Finished(resolution), TimerLog(false, false))
    else
      var started := timeout.Some?;
      (Finished(Failure(NameError("sock"))), TimerLog(started, started))
  }

  /** The discrepancy: where the connect loop as intended connects on the
      first round, the code as written fails. */
  lemma ConnectAsWrittenNeverConnects(timeout: Option<real>, direct: Result<(), Exc>)
    requires !NonBlocking(timeout)
    ensures Connect(timeout, direct, Success(()), [ConnectRound(0, Success(()), Success(()))]).0 == Finished(Success(()))
    ensures ConnectAsWritten(timeout, direct, Success(())).0.result.Failure?
  {
    var rounds := [ConnectRound(0, Success(()), Success(()))];
    assert ConnectStep(rounds[0]) == Some(Success(()));
  }

  // ---------------------------------------------------------------------
  // sendall

  /** How much of what it was given one `send` took: the count it
      returned, which the kernel never makes larger than the data given. */
  function Accepted(n: nat, given: nat): (k: nat)
    ensures k <= given && (n <= given ==> k == n)
  {
    if n <= given then n else given
  }

  /** How much of `len` bytes a run of `send` outcomes puts on the wire
      when each call is handed what is still unsent: a count adds what it
      took, an error adds nothing. */
  function SentBy(len: nat, sends: seq<Result<nat, Exc>>): (s: nat)
    ensures s <= len
    decreases |sends|
  {
    if |sends| == 0 then 0
    else
      var before := SentBy(len, sends[..|sends| - 1]);
      match sends[|sends| - 1]
      case Success(n) => before + Accepted(n, len - before)
      case Failure(_) => before
  }

  /** The sum of the counts of a run of `send` outcomes. */
  function CountSum(sends: seq<Result<nat, Exc>>): nat
    decreases |sends|
  {
    if |sends| == 0 then 0
    else CountSum(sends[..|sends| - 1]) + (if sends[|sends| - 1].Success? then sends[|sends| - 1].value else 0)
  }

  /** While the calls take no more than the data offered, what is on the
      wire is just the sum of the counts the calls returned. */
  lemma {:induction false} SentIsCountSum(len: nat, sends: seq<Result<nat, Exc>>)
    requires CountSum(sends) <= len
    ensures SentBy(len, sends) == CountSum(sends)
    decreases |sends|
  {
    if |sends| > 0 {
      SentIsCountSum(len, sends[..|sends| - 1]);
    }
  }

  /** One more call extends the run by its own outcome. */
  lemma SentByStep(len: nat, sends: seq<Result<nat, Exc>>, calls: nat)
    requires calls < |sends|
    ensures SentBy(len, sends[..calls + 1]) ==
      var before := SentBy(len, sends[..calls]);
      if sends[calls].Success? then before + Accepted(sends[calls].value, len - before) else before
  {
    assert sends[..calls + 1][..calls] == sends[..calls];
  }

  /** Sending the next `k` bytes extends the prefix on the wire. */
  lemma PrefixGrows(data: string, sent: nat, k: nat)
    requires sent + k <= |data|
    ensures data[..sent] + data[sent..sent + k] == data[..sent + k]
  {
  }

  /** `sendall(data)`, given the outcomes of the `send` calls it makes (a
      count or an error) and the clock readings it takes.

      Every call is handed the unsent rest of the data, so what reaches the
      wire is always a prefix of the data, in order: `wire` is the data
      taken by the `calls` calls made, `sent` its length, which is what
      their outcomes add up to (`SentBy`). Without a timeout the loop runs
      while data is left (no call at all for empty data). With a timeout,
      the first reading fixes the deadline, every call gets the time left,
      and after each call that leaves data unsent the clock is read again:
      once the deadline has passed, `timeout('timed out')` is raised
      (`deadline`). An error from `send` propagates unchanged. The call is
      `StillRunning` only when the send outcomes or the clock readings at
      hand ran out. */
  method SendAll(data: string, timeout: Option<real>, sends: seq<Result<nat, Exc>>, clock: seq<real>)
    returns (r: CallEnd<()>, sent: nat, wire: string, calls: nat, deadline: bool)
    ensures sent <= |data| && wire == data[..sent] && calls <= |sends|
    ensures sent == SentBy(|data|, sends[..calls])
    ensures r == Finished(Success(())) ==> sent == |data| && forall i :: 0 <= i < calls ==> sends[i].Success?
    ensures sent == |data| && (|data| > 0 || timeout.None?) ==> r == Finished(Success(()))
    ensures timeout.None? && |data| == 0 ==> calls == 0
    ensures timeout.None? ==> !deadline
    ensures r.StillRunning? ==> calls == |sends| || (timeout.Some? && |clock| == calls)
    ensures r.StillRunning? && timeout.None? ==> sent < |data|
    ensures deadline ==>
      && r == Finished(Failure(SocketTimeout)) && timeout.Some? && 0 < calls < |clock|
      && clock[calls] >= clock[0] + timeout.value
      && forall k :: 0 < k < calls ==> clock[k] < clock[0] + timeout.value
    ensures r.Finished? && r.result.Failure? && !deadline ==> 0 < calls && sends[calls - 1] == Failure(r.result.error)
    ensures r.Finished? && r.result.Failure? ==> forall i :: 0 <= i < calls - 1 ==> sends[i].Success?
  {
    if timeout.None? {
      r, sent, wire, calls := SendAllBlocking(data, sends);
      deadline := false;
    } else {
      r, sent, wire, calls, deadline := SendAllTimed(data, timeout.value, sends, clock);
    }
  }

  /** The loop of `sendall` on a socket without a timeout. */
  method SendAllBlocking(data: string, sends: seq<Result<nat, Exc>>)
    returns (r: CallEnd<()>, sent: nat, wire: string, calls: nat)
    ensures sent <= |data| && wire == data[..sent] && calls <= |sends|
    ensures sent == SentBy(|data|, sends[..calls])
    ensures r == Finished(Success(())) ==> sent == |data| && forall i :: 0 <= i < calls ==> sends[i].Success?
    ensures sent == |data| ==> r == Finished(Success(()))
    ensures |data| == 0 ==> calls == 0
    ensures r.StillRunning? ==> calls == |sends| && sent < |data|
    ensures r.Finished? && r.result.Failure? ==>
      && 0 < calls && sends[calls - 1] == Failure(r.result.error)
      && forall i :: 0 <= i < calls - 1 ==> sends[i].Success?
  {
    sent, wire, calls := 0, "", 0;
    while sent < |data|
      invariant sent <= |data| && wire == data[..sent] && calls <= |sends|
      invariant sent == SentBy(|data|, sends[..calls])
      invariant forall i :: 0 <= i < calls ==> sends[i].Success?
      invariant |data| == 0 ==> calls == 0
      decreases |sends| - calls
    {
      if calls == |sends| {
        r := StillRunning;
        return;
      }
      SentByStep(|data|, sends, calls);
      match sends[calls] {
        case Failure(e) =>
          calls := calls + 1;
          r := Finished(Failure(e));
          return;
        case Success(n) =>
          var k := Accepted(n, |data| - sent);
          PrefixGrows(data, sent, k);
          wire := wire + data[sent..sent + k];
          sent := sent + k;
          calls := calls + 1;
      }
    }
    r := Finished(Success(()));
  }

  /** The loop of `sendall` on a socket with timeout `t`: `clock[0]` fixes
      the deadline and each later reading is checked against it. */
  method SendAllTimed(data: string, t: real, sends: seq<Result<nat, Exc>>, clock: seq<real>)
    returns (r: CallEnd<()>, sent: nat, wire: string, calls: nat, deadline: bool)
    ensures sent <= |data| && wire == data[..sent] && calls <= |sends|
    ensures sent == SentBy(|data|, sends[..calls])
    ensures r == Finished(Success(())) ==> sent == |data| && forall i :: 0 <= i < calls ==> sends[i].Success?
    ensures sent == |data| && |data| > 0 ==> r == Finished(Success(()))
    ensures r.StillRunning? ==> calls == |sends| || |clock| == calls
    ensures deadline ==>
      && r == Finished(Failure(SocketTimeout)) && 0 < calls < |clock|
      && clock[calls] >= clock[0] + t
      && forall k :: 0 < k < calls ==> clock[k] < clock[0] + t
    ensures r.Finished? && r.result.Failure? && !deadline ==> 0 < calls && sends[calls - 1] == Failure(r.result.error)
    ensures r.Finished? && r.result.Failure? ==> forall i :: 0 <= i < calls - 1 ==> sends[i].Success?
  {
    sent, wire, calls, deadline := 0, "", 0, false;
    if |clock| == 0 {
      r := StillRunning;
      return;
    }
    var end := clock[0] + t;
    var tick := 1;
    r := StillRunning;
    while true
      invariant sent <= |data| && wire == data[..sent] && calls <= |sends| && tick == calls + 1 <= |clock|
      invariant sent == SentBy(|data|, sends[..calls])
      invariant forall i :: 0 <= i < calls ==> sends[i].Success?
      invariant forall k :: 0 < k < tick ==> clock[k] < end
      invariant !deadline
      invariant sent < |data| || (|data| == 0 && calls == 0)
      decreases |sends| - calls
    {
      if calls == |sends| {
        break;
      }
      SentByStep(|data|, sends, calls);
      if sends[calls].Failure? {
        r := Finished(Failure(sends[calls].error));
        calls := calls + 1;
        return;
      }
      var k := Accepted(sends[calls].value, |data| - sent);
      PrefixGrows(data, sent, k);
      wire := wire + data[sent..sent + k];
      sent := sent + k;
      calls := calls + 1;
      if sent >= |data| {
        r := Finished(Success(()));
        return;
      }
      if tick == |clock| {
        break;
      }
      var timeleft := end - clock[tick];
      tick := tick + 1;
      if timeleft <= 0.0 {
        deadline := true;
        r := Finished(Failure(SocketTimeout));
        return;
      }
    }
  }
}

=== FILE: exceptions.dfy ===
/** The Python exceptions the core raises or passes through, as one
    datatype: an operation that can raise returns a `Result<_, Exc>`. */
module Exceptions {

  /** The argument tuple of an `IOError`: an errno (with its strerror), a
      code with a message of its own (as a `gaierror` carries), or just a
      message. */
  datatype IOArgs = Errno(code: int) | CodeAndText(code: int, text: string) | Message(text: string)

  datatype Exc =
    | AssertionError(what: string)
    | NotImplementedError
    | IOError(args: IOArgs)
    | DispatchExit(code: int)
    | GreenletThrow(tag: nat)          // an exception thrown into a greenlet from elsewhere
    | SocketError(errno: int)          // socket.error(errno, strerror)
    | SocketErrorMsg(msg: string)      // socket.error(message)
    | SocketTimeout                    // socket.timeout('timed out')
    | SelectError(args: IOArgs)        // select.error
    | GaiError(code: int, msg: string) // socket.gaierror(code, message)
    | GaiErrorMsg(msg: string)         // socket.gaierror(message)
    | TypeError(what: string)
    | ValueError(what: string)
    | IndexError
    | NameError(name: string)
    | InvalidIP                        // gevent.ares.InvalidIP
    | RuntimeError(what: string)       // e.g. a bare `raise` with no active exception

  /** The exceptions an `except IOError` clause catches under Python 2.6
      and later: `IOError` itself, `socket.error`, and its subclasses
      `socket.gaierror` and `socket.timeout`. `select.error` is not one of
      them. */
  predicate IsIOError(e: Exc) {
    e.IOError? || e.SocketError? || e.SocketErrorMsg? || e.SocketTimeout? || e.GaiError? || e.GaiErrorMsg?
  }

  /** `ex.args` of an exception caught as an `IOError`. */
  function ArgsOf(e: Exc): IOArgs
    requires IsIOError(e)
  {
    if e.IOError? then e.args
    else if e.SocketError? then Errno(e.errno)
    else if e.SocketErrorMsg? then Message(e.msg)
    else if e.GaiError? then CodeAndText(e.code, e.msg)
    else if e.GaiErrorMsg? then Message(e.msg)
    else Message("timed out")
  }
}

=== FILE: http_date.dfy ===
/** `format_date_time`: the HTTP-date of section 7.1.1.1 of RFC 7231 in its
    preferred fixed-length form ("Sun, 06 Nov 1994 08:49:37 GMT"), built from
    the broken-down UTC time that `time.gmtime` returns, and a reader for
    that form which recovers the broken-down time. */
module HttpDate {
  import opened Wrappers
  import opened Text

  /** Monday first, as `tm_wday` counts; always English. */
  const WeekdayNames: seq<string> := ["Mon", "Tue", "Wed", "Thu", "Fri", "Sat", "Sun"]

  /** January first. The server's table has a dummy entry in front so that
      the 1-based month indexes it; here month `m` is entry `m - 1`. */
  const MonthNames: seq<string> := ["Jan", "Feb", "Mar", "Apr", "May", "Jun",
                                    "Jul", "Aug", "Sep", "Oct", "Nov", "Dec"]

  /** The fields of `time.gmtime(timestamp)` that the date uses. */
  datatype GmTime = GmTime(year: int, month: int, day: int, hour: int, minute: int, second: int, weekday: int)

  /** The ranges `gmtime` keeps to (seconds up to 61 for leap seconds), for
      years from 0 on. */
  predicate Valid(t: GmTime) {
    && 0 <= t.year
    && 1 <= t.month <= 12 && 1 <= t.day <= 31
    && 0 <= t.hour <= 23 && 0 <= t.minute <= 59 && 0 <= t.second <= 61
    && 0 <= t.weekday <= 6
  }

  function Repeat(c: char, n: nat): (r: string)
    ensures |r| == n && forall i :: 0 <= i < n ==> r[i] == c
  {
    if n == 0 then "" else [c] + Repeat(c, n - 1)
  }

  /** The padding of `%4d`, `%02d` and `%3s`: `s` right-aligned in a field
      of `width` characters, the rest filled with `fill`. */
  function LeftPad(s: string, width: nat, fill: char): (r: string)
    ensures |r| == (if |s| < width then width else |s|)
    ensures r[|r| - |s|..] == s
    ensures forall i :: 0 <= i < |r| - |s| ==> r[i] == fill
  {
    if |s| < width then Repeat(fill, width - |s|) + s else s
  }

  /** `%02d` of a non-negative number. */
  function TwoDigits(n: nat): string {
    LeftPad(ShowNat(n), 2, '0')
  }

  /** "Www, DD Mmm " */
  function DatePart(t: GmTime): string
    requires Valid(t)
  {
    DateText(WeekdayNames[t.weekday], TwoDigits(t.day), LeftPad(MonthNames[t.month - 1], 3, ' '))
  }

  function DateText(w: string, d: string, m: string): string {
    w + ", " + d + " " + m + " "
  }

  /** " HH:MM:SS GMT" */
  function TimePart(t: GmTime): string
    requires Valid(t)
  {
    TimeText(TwoDigits(t.hour), TwoDigits(t.minute), TwoDigits(t.second))
  }

  function TimeText(a: string, b: string, c: string): string {
    " " + a + ":" + b + ":" + c + " GMT"
  }

  /** `format_date_time`, given what `gmtime` made of the timestamp: the
      weekday's and the month's names, the day, hour, minute and second as
      two digits each, the year right-aligned in four characters, in the
      layout "Www, DD Mmm YYYY HH:MM:SS GMT". */
  function FormatDateTime(t: GmTime): (r: string)
    requires Valid(t)
    ensures |r| == 25 + |LeftPad(ShowNat(t.year), 4, ' ')|
    ensures r[..3] == WeekdayNames[t.weekday] && r[3..5] == ", " && r[7] == ' '
    ensures DigitPair(r[5..7]) && PairValue(r[5..7]) == t.day
    ensures r[8..11] == MonthNames[t.month - 1] && r[11] == ' '
    ensures r[12..|r| - 13] == LeftPad(ShowNat(t.year), 4, ' ')
    ensures var tl := r[|r| - 13..];
      && tl[0] == ' ' && tl[3] == ':' && tl[6] == ':' && tl[9..] == " GMT"
      && DigitPair(tl[1..3]) && PairValue(tl[1..3]) == t.hour
      && DigitPair(tl[4..6]) && PairValue(tl[4..6]) == t.minute
      && DigitPair(tl[7..9]) && PairValue(tl[7..9]) == t.second
  {
    var h, y, tl := DatePart(t), LeftPad(ShowNat(t.year), 4, ' '), TimePart(t);
    HeadFields(t);
    TailFields(t);
    LayoutFields(h, y, tl, t);
    h + y + tl
  }

  /** The fields of a date put together from a head and a tail that read
      as `t`'s fields. */
  lemma LayoutFields(h: string, y: string, tl: string, t: GmTime)
    requires Valid(t)
    requires |h| == 12 && ReadDate(h) == Some((t.weekday as nat, t.month - 1, t.day as nat))
    requires |tl| == 13 && ReadTime(tl) == Some((t.hour as nat, t.minute as nat, t.second as nat))
    ensures var r := h + y + tl;
      && |r| == 25 + |y|
      && r[..3] == WeekdayNames[t.weekday] && r[3..5] == ", " && r[7] == ' '
      && DigitPair(r[5..7]) && PairValue(r[5..7]) == t.day
      && r[8..11] == MonthNames[t.month - 1] && r[11] == ' '
      && r[12..|r| - 13] == y
      && var tl' := r[|r| - 13..];
      && tl'[0] == ' ' && tl'[3] == ':' && tl'[6] == ':' && tl'[9..] == " GMT"
      && DigitPair(tl'[1..3]) && PairValue(tl'[1..3]) == t.hour
      && DigitPair(tl'[4..6]) && PairValue(tl'[4..6]) == t.minute
      && DigitPair(tl'[7..9]) && PairValue(tl'[7..9]) == t.second
  {
    var r := h + y + tl;
    Pieces(r, h, y, tl);
    HeadAt(r, t);
    TailAt(r, t);
  }

  /** A text whose first twelve characters read as `t`'s weekday, month
      and day holds them at their fixed positions. */
  lemma HeadAt(s: string, t: GmTime)
    requires Valid(t)
    requires |s| >= 12 && ReadDate(s[..12]) == Some((t.weekday as nat, t.month - 1, t.day as nat))
    ensures s[..3] == WeekdayNames[t.weekday] && s[3..5] == ", " && s[7] == ' '
    ensures DigitPair(s[5..7]) && PairValue(s[5..7]) == t.day
    ensures s[8..11] == MonthNames[t.month - 1] && s[11] == ' '
  {
    var h := s[..12];
    assert NameIndex(WeekdayNames, h[..3]) == Some(t.weekday as nat);
    assert NameIndex(MonthNames, h[8..11]) == Some(t.month - 1);
    assert h[..3] == s[..3] && h[3..5] == s[3..5] && h[5..7] == s[5..7] && h[8..11] == s[8..11];
  }

  /** A text whose last thirteen characters read as `t`'s time of day
      holds it at its fixed positions. */
  lemma TailAt(s: string, t: GmTime)
    requires Valid(t)
    requires |s| >= 13 && ReadTime(s[|s| - 13..]) == Some((t.hour as nat, t.minute as nat, t.second as nat))
    ensures var tl' := s[|s| - 13..];
      && tl'[0] == ' ' && tl'[3] == ':' && tl'[6] == ':' && tl'[9..] == " GMT"
      && DigitPair(tl'[1..3]) && PairValue(tl'[1..3]) == t.hour
      && DigitPair(tl'[4..6]) && PairValue(tl'[4..6]) == t.minute
      && DigitPair(tl'[7..9]) && PairValue(tl'[7..9]) == t.second
  {
  }

  // ---------------------------------------------------------------------
  // Reading the date back

  /** The first entry of `names` equal to `s`. */
  function NameIndex(names: seq<string>, s: string): (r: Option<nat>)
    ensures r.None? <==> s !in names
    ensures r.Some? ==> r.value < |names| && names[r.value] == s
    ensures r.Some? ==> forall j :: 0 <= j < r.value ==> names[j] != s
  {
    if |names| == 0 then None
    else if names[0] == s then Some(0)
    else match NameIndex(names[1..], s)
      case None => None
      case Some(k) => Some(k + 1)
  }

  predicate DigitPair(s: string) {
    |s| == 2 && IsDigit(s[0]) && IsDigit(s[1])
  }

  function PairValue(s: string): nat
    requires DigitPair(s)
  {
    10 * DigitValue(s[0]) + DigitValue(s[1])
  }

  /** `s` without its leading spaces. */
  function DropSpaces(s: string): (r: string)
    ensures |r| <= |s| && r == s[|s| - |r|..]
  {
    if |s| > 0 && s[0] == ' ' then DropSpaces(s[1..]) else s
  }

  /** Reads "Www, DD Mmm ": the weekday's and the month's entries and
      the day. */
  function ReadDate(h: string): Option<(nat, nat, nat)>
    requires |h| == 12
  {
    var wd, mo := NameIndex(WeekdayNames, h[..3]), NameIndex(MonthNames, h[8..11]);
    if wd.Some? && mo.Some? && h[3..5] == ", " && h[7] == ' ' && h[11] == ' ' && DigitPair(h[5..7])
    then Some((wd.value, mo.value, PairValue(h[5..7])))
    else None
  }

  /** Reads a year right-aligned in its field. */
  function ReadYear(y: string): Option<nat> {
    var d := DropSpaces(y);
    if |d| > 0 && AllDigits(d) then Some(DigitsValue(d)) else None
  }

  /** Reads " HH:MM:SS GMT". */
  function ReadTime(tl: string): Option<(nat, nat, nat)>
    requires |tl| == 13
  {
    if tl[0] == ' ' && tl[3] == ':' && tl[6] == ':' && tl[9..] == " GMT"
       && DigitPair(tl[1..3]) && DigitPair(tl[4..6]) && DigitPair(tl[7..9])
    then Some((PairValue(tl[1..3]), PairValue(tl[4..6]), PairValue(tl[7..9])))
    else None
  }

  /** Reads "Www, DD Mmm YYYY HH:MM:SS GMT", the year right-aligned in at
      least four characters; `None` for anything else or for a time out of
      the ranges `gmtime` keeps to. */
  function ParseDateTime(s: string): (r: Option<GmTime>)
    ensures r.Some? ==> Valid(r.value)
  {
    if |s| < 29 then None
    else Assemble(ReadDate(s[..12]), ReadYear(s[12..|s| - 13]), ReadTime(s[|s| - 13..]))
  }

  /** The broken-down time the three parts read as, when each part reads
      and the fields are in range. */
  function Assemble(d: Option<(nat, nat, nat)>, y: Option<nat>, c: Option<(nat, nat, nat)>): (r: Option<GmTime>)
    ensures r.Some? ==> Valid(r.value)
  {
    if d.Some? && y.Some? && c.Some? then
      var t := GmTime(y.value, d.value.1 + 1, d.value.2, c.value.0, c.value.1, c.value.2, d.value.0);
      if Valid(t) then Some(t) else None
    else None
  }

  // ---------------------------------------------------------------------
  // Properties

  /** The date is 29 characters long for four-digit years, and longer only
      by the extra digits of the year. */
  lemma FormatLength(t: GmTime)
    requires Valid(t)
    ensures |FormatDateTime(t)| == 25 + (if t.year < 10000 then 4 else |ShowNat(t.year)|)
    ensures |FormatDateTime(t)| >= 29
  {
    HeadFields(t);
    TailFields(t);
    YearWidth(t.year);
  }

  /** Round trip: the reader recovers every broken-down time the server
      formats. */
  lemma ParseFormat(t: GmTime)
    requires Valid(t)
    ensures ParseDateTime(FormatDateTime(t)) == Some(t)
  {
    var h, y, tl := DatePart(t), LeftPad(ShowNat(t.year), 4, ' '), TimePart(t);
    var s := FormatDateTime(t);
    HeadFields(t);
    TailFields(t);
    YearWidth(t.year);
    Pieces(s, h, y, tl);
    YearDigits(t.year);
    ReadParts(s, h, y, tl, t);
  }

  /** The reader, on a string cut into parts that read as `t`'s fields. */
  lemma ReadParts(s: string, h: string, y: string, tl: string, t: GmTime)
    requires Valid(t) && |s| >= 29 && |h| == 12 && |tl| == 13
    requires s[..12] == h && s[12..|s| - 13] == y && s[|s| - 13..] == tl
    requires ReadDate(h) == Some((t.weekday as nat, t.month - 1, t.day as nat))
    requires ReadYear(y) == Some(t.year as nat)
    requires ReadTime(tl) == Some((t.hour as nat, t.minute as nat, t.second as nat))
    ensures ParseDateTime(s) == Some(t)
  {
    AssembleFields(t);
  }

  lemma AssembleFields(t: GmTime)
    requires Valid(t)
    ensures Assemble(Some((t.weekday as nat, t.month - 1, t.day as nat)), Some(t.year as nat),
                     Some((t.hour as nat, t.minute as nat, t.second as nat))) == Some(t)
  {
  }

  // Helpers

  /** `%02d` of a number below 100 is two digits worth the number. */
  lemma TwoDigitsShape(n: nat)
    requires n < 100
    ensures DigitPair(TwoDigits(n)) && PairValue(TwoDigits(n)) == n
  {
    if n < 10 {
      assert TwoDigits(n) == "0" + [DigitChar(n)];
    } else {
      assert ShowNat(n / 10) == [DigitChar(n / 10)];
      assert TwoDigits(n) == [DigitChar(n / 10), DigitChar(n % 10)];
    }
  }

  lemma YearWidth(y: nat)
    ensures |LeftPad(ShowNat(y), 4, ' ')| == (if y < 10000 then 4 else |ShowNat(y)|)
  {
    if y < 10000 {
      FewDigits(y, 4);
    } else {
      ManyDigits(y, 4);
    }
  }

  function Pow10(k: nat): nat {
    if k == 0 then 1 else 10 * Pow10(k - 1)
  }

  /** A number below 10^k has at most k digits. */
  lemma {:induction false} FewDigits(n: nat, k: nat)
    requires 1 <= k && n < Pow10(k)
    ensures |ShowNat(n)| <= k
    decreases k
  {
    if n >= 10 {
      assert n / 10 < Pow10(k - 1);
      FewDigits(n / 10, k - 1);
    }
  }

  /** A number from 10^k on has more than k digits. */
  lemma {:induction false} ManyDigits(n: nat, k: nat)
    requires n >= Pow10(k)
    ensures |ShowNat(n)| >= k + 1
    decreases k
  {
    if k > 0 {
      assert n / 10 >= Pow10(k - 1);
      ManyDigits(n / 10, k - 1);
    }
  }

  /** The padded year reads back as the year. */
  lemma YearDigits(y: nat)
    ensures ReadYear(LeftPad(ShowNat(y), 4, ' ')) == Some(y)
  {
    var s := ShowNat(y);
    var p := LeftPad(s, 4, ' ');
    DropLeading(p, |p| - |s|);
    ShowNatValue(y);
  }

  /** Dropping the spaces before a digit leaves the digits. */
  lemma {:induction false} DropLeading(p: string, k: nat)
    requires k < |p| && IsDigit(p[k])
    requires forall i :: 0 <= i < k ==> p[i] == ' '
    ensures DropSpaces(p) == p[k..]
    decreases k
  {
    if k > 0 {
      DropLeading(p[1..], k - 1);
      assert p[1..][k - 1..] == p[k..];
    }
  }

  /** A formatted date cut back into its three parts. */
  lemma Pieces(s: string, h: string, y: string, tl: string)
    requires s == h + y + tl && |h| == 12 && |tl| == 13
    ensures |s| >= 25 && s[..12] == h && s[12..|s| - 13] == y && s[|s| - 13..] == tl
  {
  }

  lemma HeadFields(t: GmTime)
    requires Valid(t)
    ensures |DatePart(t)| == 12 && ReadDate(DatePart(t)) == Some((t.weekday as nat, t.month - 1, t.day as nat))
  {
    DatePartShape(t);
    HeadOf(t.weekday, t.month - 1, t.day);
  }

  /** The head made of weekday entry `wd`, month entry `mo` and day `day`
      reads back as those three. */
  lemma HeadOf(wd: nat, mo: nat, day: nat)
    requires wd < |WeekdayNames| && mo < |MonthNames| && day < 100
    ensures var h := DateText(WeekdayNames[wd], TwoDigits(day), MonthNames[mo]);
      |h| == 12 && ReadDate(h) == Some((wd, mo, day))
  {
    WeekdayEntry(wd);
    MonthEntry(mo);
    TwoDigitsShape(day);
    ReadHead(WeekdayNames[wd], TwoDigits(day), MonthNames[mo], wd, mo, day);
  }

  /** The month name needs no padding. */
  lemma DatePartShape(t: GmTime)
    requires Valid(t)
    ensures DatePart(t) == DateText(WeekdayNames[t.weekday], TwoDigits(t.day), MonthNames[t.month - 1])
  {
    LeftPadFull(MonthNames[t.month - 1], 3, ' ');
  }

  /** Each weekday name is three letters and is found at its own entry. */
  lemma WeekdayEntry(i: int)
    requires 0 <= i < |WeekdayNames|
    ensures |WeekdayNames[i]| == 3 && NameIndex(WeekdayNames, WeekdayNames[i]) == Some(i)
  {
    NamesShape();
    IndexOfDistinct(WeekdayNames, i);
  }

  /** Each month name is three letters and is found at its own entry. */
  lemma MonthEntry(i: int)
    requires 0 <= i < |MonthNames|
    ensures |MonthNames[i]| == 3 && NameIndex(MonthNames, MonthNames[i]) == Some(i)
  {
    NamesShape();
    IndexOfDistinct(MonthNames, i);
  }

  lemma ReadHead(w: string, d: string, m: string, wd: nat, mo: nat, day: nat)
    requires |w| == 3 && |d| == 2 && |m| == 3
    requires NameIndex(WeekdayNames, w) == Some(wd) && NameIndex(MonthNames, m) == Some(mo)
    requires DigitPair(d) && PairValue(d) == day
    ensures |DateText(w, d, m)| == 12 && ReadDate(DateText(w, d, m)) == Some((wd, mo, day))
  {
    HeadLayout(w, d, m);
  }

  lemma LeftPadFull(s: string, width: nat, fill: char)
    requires |s| >= width
    ensures LeftPad(s, width, fill) == s
  {
  }

  lemma HeadLayout(w: string, d: string, m: string)
    requires |w| == 3 && |d| == 2 && |m| == 3
    ensures var h := DateText(w, d, m);
      && |h| == 12 && h[..3] == w && h[3..5] == ", " && h[5..7] == d && h[7] == ' ' && h[8..11] == m && h[11] == ' '
  {
    var h := DateText(w, d, m);
    assert h[..3] == w;
    assert h[5..7] == d;
    assert h[8..11] == m;
  }

  lemma TailFields(t: GmTime)
    requires Valid(t)
    ensures |TimePart(t)| == 13 && ReadTime(TimePart(t)) == Some((t.hour as nat, t.minute as nat, t.second as nat))
  {
    TwoDigitsShape(t.hour);
    TwoDigitsShape(t.minute);
    TwoDigitsShape(t.second);
    ReadTail(TwoDigits(t.hour), TwoDigits(t.minute), TwoDigits(t.second));
  }

  lemma ReadTail(a: string, b: string, c: string)
    requires DigitPair(a) && DigitPair(b) && DigitPair(c)
    ensures |TimeText(a, b, c)| == 13
    ensures ReadTime(TimeText(a, b, c)) == Some((PairValue(a), PairValue(b), PairValue(c)))
  {
    TailLayout(a, b, c);
  }

  lemma TailLayout(a: string, b: string, c: string)
    requires |a| == 2 && |b| == 2 && |c| == 2
    ensures var tl := TimeText(a, b, c);
      && |tl| == 13 && tl[0] == ' ' && tl[1..3] == a && tl[3] == ':' && tl[4..6] == b && tl[6] == ':' && tl[7..9] == c
      && tl[9..] == " GMT"
  {
    var tl := TimeText(a, b, c);
    assert tl[1..3] == a;
    assert tl[4..6] == b;
    assert tl[7..9] == c;
    assert tl[9..] == " GMT";
  }

  predicate Distinct(names: seq<string>) {
    forall j, k :: 0 <= j < k < |names| ==> names[j] != names[k]
  }

  predicate ThreeLetters(names: seq<string>) {
    forall i :: 0 <= i < |names| ==> |names[i]| == 3
  }

  /** The weekday and month names are distinct three-letter words. */
  lemma NamesShape()
    ensures Distinct(WeekdayNames) && ThreeLetters(WeekdayNames)
    ensures Distinct(MonthNames) && ThreeLetters(MonthNames)
  {
  }

  /** In a table of distinct names, the lookup finds each name at its own
      entry. */
  lemma IndexOfDistinct(names: seq<string>, i: int)
    requires Distinct(names) && 0 <= i < |names|
    ensures NameIndex(names, names[i]) == Some(i)
  {
  }
}

=== FILE: hub.dfy ===
/** The hub: the per-thread scheduling greenlet that runs the event loop,
    and the `Waiter`, the single-slot handoff through which the hub resumes
    exactly one suspended greenlet.

    Greenlets are named by `TaskId` handles. A greenlet switch is not
    executed: what the switched-to side eventually sends back (a value or
    an exception) is a parameter, a `Signal`. */
module Hub {
  import opened Wrappers
  import opened Exceptions

  type TaskId = nat
  type SignalId = nat

  /** What a suspended greenlet is resumed with: `switch(value)` or `throw(exc)`. */
  datatype Signal = Value(v: nat) | Throw(exc: Exc)

  function Resumed(s: Signal): Result<nat, Exc> {
    match s
    case Value(v) => Success(v)
    case Throw(e) => Failure(e)
  }

  // ---------------------------------------------------------------------
  // Hub.switch

  /** The `switch_out` attribute of the greenlet leaving for the hub. */
  datatype SwitchOutHook = NoHook | HookReturns | HookRaises(exc: Exc)

  /** A performed switch into the hub: who it went to, and the hook error
      that was printed instead of propagated, if any. */
  datatype SwitchRecord = SwitchRecord(target: TaskId, reported: Option<Exc>)

  /** `Hub.switch`: refused from inside the hub itself; otherwise the
      `switch_out` hook runs, any exception from it is reported, and control
      goes to the hub regardless. */
  function HubSwitch(cur: TaskId, hub: TaskId, hook: SwitchOutHook): (r: Result<SwitchRecord, Exc>)
    ensures r.Failure? <==> cur == hub
    ensures r.Failure? ==> r.error.AssertionError?
    ensures r.Success? ==> r.value.target == hub
    ensures r.Success? ==> (r.value.reported.Some? <==> hook.HookRaises?)
  {
    if cur == hub then Failure(AssertionError("Cannot switch to MAINLOOP from MAINLOOP"))
    else
      var reported := match hook
        case HookRaises(e) => Some(e)
        case _ => None;
      Success(SwitchRecord(hub, reported))
  }

  /** The `switch_out` hook cannot stop or redirect a switch: whatever it
      does, the switch goes to the same place. */
  lemma SwitchOutCannotPreventSwitch(cur: TaskId, hub: TaskId, h1: SwitchOutHook, h2: SwitchOutHook)
    ensures HubSwitch(cur, hub, h1).Success? == HubSwitch(cur, hub, h2).Success?
    ensures HubSwitch(cur, hub, h1).Success? ==>
      HubSwitch(cur, hub, h1).value.target == HubSwitch(cur, hub, h2).value.target
  {
  }

  // ---------------------------------------------------------------------
  // Waiter

  /** `Waiter`: one optional greenlet slot. */
  datatype Waiter = Waiter(greenlet: Option<TaskId>) {
    /** `waiting` and `__nonzero__` */
    predicate Waiting() {
      greenlet.Some?
    }
  }

  const FreshWaiter := Waiter(None)

  /** The first half of `Waiter.wait`: the assertion, then attaching the
      current greenlet. The greenlet stays attached while it is suspended. */
  function Attach(w: Waiter, cur: TaskId): (r: Result<Waiter, Exc>)
    ensures w.Waiting() <==> r.Failure?
    ensures r.Success? ==> r.value.greenlet == Some(cur)
  {
    if w.greenlet.Some? then Failure(AssertionError("This Waiter is already used"))
    else Success(Waiter(Some(cur)))
  }

  /** `Waiter.wait` as a whole: attach, switch to the hub, and detach in the
      `finally` clause whatever the switch produced. `resume` is what the hub
      eventually delivers to this greenlet. */
  function WaiterWait(w: Waiter, cur: TaskId, hub: TaskId, resume: Signal): (r: (Result<nat, Exc>, Waiter))
    ensures w.Waiting() ==> r.0.Failure? && r.0.error.AssertionError? && r.1 == w
    ensures !w.Waiting() ==> !r.1.Waiting()
    ensures !w.Waiting() && cur == hub ==> r.0.Failure? && r.0.error.AssertionError?
    ensures !w.Waiting() && cur != hub ==> r.0 == Resumed(resume)
  {
    match Attach(w, cur)
    case Failure(e) => (Failure(e), w)
    case Success(attached) =>
      var outcome :=
        match HubSwitch(cur, hub, NoHook)
        case Failure(e) => Failure(e)
        case Success(_) => Resumed(resume);
      (outcome, attached.(greenlet := None))
  }

  /** The result of a delivery: nobody was waiting, or the attached
      greenlet was resumed; an exception that came back out of the resumed
      greenlet is printed, never passed on to the deliverer. */
  datatype Delivery = NoOp | Delivered(to: TaskId, sig: Signal, reported: Option<Exc>)

  /** The shared body of `Waiter.switch` and `Waiter.throw`. `comesBack` is
      what the resumed greenlet raises back into the hub, if anything. The
      resumed greenlet leaves `wait`, whose `finally` clause empties the slot
      before it runs any other code. */
  function Deliver(w: Waiter, cur: TaskId, hub: TaskId, sig: Signal, comesBack: Option<Exc>)
    : (r: Result<(Delivery, Waiter), Exc>)
    ensures r.Success? <==> cur == hub
    ensures r.Success? && !w.Waiting() ==> r.value == (NoOp, w)
    ensures r.Success? && w.Waiting() ==>
      r.value.0 == Delivered(w.greenlet.value, sig, comesBack) && !r.value.1.Waiting()
  {
    if cur != hub then Failure(AssertionError("Can only use Waiter.switch method from the mainloop"))
    else match w.greenlet
      case None => Success((NoOp, w))
      case Some(g) => Success((Delivered(g, sig, comesBack), Waiter(None)))
  }

  /** `Waiter.switch(value)` */
  function WaiterSwitch(w: Waiter, cur: TaskId, hub: TaskId, value: nat, comesBack: Option<Exc>)
    : (r: Result<(Delivery, Waiter), Exc>)
    ensures r.Success? <==> cur == hub
    ensures r.Success? ==> (r.value.0.NoOp? <==> !w.Waiting())
    ensures r.Success? && w.Waiting() ==> r.value.0.sig == Value(value) && !r.value.1.Waiting()
  {
    Deliver(w, cur, hub, Value(value), comesBack)
  }

  /** `Waiter.throw(exc)` */
  function WaiterThrow(w: Waiter, cur: TaskId, hub: TaskId, exc: Exc, comesBack: Option<Exc>)
    : (r: Result<(Delivery, Waiter), Exc>)
    ensures r.Success? <==> cur == hub
    ensures r.Success? ==> (r.value.0.NoOp? <==> !w.Waiting())
    ensures r.Success? && w.Waiting() ==> r.value.0.sig == Throw(exc) && !r.value.1.Waiting()
  {
    Deliver(w, cur, hub, Throw(exc), comesBack)
  }

  /** A second delivery after a successful one does nothing: a waiter
      delivers at most once per `wait`. */
  lemma {:induction false} DeliverAtMostOnce(w: Waiter, hub: TaskId, s1: Signal, s2: Signal,
                                             b1: Option<Exc>, b2: Option<Exc>)
    requires w.Waiting()
    ensures Deliver(w, hub, hub, s1, b1).Success?
    ensures Deliver(Deliver(w, hub, hub, s1, b1).value.1, hub, hub, s2, b2).value.0 == NoOp
  {
  }

  /** One event in the life of a waiter: a greenlet calling `wait`, or the
      hub calling `switch`/`throw`. */
  datatype WaiterEvent = WaitCall(task: TaskId) | HubDelivers(sig: Signal)

  /** Counts over a replay: successful attaches, deliveries that resumed
      someone, `wait` calls refused because the slot was taken, and attaches
      undone at once because the waiting greenlet was the hub itself. */
  datatype Tally = Tally(attached: nat, delivered: nat, refused: nat, aborted: nat)

  function Add(a: Tally, b: Tally): Tally {
    Tally(a.attached + b.attached, a.delivered + b.delivered, a.refused + b.refused, a.aborted + b.aborted)
  }

  /** One event against a waiter, the hub being `hub`. A `wait` from a
      non-hub greenlet stays attached until a delivery; a `wait` from the hub
      itself attaches and is detached by the failing switch. */
  function Step(w: Waiter, hub: TaskId, ev: WaiterEvent): (Waiter, Tally) {
    match ev
    case WaitCall(g) =>
      if w.Waiting() then (w, Tally(0, 0, 1, 0))
      else if g == hub then (WaiterWait(w, g, hub, Value(0)).1, Tally(1, 0, 0, 1))
      else (Attach(w, g).value, Tally(1, 0, 0, 0))
    case HubDelivers(s) =>
      var d := Deliver(w, hub, hub, s, None).value;
      (d.1, Tally(0, if d.0.Delivered? then 1 else 0, 0, 0))
  }

  function Replay(w: Waiter, hub: TaskId, evs: seq<WaiterEvent>): (Waiter, Tally)
    decreases |evs|
  {
    if |evs| == 0 then (w, Tally(0, 0, 0, 0))
    else
      var (w1, t1) := Step(w, hub, evs[0]);
      var (w2, t2) := Replay(w1, hub, evs[1..]);
      (w2, Add(t1, t2))
  }

  function Occupancy(w: Waiter): nat {
    if w.Waiting() then 1 else 0
  }

  /** The conservation law for a single event. */
  lemma StepConservation(w: Waiter, hub: TaskId, ev: WaiterEvent)
    ensures Occupancy(w) + Step(w, hub, ev).1.attached ==
      Step(w, hub, ev).1.delivered + Step(w, hub, ev).1.aborted + Occupancy(Step(w, hub, ev).0)
  {
  }

  /** Conservation law of the handoff: every successful attach ends in
      exactly one delivery or one immediate abort, except an attach that is
      still pending, and there is never more than one of those. */
  lemma {:induction false} ReplayConservation(w: Waiter, hub: TaskId, evs: seq<WaiterEvent>)
    ensures Occupancy(w) + Replay(w, hub, evs).1.attached ==
      Replay(w, hub, evs).1.delivered + Replay(w, hub, evs).1.aborted + Occupancy(Replay(w, hub, evs).0)
    decreases |evs|
  {
    if |evs| > 0 {
      var (w1, t1) := Step(w, hub, evs[0]);
      var (w2, t2) := Replay(w1, hub, evs[1..]);
      assert Replay(w, hub, evs) == (w2, Add(t1, t2));
      StepConservation(w, hub, evs[0]);
      ReplayConservation(w1, hub, evs[1..]);
    }
  }

  /** Starting from a fresh waiter, deliveries never outnumber attaches:
      nobody is resumed twice by one waiter for one `wait`. */
  lemma FreshWaiterDeliversAtMostOncePerWait(hub: TaskId, evs: seq<WaiterEvent>)
    ensures Replay(FreshWaiter, hub, evs).1.delivered <= Replay(FreshWaiter, hub, evs).1.attached
  {
    ReplayConservation(FreshWaiter, hub, evs);
  }

  // ---------------------------------------------------------------------
  // get_hub

  /** The thread-local registry: the cached hub, and whether this thread's
      local storage has the `Hub` attribute at all (only the importing
      thread has it). */
  datatype ThreadLocal = ThreadLocal(hub: Option<TaskId>, hubTypeBound: bool)

  /** `get_hub`: the cached hub if there is one; otherwise a new hub, which
      is cached; a thread without the `Hub` attribute is refused. */
  function GetHub(tl: ThreadLocal, newHub: TaskId): (r: Result<(TaskId, ThreadLocal), Exc>)
    ensures tl.hub.Some? ==> r == Success((tl.hub.value, tl))
    ensures tl.hub.None? ==> (r.Failure? <==> !tl.hubTypeBound)
    ensures r.Failure? ==> r.error == NotImplementedError
    ensures r.Success? ==> r.value.1.hub == Some(r.value.0) && r.value.1.hubTypeBound == tl.hubTypeBound
  {
    match tl.hub
    case Some(h) => Success((h, tl))
    case None =>
      if !tl.hubTypeBound then Failure(NotImplementedError)
      else Success((newHub, tl.(hub := Some(newHub))))
  }

  /** The hub is created once: a second `get_hub` returns the same hub and
      changes nothing, whatever identity a new hub would have had. */
  lemma GetHubCaches(tl: ThreadLocal, f1: TaskId, f2: TaskId)
    requires GetHub(tl, f1).Success?
    ensures var (h, tl1) := GetHub(tl, f1).value; GetHub(tl1, f2) == Success((h, tl1))
  {
  }

  // ---------------------------------------------------------------------
  // Hub.run, Hub.shutdown

  /** The hub's own fields: its greenlet and its Ctrl-C signal registration. */
  datatype HubState = HubState(id: TaskId, keyboardInterrupt: Option<SignalId>)

  /** One call of `core.dispatch()`: it returns a code or raises. */
  datatype Dispatch = Returned(code: int) | Raised(exc: Exc)

  const MaxDispatchRestarts := 15

  /** The `except IOError` clause catches the call: dispatch raised an
      `IOError`, a `socket.error` or one of its subclasses. */
  predicate IOFailure(d: Dispatch) {
    d.Raised? && IsIOError(d.exc)
  }

  predicate FailedBefore(dispatch: nat -> Dispatch, n: nat) {
    forall i: nat :: i < n ==> IOFailure(dispatch(i))
  }

  /** `Hub.run`. `dispatch(i)` is the outcome of the i-th call of
      `core.dispatch()` and `sig` the registration returned when the Ctrl-C
      handler is installed. The method always ends in an exception: after
      a normal dispatch return it is `DispatchExit(code)`; an `IOError` is
      survived fifteen times and the 16th consecutive one is re-raised; any
      other exception from dispatch passes through. Whichever it is, the
      `finally` clause cancels the handler and drops the thread-local hub
      only if it is this hub. */
  method Run(h: HubState, cur: TaskId, tl: ThreadLocal, sig: SignalId, dispatch: nat -> Dispatch)
    returns (exc: Exc, calls: nat, h': HubState, tl': ThreadLocal, cancelled: Option<SignalId>)
    ensures cur != h.id ==> exc.AssertionError? && calls == 0 && h' == h && tl' == tl && cancelled.None?
    ensures cur == h.id ==> h'.keyboardInterrupt.None? && h'.id == h.id && cancelled == Some(sig)
    ensures cur == h.id ==> tl' == (if tl.hub == Some(h.id) then tl.(hub := None) else tl)
    ensures cur == h.id ==> 1 <= calls <= MaxDispatchRestarts + 1 && FailedBefore(dispatch, calls - 1)
    ensures cur == h.id && dispatch(calls - 1).Returned? ==> exc == DispatchExit(dispatch(calls - 1).code)
    ensures cur == h.id && dispatch(calls - 1).Raised? ==> exc == dispatch(calls - 1).exc
    ensures cur == h.id && IOFailure(dispatch(calls - 1)) ==> calls == MaxDispatchRestarts + 1
    ensures cur == h.id && calls <= MaxDispatchRestarts ==> !IOFailure(dispatch(calls - 1))
  {
    if cur != h.id {
      return AssertionError("Do not call run() directly"), 0, h, tl, None;
    }
    var installed := h.(keyboardInterrupt := Some(sig));
    var loopCount := 0;
    calls := 0;
    while true
      invariant loopCount == calls <= MaxDispatchRestarts
      invariant FailedBefore(dispatch, calls)
      decreases MaxDispatchRestarts - loopCount
    {
      var d := dispatch(calls);
      calls := calls + 1;
      match d
      case Returned(code) =>
        exc := DispatchExit(code);
        break;
      case Raised(e) =>
        if !IsIOError(e) {
          exc := e;
          break;
        }
        loopCount := loopCount + 1;
        if loopCount > MaxDispatchRestarts {
          exc := e;
          break;
        }
    }
    // the `finally` clause
    cancelled := installed.keyboardInterrupt;
    h' := installed.(keyboardInterrupt := None);
    tl' := if tl.hub == Some(h.id) then tl.(hub := None) else tl;
  }

  /** `Hub.shutdown`, called from greenlet `cur`. `back` is what the switch
      into the hub eventually produces in MAIN: the exception with which the
      hub's `run` ended, or a plain value. Only MAIN may shut down; the
      Ctrl-C handler is cancelled and the resolver told to shut down before
      the switch; `DispatchExit(1)` counts as a clean exit and every other
      exception is re-raised. */
  function HubShutdown(h: HubState, cur: TaskId, main: TaskId, back: Result<nat, Exc>)
    : (r: (Result<(), Exc>, HubState, bool))
    ensures cur != main ==> r.0.Failure? && r.0.error.AssertionError? && r.1 == h && !r.2
    ensures cur == main ==> r.1 == h.(keyboardInterrupt := None) && r.2
    ensures cur == main && main != h.id ==>
      (r.0.Success? <==> (back.Success? || back.error == DispatchExit(1)))
    ensures cur == main && main != h.id && r.0.Failure? ==> r.0.error == back.error
  {
    if cur != main then (Failure(AssertionError("Shutting down is only possible from MAIN greenlet")), h, false)
    else
      var h1 := h.(keyboardInterrupt := None);
      var outcome :=
        match HubSwitch(cur, h.id, NoHook)
        case Failure(e) => Failure(e)
        case Success(_) =>
          match back
          case Success(_) => Success(())
          case Failure(DispatchExit(1)) => Success(())
          case Failure(e) => Failure(e);
      (outcome, h1, true)
  }

  /** How the end of the hub's `run` decides `shutdown` from MAIN: the hub
      leaving its loop because dispatch returned 1 is the clean exit and
      returns; any other code, and any other exception the loop ended with,
      is raised to MAIN unchanged. Either way the Ctrl-C handler is gone and
      the resolver was told to shut down. */
  lemma ShutdownAfterRun(h: HubState, main: TaskId, runEnd: Exc)
    requires main != h.id
    ensures var r := HubShutdown(h, main, main, Failure(runEnd));
      && r.1.keyboardInterrupt.None? && r.1.id == h.id && r.2
      && (runEnd.DispatchExit? ==> (r.0.Success? <==> runEnd.code == 1))
      && (r.0.Failure? ==> r.0.error == runEnd)
      && (!runEnd.DispatchExit? ==> r.0 == Failure(runEnd))
  {
  }

  /** `shutdown` called from a greenlet that is MAIN and also the hub does
      not switch at all: the switch refuses the hub switching to itself.
      The source never reaches this case, because `get_hub` always creates
      the hub as a new greenlet, distinct from MAIN; the lemma records what
      the modelled `HubShutdown` does for every pair of ids. */
  lemma ShutdownFromHubRefused(h: HubState, back: Result<nat, Exc>)
    ensures var r := HubShutdown(h, h.id, h.id, back);
      r.0 == Failure(AssertionError("Cannot switch to MAINLOOP from MAINLOOP")) && r.1 == h.(keyboardInterrupt := None)
  {
  }

  /** The module-level `shutdown()`: shuts the thread's hub down if there is
      one and it is still alive, and does nothing otherwise. */
  function ShutdownCurrent(tl: ThreadLocal, h: HubState, hubDead: bool, cur: TaskId, main: TaskId,
                           back: Result<nat, Exc>): (r: (Result<(), Exc>, HubState, bool))
    requires tl.hub.Some? ==> tl.hub.value == h.id
    ensures tl.hub.None? || hubDead ==> r == (Success(()), h, false)
    ensures tl.hub.Some? && !hubDead ==> r == HubShutdown(h, cur, main, back)
  {
    if tl.hub.Some? && !hubDead then HubShutdown(h, cur, main, back) else (Success(()), h, false)
  }

  // ---------------------------------------------------------------------
  // kill, sleep

  /** A callback queued with `core.active_event`, run later by the hub. */
  datatype Scheduled = ThrowInto(task: TaskId, exc: Exc)

  /** `kill(greenlet, exception)`: asynchronous; for a live greenlet it only
      queues a throw, for a dead one it does nothing. */
  function Kill(task: TaskId, dead: bool, exc: Exc, queue: seq<Scheduled>): (r: seq<Scheduled>)
    ensures |r| == |queue| + (if dead then 0 else 1)
    ensures r[..|queue|] == queue
    ensures !dead ==> r[|queue|] == ThrowInto(task, exc)
  {
    if dead then queue else queue + [ThrowInto(task, exc)]
  }

  /** `sleep(seconds)`: arm a timer that switches back with a unique mark,
      then switch to the hub. It returns normally exactly when the mark comes
      back; on every other outcome the timer is cancelled and the error
      raised. The result pairs the outcome with whether the timer was
      cancelled. */
  function Sleep(cur: TaskId, hub: TaskId, mark: nat, resume: Signal): (r: (Result<(), Exc>, bool))
    ensures r.0.Success? <==> cur != hub && resume == Value(mark)
    ensures r.1 <==> r.0.Failure?
    ensures cur != hub && resume.Throw? ==> r.0 == Failure(resume.exc)
  {
    var outcome :=
      match HubSwitch(cur, hub, NoHook)
      case Failure(e) => Failure(e)
      case Success(_) =>
        match resume
        case Throw(e) => Failure(e)
        case Value(v) => if v == mark then Success(()) else Failure(AssertionError("Invalid switch into sleep()"));
    (outcome, outcome.Failure?)
  }
}

=== FILE: resolver.dfy ===
/** The c-ares based resolver: the counted-completion join (`Values`) that
    collects the answers of concurrent sub-lookups, port/service
    normalisation, the assembly of `getaddrinfo` results, `getnameinfo`,
    and the retry discipline that survives the channel being replaced after
    a fork.

    The c-ares channel, `getservbyname` and the system `getaddrinfo` are not
    modelled: their answers are parameters. Constants are the Linux values. */
module Resolver {
  import opened Wrappers
  import opened Exceptions
  import opened Text

  const AF_UNSPEC := 0
  const AF_INET := 2
  const AF_INET6 := 10
  const SOCK_STREAM := 1
  const SOCK_DGRAM := 2
  const SOCK_RAW := 3
  const AI_PASSIVE := 1
  const AI_NUMERICHOST := 4
  const EAI_SERVICE := -8
  /** The code the resolver uses for "No address associated with hostname". */
  const EAI_NODATA := -5

  const NoAddress := GaiError(EAI_NODATA, "No address associated with hostname")
  const BadServiceMessage := "Servname not supported for ai_socktype"
  const BadService := GaiError(EAI_SERVICE, BadServiceMessage)

  /** `str()` of a two-argument `gaierror(code, message)`. */
  function GaiText(code: int, msg: string): string {
    "[Errno " + ShowInt(code) + "] " + msg
  }

  /** `BadService` raised inside the `try` of `_lookup_port` is caught by
      its own `except error` clause (a gaierror is a socket.error); its text
      does not mention "not found", so it comes out again as a gaierror
      whose only argument is that text. */
  const RewrappedBadService := GaiErrorMsg(GaiText(EAI_SERVICE, BadServiceMessage))

  lemma RewrappedBadServiceText()
    ensures RewrappedBadService == GaiErrorMsg("[Errno -8] " + BadServiceMessage)
  {
    assert ShowNat(8) == "8";
    assert ShowInt(EAI_SERVICE) == "-8";
    assert "[Errno " + "-8" + "] " == "[Errno -8] ";
  }

  // ---------------------------------------------------------------------
  // Values: the counted-completion join

  /** `Values`: how many answers are still expected, the successful answers
      in arrival order, the last error, and how many times the waiter was
      switched. */
  datatype Values<T> = Values(count: int, values: seq<T>, error: Option<Exc>, switches: nat)

  function NewValues<T>(count: int): Values<T> {
    Values(count, [], None, 0)
  }

  /** `Values.__call__(source)`: one sub-lookup finished. */
  function OnAnswer<T>(v: Values<T>, source: Result<T, Exc>): (r: Values<T>)
    ensures r.count == v.count - 1
    ensures source.Success? ==> r.values == v.values + [source.value] && r.error == v.error
    ensures source.Failure? ==> r.values == v.values && r.error == Some(source.error)
    ensures r.switches == v.switches + (if r.count <= 0 then 1 else 0)
  {
    var v1 :=
      match source
      case Success(x) => v.(count := v.count - 1, values := v.values + [x])
      case Failure(e) => v.(count := v.count - 1, error := Some(e));
    if v1.count <= 0 then v1.(switches := v1.switches + 1) else v1
  }

  /** Feeding answers one after another. */
  function Collect<T>(v: Values<T>, sources: seq<Result<T, Exc>>): Values<T>
    decreases |sources|
  {
    if |sources| == 0 then v else Collect(OnAnswer(v, sources[0]), sources[1..])
  }

  /** The successful answers of a run, in order. */
  function Successes<T>(sources: seq<Result<T, Exc>>): (r: seq<T>)
    ensures |r| <= |sources|
  {
    if |sources| == 0 then []
    else (if sources[0].Success? then [sources[0].value] else []) + Successes(sources[1..])
  }

  /** The last error of a run, if any. */
  function LastError<T>(sources: seq<Result<T, Exc>>, before: Option<Exc>): Option<Exc>
    decreases |sources|
  {
    if |sources| == 0 then before
    else LastError(sources[1..], if sources[0].Failure? then Some(sources[0].error) else before)
  }

  /** `Values.get`, once woken: all answers if any sub-lookup succeeded,
      otherwise the recorded error (raising `None` is a `TypeError`). */
  function Get<T>(v: Values<T>): (r: Result<seq<T>, Exc>)
    ensures r.Success? <==> |v.values| > 0
    ensures r.Success? ==> r.value == v.values
    ensures r.Failure? && v.error.Some? ==> r.error == v.error.value
  {
    if |v.values| > 0 then Success(v.values)
    else match v.error
      case Some(e) => Failure(e)
      case None => Failure(TypeError("exceptions must derive from BaseException"))
  }

  /** Feeding a `Values(n)` with its n answers: the count reaches zero, the
      waiter is switched exactly once (at the last answer), the collected
      values are exactly the successes in arrival order and the error slot
      holds the last failure. */
  lemma {:induction false} CollectInvariant<T>(v: Values<T>, sources: seq<Result<T, Exc>>)
    requires v.count >= |sources|
    ensures Collect(v, sources).count == v.count - |sources|
    ensures Collect(v, sources).values == v.values + Successes(sources)
    ensures Collect(v, sources).error == LastError(sources, v.error)
    ensures Collect(v, sources).switches == v.switches + (if |sources| > 0 && v.count == |sources| then 1 else 0)
    decreases |sources|
  {
    if |sources| > 0 {
      var v1 := OnAnswer(v, sources[0]);
      CollectInvariant(v1, sources[1..]);
      assert v.values + Successes(sources) ==
        v1.values + Successes(sources[1..]);
    }
  }

  lemma {:induction false} SuccessesEmpty<T>(sources: seq<Result<T, Exc>>, before: Option<Exc>)
    requires |sources| > 0 && |Successes(sources)| == 0
    ensures LastError(sources, before).Some?
    decreases |sources|
  {
    if |sources| > 1 {
      SuccessesEmpty(sources[1..], if sources[0].Failure? then Some(sources[0].error) else before);
    } else {
      assert sources[0].Failure?;
    }
  }

  /** The join succeeds exactly when at least one sub-lookup succeeded, and
      then returns every success; otherwise it raises the last error. */
  lemma JoinSucceedsIffAnySucceeded<T>(sources: seq<Result<T, Exc>>)
    requires |sources| > 0
    ensures var v := Collect(NewValues<T>(|sources|), sources);
      v.switches == 1 && v.count == 0
      && (Get(v).Success? <==> exists i :: 0 <= i < |sources| && sources[i].Success?)
      && (Get(v).Success? ==> Get(v).value == Successes(sources))
      && (Get(v).Failure? ==> LastError(sources, None).Some? && Get(v).error == LastError(sources, None).value)
  {
    CollectInvariant(NewValues<T>(|sources|), sources);
    SuccessesNonEmptyIff(sources);
    if |Successes(sources)| == 0 {
      SuccessesEmpty(sources, None);
    }
  }

  lemma {:induction false} SuccessesNonEmptyIff<T>(sources: seq<Result<T, Exc>>)
    ensures |Successes(sources)| > 0 <==> exists i :: 0 <= i < |sources| && sources[i].Success?
  {
    if |sources| > 0 {
      SuccessesNonEmptyIff(sources[1..]);
      if exists i :: 0 <= i < |sources| && sources[i].Success? {
        var i :| 0 <= i < |sources| && sources[i].Success?;
        if i > 0 {
          assert sources[1..][i - 1].Success?;
        }
      }
      if exists i :: 0 <= i < |sources[1..]| && sources[1..][i].Success? {
        var i :| 0 <= i < |sources[1..]| && sources[1..][i].Success?;
        assert sources[i + 1].Success?;
      }
    }
  }

  // ---------------------------------------------------------------------
  // _lookup_port

  /** The `port` argument: a string, `None`, an int, or anything else. */
  datatype PortArg = PortStr(s: string) | PortNone | PortInt(n: int) | PortOther

  /** One `getservbyname(name, proto)`: a port, or `socket.error(message)`. */
  datatype ServLookup = ServFound(port: int) | ServError(msg: string)

  /** The `except error` clause: "not found" errors become `EAI_SERVICE`. */
  function ServiceError(msg: string): (e: Exc) {
    if Contains(msg, "not found") then BadService else GaiErrorMsg(msg)
  }

  /** The service-name branch of `_lookup_port`. */
  function LookupService(name: string, socktype: int, getserv: (string, string) -> ServLookup)
    : (r: Result<(int, int), Exc>)
    ensures r.Success? ==> (socktype == 0 ==> r.value.1 in {SOCK_STREAM, SOCK_DGRAM})
    ensures r.Success? && socktype != 0 ==> r.value.1 == socktype
    ensures socktype == 0 ==>
      (r.Success? <==> getserv(name, "tcp").ServFound? || getserv(name, "udp").ServFound?)
    ensures socktype == 0 && getserv(name, "tcp").ServFound? ==> r == Success((getserv(name, "tcp").port, SOCK_STREAM))
    ensures socktype == 0 && r.Failure? ==> r.error == ServiceError(getserv(name, "udp").msg)
    ensures socktype == SOCK_STREAM ==>
      r == (match getserv(name, "tcp")
            case ServFound(p) => Success((p, SOCK_STREAM))
            case ServError(m) => Failure(ServiceError(m)))
    ensures socktype == SOCK_DGRAM ==>
      r == (match getserv(name, "udp")
            case ServFound(p) => Success((p, SOCK_DGRAM))
            case ServError(m) => Failure(ServiceError(m)))
    ensures socktype !in {0, SOCK_STREAM, SOCK_DGRAM} ==>
      r == Failure(GaiErrorMsg("[Errno -8] " + BadServiceMessage))
  {
    if socktype == 0 then
      match getserv(name, "tcp")
      case ServFound(p) => Success((p, SOCK_STREAM))
      case ServError(_) =>
        match getserv(name, "udp")
        case ServFound(p) => Success((p, SOCK_DGRAM))
        case ServError(m) => Failure(ServiceError(m))
    else if socktype == SOCK_STREAM || socktype == SOCK_DGRAM then
      match getserv(name, if socktype == SOCK_STREAM then "tcp" else "udp")
      case ServFound(p) => Success((p, socktype))
      case ServError(m) => Failure(ServiceError(m))
    else
      RewrappedBadServiceText();
      Failure(RewrappedBadService)
  }

  /** `_lookup_port(port, socktype)`: the port as an int in [0, 65535]
      (reduced with Python's non-negative `% 65536`) and the socket type,
      which a service name looked up for socktype 0 fixes to the protocol it
      was found under. */
  function LookupPort(port: PortArg, socktype: int, getserv: (string, string) -> ServLookup)
    : (r: Result<(int, int), Exc>)
    ensures r.Success? ==> 0 <= r.value.0 < 65536
    ensures port.PortNone? ==> r == Success((0, socktype))
    ensures port.PortInt? ==> r == Success((port.n % 65536, socktype))
    ensures port.PortOther? ==> r == Failure(SocketErrorMsg("Int or String expected"))
    ensures port.PortStr? && ParseInt(port.s).Some? ==> r == Success((ParseInt(port.s).value % 65536, socktype))
    ensures port.PortStr? && ParseInt(port.s).None? && socktype !in {0, SOCK_STREAM, SOCK_DGRAM} ==>
      r == Failure(GaiErrorMsg("[Errno -8] " + BadServiceMessage))
  {
    var raw: Result<(int, int), Exc> :=
      match port
      case PortStr(s) =>
        (match ParseInt(s)
         case Some(n) => Success((n, socktype))
         case None => LookupService(s, socktype, getserv))
      case PortNone => Success((0, socktype))
      case PortInt(n) => Success((n, socktype))
      case PortOther => Failure(SocketErrorMsg("Int or String expected"));
    match raw
    case Success((p, st)) => Success((p % 65536, st))
    case Failure(e) => Failure(e)
  }

  /** A port written in decimal is the same port as the integer. */
  lemma LookupPortDecimalString(p: int, socktype: int, getserv: (string, string) -> ServLookup)
    ensures LookupPort(PortStr(ShowInt(p)), socktype, getserv) == LookupPort(PortInt(p), socktype, getserv)
  {
    ParseShowInt(p);
  }

  // ---------------------------------------------------------------------
  // The socktype/proto filter

  /** Python's `s & x == x` for any int `s` (negative ones in two's
      complement) and a non-negative mask `x`: every bit of `x` is set in
      `s`. Integer division by 2 is floor division, as Python's `>>`. */
  predicate HasBits(s: int, x: nat)
    decreases x
  {
    x == 0 || ((x % 2 == 0 || s % 2 == 1) && HasBits(s / 2, x / 2))
  }

  const SocktypeProto: seq<(nat, int)> := [(SOCK_STREAM, 6), (SOCK_DGRAM, 17), (SOCK_RAW, 0)]

  /** The flags Linux lets a caller or into a socket type. */
  const SOCK_NONBLOCK := 2048
  const SOCK_CLOEXEC := 524288

  /** A socket type with the `SOCK_NONBLOCK` and `SOCK_CLOEXEC` bits cleared. */
  function TypeBits(socktype: int): int {
    socktype
      - (if (socktype / SOCK_NONBLOCK) % 2 == 1 then SOCK_NONBLOCK else 0)
      - (if (socktype / SOCK_CLOEXEC) % 2 == 1 then SOCK_CLOEXEC else 0)
  }

  /** The socket-type test of the filter: the bit test `socktype & x == x`
      the source writes, or the comparison it means (the type asked for,
      apart from its flags, is the pair's type). */
  predicate SocktypeMatches(socktype: int, x: nat, bitTest: bool) {
    if bitTest then HasBits(socktype, x) else TypeBits(socktype) == x
  }

  /** Whether a (socktype, proto) pair survives the two list comprehensions
      of `_getaddrinfo`: the socket type asked for is 0 or matches it, and
      the protocol asked for is 0 or equals its protocol. */
  predicate Kept(p: (nat, int), socktype: int, proto: int, bitTest: bool) {
    (socktype == 0 || SocktypeMatches(socktype, p.0, bitTest)) && (proto == 0 || proto == p.1)
  }

  /** The two comprehensions in one pass. */
  function FilterPairs(ps: seq<(nat, int)>, socktype: int, proto: int, bitTest: bool): (r: seq<(nat, int)>)
    ensures forall p :: p in r <==> p in ps && Kept(p, socktype, proto, bitTest)
    ensures |r| <= |ps|
  {
    if |ps| == 0 then []
    else (if Kept(ps[0], socktype, proto, bitTest) then [ps[0]] else []) + FilterPairs(ps[1..], socktype, proto, bitTest)
  }

  /** The filter applied to the source's three pairs, pair by pair. */
  lemma FilterTable(socktype: int, proto: int, bitTest: bool)
    ensures FilterPairs(SocktypeProto, socktype, proto, bitTest) ==
        (if Kept((SOCK_STREAM, 6), socktype, proto, bitTest) then [(SOCK_STREAM, 6)] else [])
        + (if Kept((SOCK_DGRAM, 17), socktype, proto, bitTest) then [(SOCK_DGRAM, 17)] else [])
        + (if Kept((SOCK_RAW, 0), socktype, proto, bitTest) then [(SOCK_RAW, 0)] else [])
  {
    FilterOfThree(SocktypeProto, socktype, proto, bitTest);
  }

  /** The filter over any three pairs, unfolded once per pair. */
  lemma FilterOfThree(t: seq<(nat, int)>, socktype: int, proto: int, bitTest: bool)
    requires |t| == 3
    ensures FilterPairs(t, socktype, proto, bitTest) ==
        (if Kept(t[0], socktype, proto, bitTest) then [t[0]] else [])
        + (if Kept(t[1], socktype, proto, bitTest) then [t[1]] else [])
        + (if Kept(t[2], socktype, proto, bitTest) then [t[2]] else [])
  {
    var t1 := t[1..];
    var t2 := t1[1..];
    FilterCons(t, socktype, proto, bitTest);
    FilterCons(t1, socktype, proto, bitTest);
    FilterCons(t2, socktype, proto, bitTest);
    assert t2[1..] == [];
  }

  /** One unfolding of the filter. */
  lemma FilterCons(t: seq<(nat, int)>, socktype: int, proto: int, bitTest: bool)
    requires |t| > 0
    ensures FilterPairs(t, socktype, proto, bitTest) ==
        (if Kept(t[0], socktype, proto, bitTest) then [t[0]] else []) + FilterPairs(t[1..], socktype, proto, bitTest)
  {
  }

  /** The filter exactly as the source writes it. */
  function SocktypeProtoFilterAsWritten(socktype: int, proto: int): (r: seq<(nat, int)>)
    ensures forall p :: p in r <==>
      p in SocktypeProto && (socktype == 0 || HasBits(socktype, p.0)) && (proto == 0 || proto == p.1)
  {
    FilterPairs(SocktypeProto, socktype, proto, true)
  }

  /** With the bit test, asking for raw sockets (3 == 1|2) also yields the
      stream and datagram pairs. */
  lemma RawSocktypeMatchesEveryPair()
    ensures SocktypeProtoFilterAsWritten(SOCK_RAW, 0) == SocktypeProto
  {
    FilterTable(SOCK_RAW, 0, true);
    assert HasBits(3, 1) && HasBits(3, 2) && HasBits(3, 3);
  }

  /** The filter as intended: a pair is kept when its socket type is the
      one asked for, flags aside (any, when 0), and its protocol the one
      asked for (any, when 0). */
  function SocktypeProtoFilter(socktype: int, proto: int): (r: seq<(nat, int)>)
    ensures forall p :: p in r <==>
      p in SocktypeProto && (socktype == 0 || TypeBits(socktype) == p.0) && (proto == 0 || proto == p.1)
  {
    FilterPairs(SocktypeProto, socktype, proto, false)
  }

  /** Each of the three socket types selects exactly its own pair, with or
      without the non-blocking flag. */
  lemma FilterSelectsOwnPair()
    ensures SocktypeProtoFilter(SOCK_STREAM, 0) == [(SOCK_STREAM, 6)]
    ensures SocktypeProtoFilter(SOCK_DGRAM, 0) == [(SOCK_DGRAM, 17)]
    ensures SocktypeProtoFilter(SOCK_RAW, 0) == [(SOCK_RAW, 0)]
    ensures SocktypeProtoFilter(SOCK_STREAM + SOCK_NONBLOCK, 0) == [(SOCK_STREAM, 6)]
    ensures SocktypeProtoFilter(0, 17) == [(SOCK_DGRAM, 17)]
    ensures SocktypeProtoFilter(SOCK_STREAM, 17) == []
  {
    assert SocktypeProtoFilter(SOCK_STREAM, 0) == [(SOCK_STREAM, 6)] by {
      FilterTable(SOCK_STREAM, 0, false);
    }
    assert SocktypeProtoFilter(SOCK_DGRAM, 0) == [(SOCK_DGRAM, 17)] by {
      FilterTable(SOCK_DGRAM, 0, false);
    }
    assert SocktypeProtoFilter(SOCK_RAW, 0) == [(SOCK_RAW, 0)] by {
      FilterTable(SOCK_RAW, 0, false);
    }
    assert SocktypeProtoFilter(SOCK_STREAM + SOCK_NONBLOCK, 0) == [(SOCK_STREAM, 6)] by {
      assert TypeBits(SOCK_STREAM + SOCK_NONBLOCK) == SOCK_STREAM;
      FilterTable(SOCK_STREAM + SOCK_NONBLOCK, 0, false);
    }
    assert SocktypeProtoFilter(0, 17) == [(SOCK_DGRAM, 17)] by {
      FilterTable(0, 17, false);
    }
    assert SocktypeProtoFilter(SOCK_STREAM, 17) == [] by {
      FilterTable(SOCK_STREAM, 17, false);
    }
  }

  /** The bit test on the two low bits of a socket type. */
  lemma LowBits(s: int)
    ensures HasBits(s, SOCK_STREAM) <==> s % 2 == 1
    ensures HasBits(s, SOCK_DGRAM) <==> (s / 2) % 2 == 1
    ensures HasBits(s, SOCK_RAW) <==> s % 2 == 1 && (s / 2) % 2 == 1
  {
    assert HasBits(s / 2, 1) <==> (s / 2) % 2 == 1 by {
      assert HasBits(s / 2 / 2, 0);
    }
    assert HasBits(s, SOCK_STREAM) <==> s % 2 == 1 by {
      assert HasBits(s / 2, 0);
    }
  }

  /** Clearing the flags keeps the two low bits. */
  lemma TypeBitsLow(s: int)
    ensures s % 2 == TypeBits(s) % 2
    ensures (s / 2) % 2 == (TypeBits(s) / 2) % 2
  {
    var a := if (s / SOCK_NONBLOCK) % 2 == 1 then 1024 else 0;
    var b := if (s / SOCK_CLOEXEC) % 2 == 1 then 262144 else 0;
    assert s == TypeBits(s) + 2 * (a + b);
    assert s / 2 == TypeBits(s) / 2 + (a + b);
  }

  /** The filter as written and the filter as intended agree whenever the
      type asked for is 0, stream or datagram, flags aside; they part only
      for the other types, such as raw sockets (`RawSocktypeMatchesEveryPair`). */
  lemma FilterAgreesOnPlainTypes(socktype: int, proto: int)
    requires TypeBits(socktype) in {0, SOCK_STREAM, SOCK_DGRAM}
    ensures SocktypeProtoFilter(socktype, proto) == SocktypeProtoFilterAsWritten(socktype, proto)
  {
    FilterTable(socktype, proto, true);
    FilterTable(socktype, proto, false);
    LowBits(socktype);
    TypeBitsLow(socktype);
    var t := TypeBits(socktype);
    assert t == 0 ==> t % 2 == 0 && (t / 2) % 2 == 0;
    assert t == 1 ==> t % 2 == 1 && (t / 2) % 2 == 0;
    assert t == 2 ==> t % 2 == 0 && (t / 2) % 2 == 1;
  }

  // ---------------------------------------------------------------------
  // Result assembly of _getaddrinfo

  /** One c-ares `gethostbyname` answer: the family it was asked for, and
      the canonical name, aliases and address list of the host. */
  datatype HostResult = HostResult(family: int, name: string, aliases: seq<string>, addrs: seq<string>)

  datatype SockAddr = V4Addr(host: string, port: int) | V6Addr(host: string, port: int, flowinfo: int, scopeid: int)

  /** One `(family, socktype, proto, canonname, sockaddr)` tuple. */
  datatype AddrInfo = AddrInfo(family: int, socktype: int, proto: int, canonname: string, sockaddr: SockAddr)

  const Loopback6 := "::1"

  /** One entry per kept (socktype, proto) pair for one address, in the
      order of the pairs. */
  function Entries(family: int, sa: SockAddr, pairs: seq<(nat, int)>): (r: seq<AddrInfo>)
    ensures |r| == |pairs|
  {
    if |pairs| == 0 then []
    else [AddrInfo(family, pairs[0].0, pairs[0].1, "", sa)] + Entries(family, sa, pairs[1..])
  }

  /** The IPv4 entries of one address list. */
  function V4Of(addrs: seq<string>, port: int, pairs: seq<(nat, int)>): seq<AddrInfo> {
    if |addrs| == 0 then []
    else V4Of(addrs[..|addrs| - 1], port, pairs) + Entries(AF_INET, V4Addr(addrs[|addrs| - 1], port), pairs)
  }

  /** The IPv6 entries of one address list: those of `::1` when `loopback`,
      those of every other address otherwise. */
  function V6Of(addrs: seq<string>, port: int, pairs: seq<(nat, int)>, loopback: bool): seq<AddrInfo> {
    if |addrs| == 0 then []
    else
      var a := addrs[|addrs| - 1];
      V6Of(addrs[..|addrs| - 1], port, pairs, loopback)
        + (if (a == Loopback6) == loopback then Entries(AF_INET6, V6Addr(a, port, 0, 0), pairs) else [])
  }

  function V4Part(values: seq<HostResult>, port: int, pairs: seq<(nat, int)>): seq<AddrInfo> {
    if |values| == 0 then []
    else
      var h := values[|values| - 1];
      V4Part(values[..|values| - 1], port, pairs) + (if h.family == AF_INET then V4Of(h.addrs, port, pairs) else [])
  }

  function V6Part(values: seq<HostResult>, port: int, pairs: seq<(nat, int)>, loopback: bool): seq<AddrInfo> {
    if |values| == 0 then []
    else
      var h := values[|values| - 1];
      V6Part(values[..|values| - 1], port, pairs, loopback)
        + (if h.family == AF_INET6 then V6Of(h.addrs, port, pairs, loopback) else [])
  }

  /** The intended layout: `::1` entries first, then every IPv4 entry, then
      the other IPv6 entries; within each group answers and addresses keep
      their order. */
  function Layout(values: seq<HostResult>, port: int, pairs: seq<(nat, int)>): (r: seq<AddrInfo>)
    ensures |r| == AddressCount(values) * |pairs|
    ensures AllAtPort(r, port)
  {
    PartsSize(values, port, pairs);
    PartsAtPort(values, port, pairs);
    V6Part(values, port, pairs, true) + V4Part(values, port, pairs) + V6Part(values, port, pairs, false)
  }

  lemma PartsStep(values: seq<HostResult>, i: nat, port: int, pairs: seq<(nat, int)>)
    requires i < |values|
    ensures V4Part(values[..i + 1], port, pairs) ==
      V4Part(values[..i], port, pairs) + (if values[i].family == AF_INET then V4Of(values[i].addrs, port, pairs) else [])
    ensures V6Part(values[..i + 1], port, pairs, true) ==
      V6Part(values[..i], port, pairs, true) + (if values[i].family == AF_INET6 then V6Of(values[i].addrs, port, pairs, true) else [])
    ensures V6Part(values[..i + 1], port, pairs, false) ==
      V6Part(values[..i], port, pairs, false) + (if values[i].family == AF_INET6 then V6Of(values[i].addrs, port, pairs, false) else [])
  {
    assert values[..i + 1][..i] == values[..i];
  }

  lemma V4Step(addrs: seq<string>, j: nat, port: int, pairs: seq<(nat, int)>)
    requires j < |addrs|
    ensures V4Of(addrs[..j + 1], port, pairs) == V4Of(addrs[..j], port, pairs) + Entries(AF_INET, V4Addr(addrs[j], port), pairs)
  {
    assert addrs[..j + 1][..j] == addrs[..j];
  }

  lemma V6Step(addrs: seq<string>, j: nat, port: int, pairs: seq<(nat, int)>, loopback: bool)
    requires j < |addrs|
    ensures V6Of(addrs[..j + 1], port, pairs, loopback) == V6Of(addrs[..j], port, pairs, loopback)
      + (if (addrs[j] == Loopback6) == loopback then Entries(AF_INET6, V6Addr(addrs[j], port, 0, 0), pairs) else [])
  {
    assert addrs[..j + 1][..j] == addrs[..j];
  }

  /** The IPv4 branch of the loop: every address, once per pair, appended
      to `result4`. */
  method AppendV4(result4: seq<AddrInfo>, addrs: seq<string>, port: int, pairs: seq<(nat, int)>)
    returns (out: seq<AddrInfo>)
    ensures out == result4 + V4Of(addrs, port, pairs)
  {
    out := result4;
    var j := 0;
    while j < |addrs|
      invariant 0 <= j <= |addrs|
      invariant out == result4 + V4Of(addrs[..j], port, pairs)
    {
      V4Step(addrs, j, port, pairs);
      var entries := Entries(AF_INET, V4Addr(addrs[j], port), pairs);
      assert result4 + V4Of(addrs[..j + 1], port, pairs) == out + entries;
      out := out + entries;
      j := j + 1;
    }
    assert addrs[..j] == addrs;
  }

  /** The IPv6 branch of the loop: `::1` goes to `result`, every other
      address to `result6`. */
  method AppendV6(result: seq<AddrInfo>, result6: seq<AddrInfo>, addrs: seq<string>, port: int, pairs: seq<(nat, int)>)
    returns (out: seq<AddrInfo>, out6: seq<AddrInfo>)
    ensures out == result + V6Of(addrs, port, pairs, true)
    ensures out6 == result6 + V6Of(addrs, port, pairs, false)
  {
    out, out6 := result, result6;
    var j := 0;
    while j < |addrs|
      invariant 0 <= j <= |addrs|
      invariant out == result + V6Of(addrs[..j], port, pairs, true)
      invariant out6 == result6 + V6Of(addrs[..j], port, pairs, false)
    {
      var entries := Entries(AF_INET6, V6Addr(addrs[j], port, 0, 0), pairs);
      var loop := addrs[j] == Loopback6;
      V6Grow(result, out, addrs, j, port, pairs, true);
      V6Grow(result6, out6, addrs, j, port, pairs, false);
      if loop {
        out := out + entries;
      } else {
        out6 := out6 + entries;
      }
      j := j + 1;
    }
    assert addrs[..j] == addrs;
  }

  /** One address of the IPv6 branch extends the list it belongs to by its
      entries and leaves the other list as it was. */
  lemma V6Grow(base: seq<AddrInfo>, acc: seq<AddrInfo>, addrs: seq<string>, j: nat, port: int,
               pairs: seq<(nat, int)>, loopback: bool)
    requires j < |addrs|
    requires acc == base + V6Of(addrs[..j], port, pairs, loopback)
    ensures base + V6Of(addrs[..j + 1], port, pairs, loopback) ==
      acc + (if (addrs[j] == Loopback6) == loopback then Entries(AF_INET6, V6Addr(addrs[j], port, 0, 0), pairs) else [])
  {
    V6Step(addrs, j, port, pairs, loopback);
  }

  /** The loops of `_getaddrinfo` that fill `result`, `result4` and
      `result6`, then concatenate them. */
  method AssembleAddrInfo(values: seq<HostResult>, port: int, pairs: seq<(nat, int)>)
    returns (result: seq<AddrInfo>)
    ensures result == Layout(values, port, pairs)
  {
    var res: seq<AddrInfo> := [];
    var res4: seq<AddrInfo> := [];
    var res6: seq<AddrInfo> := [];
    var i := 0;
    while i < |values|
      invariant 0 <= i <= |values|
      invariant res == V6Part(values[..i], port, pairs, true)
      invariant res4 == V4Part(values[..i], port, pairs)
      invariant res6 == V6Part(values[..i], port, pairs, false)
    {
      PartsStep(values, i, port, pairs);
      var h := values[i];
      if h.family == AF_INET {
        res4 := AppendV4(res4, h.addrs, port, pairs);
      } else if h.family == AF_INET6 {
        res, res6 := AppendV6(res, res6, h.addrs, port, pairs);
      }
      i := i + 1;
    }
    assert values[..i] == values;
    result := res + (res4 + res6);
  }

  /** The number of addresses answered for a family the assembly uses. */
  function AddressCount(values: seq<HostResult>): nat {
    if |values| == 0 then 0
    else
      var h := values[|values| - 1];
      AddressCount(values[..|values| - 1]) + (if h.family == AF_INET || h.family == AF_INET6 then |h.addrs| else 0)
  }

  lemma MulStep(a: int, b: int, c: int)
    ensures (a + b) * c == a * c + b * c
  {
  }

  lemma {:induction false} V4OfLength(addrs: seq<string>, port: int, pairs: seq<(nat, int)>)
    ensures |V4Of(addrs, port, pairs)| == |addrs| * |pairs|
  {
    if |addrs| > 0 {
      V4OfLength(addrs[..|addrs| - 1], port, pairs);
      MulStep(|addrs| - 1, 1, |pairs|);
    }
  }

  lemma {:induction false} V6OfLength(addrs: seq<string>, port: int, pairs: seq<(nat, int)>)
    ensures |V6Of(addrs, port, pairs, true)| + |V6Of(addrs, port, pairs, false)| == |addrs| * |pairs|
  {
    if |addrs| > 0 {
      V6OfLength(addrs[..|addrs| - 1], port, pairs);
      MulStep(|addrs| - 1, 1, |pairs|);
    }
  }

  /** The three groups together hold every address once per pair. */
  lemma {:induction false} PartsSize(values: seq<HostResult>, port: int, pairs: seq<(nat, int)>)
    ensures |V6Part(values, port, pairs, true)| + |V4Part(values, port, pairs)| + |V6Part(values, port, pairs, false)|
      == AddressCount(values) * |pairs|
  {
    if |values| > 0 {
      var init := values[..|values| - 1];
      var h := values[|values| - 1];
      PartsSize(init, port, pairs);
      AnswerSize(h, port, pairs);
      var added: nat := if h.family == AF_INET || h.family == AF_INET6 then |h.addrs| else 0;
      SumStep(|V6Part(init, port, pairs, true)|, |V4Part(init, port, pairs)|, |V6Part(init, port, pairs, false)|,
              |if h.family == AF_INET6 then V6Of(h.addrs, port, pairs, true) else []|,
              |if h.family == AF_INET then V4Of(h.addrs, port, pairs) else []|,
              |if h.family == AF_INET6 then V6Of(h.addrs, port, pairs, false) else []|,
              AddressCount(init), added, |pairs|);
    }
  }

  /** Adding one answer's entries to each group adds its count to the total. */
  lemma SumStep(x1: int, x2: int, x3: int, y1: int, y2: int, y3: int, a: int, b: int, p: int)
    requires x1 + x2 + x3 == a * p && y2 + y1 + y3 == b * p
    ensures (x1 + y1) + (x2 + y2) + (x3 + y3) == (a + b) * p
  {
    MulStep(a, b, p);
  }

  /** One answer contributes each of its addresses once per pair. */
  lemma AnswerSize(h: HostResult, port: int, pairs: seq<(nat, int)>)
    ensures |if h.family == AF_INET then V4Of(h.addrs, port, pairs) else []|
      + |if h.family == AF_INET6 then V6Of(h.addrs, port, pairs, true) else []|
      + |if h.family == AF_INET6 then V6Of(h.addrs, port, pairs, false) else []|
      == (if h.family == AF_INET || h.family == AF_INET6 then |h.addrs| else 0) * |pairs|
  {
    if h.family == AF_INET {
      V4OfLength(h.addrs, port, pairs);
    } else if h.family == AF_INET6 {
      V6OfLength(h.addrs, port, pairs);
    }
  }

  /** `if len(values) == 2 and values[0] == values[1]: values.pop()` */
  function Dedup(values: seq<HostResult>): (r: seq<HostResult>)
    ensures |values| == 2 && values[0] == values[1] ==> r == values[..1]
    ensures !(|values| == 2 && values[0] == values[1]) ==> r == values
  {
    if |values| == 2 && values[0] == values[1] then values[..1] else values
  }

  /** A dual-stack query whose two answers are identical (the loopback
      address found twice) yields each address once per pair, as a single
      answer would. */
  lemma DuplicateAnswersCollapse(h: HostResult, port: int, pairs: seq<(nat, int)>)
    ensures Layout(Dedup([h, h]), port, pairs) == Layout([h], port, pairs)
    ensures |Layout(Dedup([h, h]), port, pairs)| == AddressCount([h]) * |pairs|
  {
    assert [h, h][..1] == [h];
  }

  // ---------------------------------------------------------------------
  // _getaddrinfo

  /** The `host` argument: a unicode string (IDNA encoding is not
      modelled), a byte string, or `None`/anything else. */
  datatype HostArg = HostUnicode(s: string) | HostBytes(s: string) | HostOther

  /** Whether `_getaddrinfo` hands the call straight to the system
      `getaddrinfo`. The unicode test comes first and its branch skips the
      `elif`, so a unicode host is resolved by c-ares even when the flags
      ask for a numeric host. */
  predicate Delegates(host: HostArg, flags: int): (r: bool)
    ensures host.HostUnicode? ==> !r
    ensures host.HostOther? ==> r
    ensures host.HostBytes? ==> (r <==> (flags / AI_NUMERICHOST) % 2 == 1)
  {
    HasBitFour(flags);
    !host.HostUnicode? && (host.HostOther? || HasBits(flags, AI_NUMERICHOST))
  }

  /** The bit test with mask 4 looks at bit 2 alone. */
  lemma HasBitFour(s: int)
    ensures HasBits(s, 4) <==> (s / 4) % 2 == 1
  {
    assert HasBits(s, 4) == HasBits(s / 2, 2);
    assert HasBits(s / 2, 2) == HasBits(s / 2 / 2, 1);
    assert HasBits(s / 2 / 2, 1) <==> (s / 2 / 2) % 2 == 1 by {
      assert HasBits(s / 2 / 2 / 2, 0);
    }
    assert s / 2 / 2 == s / 4;
  }

  /** Which sub-lookups `_getaddrinfo` starts for a family, or `None` when
      it hands the call to the system `getaddrinfo`. */
  function LookupFamilies(family: int): (r: Option<seq<int>>)
    ensures family == AF_UNSPEC <==> r == Some([AF_INET, AF_INET6])
    ensures family == AF_INET <==> r == Some([AF_INET])
    ensures family == AF_INET6 <==> r == Some([AF_INET6])
    ensures r.None? <==> family !in {AF_UNSPEC, AF_INET, AF_INET6}
  {
    if family == AF_UNSPEC then Some([AF_INET, AF_INET6])
    else if family == AF_INET then Some([AF_INET])
    else if family == AF_INET6 then Some([AF_INET6])
    else None
  }

  /** `_getaddrinfo`. `answers` are the sub-lookup answers in the order
      c-ares delivered them (one per sub-lookup started), `system` what the
      system `getaddrinfo` returns when the call is handed to it. */
  function GetAddrInfo(host: HostArg, port: PortArg, family: int, socktype: int, proto: int, flags: int,
                       getserv: (string, string) -> ServLookup,
                       answers: seq<Result<HostResult, Exc>>,
                       system: Result<seq<AddrInfo>, Exc>): (r: Result<seq<AddrInfo>, Exc>)
    requires LookupFamilies(family).Some? && !Delegates(host, flags) ==>
      |answers| == |LookupFamilies(family).value|
    ensures Delegates(host, flags) ==> r == system
    ensures !Delegates(host, flags) && LookupPort(port, socktype, getserv).Failure? ==>
      r == Failure(LookupPort(port, socktype, getserv).error)
    ensures !Delegates(host, flags) && LookupPort(port, socktype, getserv).Success? && LookupFamilies(family).None? ==>
      r == system
    ensures r.Success? && !Delegates(host, flags) && LookupFamilies(family).Some? ==> |r.value| > 0
    ensures r.Success? && !Delegates(host, flags) && LookupFamilies(family).Some? ==>
      LookupPort(port, socktype, getserv).Success? && AllAtPort(r.value, LookupPort(port, socktype, getserv).value.0)
  {
    if Delegates(host, flags) then system
    else
      match LookupPort(port, socktype, getserv)
      case Failure(e) => Failure(e)
      case Success((p, st)) =>
        var pairs := SocktypeProtoFilter(st, proto);
        match LookupFamilies(family)
        case None => system
        case Some(fams) =>
          var joined := Collect(NewValues<HostResult>(|fams|), answers);
          match Get(joined)
          case Failure(e) => Failure(e)
          case Success(vs) =>
            var result := Layout(Dedup(vs), p, pairs);
            if |result| == 0 then Failure(NoAddress) else Success(result)
  }

  /** For a family it resolves itself, `_getaddrinfo` fails only by the
      port, by every sub-lookup failing (with the last error), or by finding
      no usable address; otherwise it returns the layout of the
      de-duplicated answers. */
  lemma GetAddrInfoOutcome(host: HostArg, port: PortArg, family: int, socktype: int, proto: int, flags: int,
                           getserv: (string, string) -> ServLookup,
                           answers: seq<Result<HostResult, Exc>>, system: Result<seq<AddrInfo>, Exc>)
    requires !Delegates(host, flags) && LookupFamilies(family).Some?
    requires |answers| == |LookupFamilies(family).value|
    requires LookupPort(port, socktype, getserv).Success?
    ensures var r := GetAddrInfo(host, port, family, socktype, proto, flags, getserv, answers, system);
      var (p, st) := LookupPort(port, socktype, getserv).value;
      var layout := Layout(Dedup(Successes(answers)), p, SocktypeProtoFilter(st, proto));
      && ((forall i :: 0 <= i < |answers| ==> answers[i].Failure?) ==>
            LastError(answers, None).Some? && r == Failure(LastError(answers, None).value))
      && ((exists i :: 0 <= i < |answers| && answers[i].Success?) ==>
            r == (if |layout| == 0 then Failure(NoAddress) else Success(layout)))
  {
    JoinSucceedsIffAnySucceeded(answers);
  }

  // ---------------------------------------------------------------------
  // Fork safety and the retry loops

  /** The resolver's channel identity, the pid it was created under, and
      the identity the next channel will get. */
  datatype ResolverState = ResolverState(channel: nat, pid: int, nextChannel: nat) {
    predicate Valid() {
      channel < nextChannel
    }
  }

  /** `_on_fork`: in a new process the channel is replaced (the old one is
      destroyed from a loop callback) and the pid recorded; in the same
      process nothing happens. */
  function OnFork(r: ResolverState, pid: int): (r': ResolverState)
    requires r.Valid()
    ensures r'.Valid()
    ensures pid == r.pid ==> r' == r
    ensures pid != r.pid ==> r'.channel != r.channel && r'.pid == pid
  {
    if pid != r.pid then ResolverState(r.nextChannel, pid, r.nextChannel + 1) else r
  }

  /** After the fork handler has run once, running it again in the same
      process changes nothing. */
  lemma OnForkIdempotent(r: ResolverState, pid: int)
    requires r.Valid()
    ensures OnFork(OnFork(r, pid), pid) == OnFork(r, pid)
  {
  }

  /** One attempt of a resolver call: its outcome, and the pid the fork
      handler saw if it ran while the attempt was waiting. */
  datatype Attempt<T> = Attempt(outcome: Result<T, Exc>, forkSeen: Option<int>)

  predicate IsGaiError(e: Exc) {
    e.GaiError? || e.GaiErrorMsg?
  }

  /** How a call ended, or `StillRunning` when the attempts at hand ran out
      before it ended. */
  datatype CallEnd<T> = Finished(result: Result<T, Exc>) | StillRunning

  /** The `while True` loop shared by `gethostbyname_ex`, `getaddrinfo`,
      `gethostbyaddr` and `getnameinfo`: capture the channel, attempt; a
      gaierror is re-raised when the channel is still the captured one and
      the call is repeated when it was replaced meanwhile. Returns how the
      call ended, the resolver afterwards and the attempts used. */
  function Retry<T>(r: ResolverState, attempts: seq<Attempt<T>>): (out: (CallEnd<T>, ResolverState, nat))
    requires r.Valid()
    ensures out.1.Valid() && out.2 <= |attempts|
    ensures out.0.StillRunning? ==> out.2 == |attempts|
    decreases |attempts|
  {
    if |attempts| == 0 then (StillRunning, r, 0)
    else
      var captured := r.channel;
      var r1 := match attempts[0].forkSeen
        case Some(pid) => OnFork(r, pid)
        case None => r;
      match attempts[0].outcome
      case Success(v) => (Finished(Success(v)), r1, 1)
      case Failure(e) =>
        if !IsGaiError(e) || captured == r1.channel then (Finished(Failure(e)), r1, 1)
        else
          var (end, r2, used) := Retry(r1, attempts[1..]);
          (end, r2, used + 1)
  }

  /** The first attempt decides unless it failed with a gaierror after the
      channel was replaced: then, and only then, the call is repeated. */
  lemma RetryFirstAttempt<T>(r: ResolverState, attempts: seq<Attempt<T>>)
    requires r.Valid() && |attempts| > 0
    ensures var a := attempts[0];
      var swapped := a.forkSeen.Some? && a.forkSeen.value != r.pid;
      var again := a.outcome.Failure? && IsGaiError(a.outcome.error) && swapped;
      (again ==> Retry(r, attempts).2 == 1 + Retry(OnFork(r, a.forkSeen.value), attempts[1..]).2)
      && (!again ==> Retry(r, attempts).0 == Finished(a.outcome) && Retry(r, attempts).2 == 1)
  {
  }

  /** The number of attempts during which the process identity changed. */
  function ForksSeen<T>(r: ResolverState, attempts: seq<Attempt<T>>): nat
    requires r.Valid()
    decreases |attempts|
  {
    if |attempts| == 0 then 0
    else
      var a := attempts[0];
      var r1 := if a.forkSeen.Some? then OnFork(r, a.forkSeen.value) else r;
      (if r1.channel != r.channel then 1 else 0) + ForksSeen(r1, attempts[1..])
  }

  /** The retry loop never spins on its own: each repetition is paid for by
      a fork that replaced the channel, so a call makes at most one attempt
      more than the forks it witnessed. */
  lemma {:induction false} RetriesBoundedByForks<T>(r: ResolverState, attempts: seq<Attempt<T>>)
    requires r.Valid()
    ensures Retry(r, attempts).2 <= 1 + ForksSeen(r, attempts)
    decreases |attempts|
  {
    if |attempts| > 0 {
      var a := attempts[0];
      var r1 := if a.forkSeen.Some? then OnFork(r, a.forkSeen.value) else r;
      RetriesBoundedByForks(r1, attempts[1..]);
    }
  }

  /** The body of one `gethostbyname_ex` attempt: an answer with an empty
      address list is turned into the "no address" gaierror (inside the
      `try`, so it is subject to the retry rule). */
  function HostByNameExAttempt(answer: Result<HostResult, Exc>): (r: Result<HostResult, Exc>)
    ensures r.Success? <==> answer.Success? && |answer.value.addrs| > 0
    ensures answer.Success? && |answer.value.addrs| == 0 ==> r == Failure(NoAddress)
    ensures r.Success? ==> r == answer
  {
    match answer
    case Success(h) => if |h.addrs| == 0 then Failure(NoAddress) else Success(h)
    case Failure(e) => Failure(e)
  }

  /** `gethostbyname_ex`: the retry loop over attempts whose answers are
      checked for an empty address list. */
  function GetHostByNameEx(r: ResolverState, answers: seq<Attempt<HostResult>>): (out: (CallEnd<HostResult>, ResolverState, nat))
    requires r.Valid()
    ensures out.0.Finished? && out.0.result.Success? ==> |out.0.result.value.addrs| > 0
  {
    var attempts := seq(|answers|, i requires 0 <= i < |answers| =>
      Attempt(HostByNameExAttempt(answers[i].outcome), answers[i].forkSeen));
    RetryKeeps(r, attempts);
    Retry(r, attempts)
  }

  /** Whatever the retry loop returns successfully came out of one of the
      attempts. */
  lemma {:induction false} RetryKeeps<T>(r: ResolverState, attempts: seq<Attempt<T>>)
    requires r.Valid()
    ensures var end := Retry(r, attempts).0;
      end.Finished? && end.result.Success? ==>
        exists i :: 0 <= i < |attempts| && attempts[i].outcome == end.result
    decreases |attempts|
  {
    if |attempts| > 0 {
      var a := attempts[0];
      var r1 := if a.forkSeen.Some? then OnFork(r, a.forkSeen.value) else r;
      RetryKeeps(r1, attempts[1..]);
      var end := Retry(r, attempts).0;
      if end.Finished? && end.result.Success? && a.outcome != end.result {
        var i :| 0 <= i < |attempts[1..]| && attempts[1..][i].outcome == end.result;
        assert attempts[i + 1].outcome == end.result;
      }
    }
  }

  /** `_resolve_special(hostname, family)`: the empty host name means the
      wildcard address, which the system `getaddrinfo(None, 0, family,
      SOCK_DGRAM, 0, AI_PASSIVE)` (`wildcard`) must resolve to exactly one
      address. */
  function ResolveSpecial(hostname: string, wildcard: Result<seq<AddrInfo>, Exc>): (r: Result<string, Exc>)
    ensures hostname != "" ==> r == Success(hostname)
    ensures hostname == "" && wildcard.Success? && |wildcard.value| == 1 ==>
      r == Success(wildcard.value[0].sockaddr.host)
    ensures hostname == "" && wildcard.Success? && |wildcard.value| != 1 ==>
      r == Failure(SocketErrorMsg("wildcard resolved to multiple address"))
    ensures hostname == "" && wildcard.Failure? ==> r == Failure(wildcard.error)
  {
    if hostname != "" then Success(hostname)
    else match wildcard
      case Failure(e) => Failure(e)
      case Success(res) =>
        if |res| != 1 then Failure(SocketErrorMsg("wildcard resolved to multiple address"))
        else Success(res[0].sockaddr.host)
  }

  /** `gethostbyname`: the special name resolved, then the first address of
      the `gethostbyname_ex` answer. */
  function GetHostByName(r: ResolverState, hostname: string, wildcard: Result<seq<AddrInfo>, Exc>,
                         answers: seq<Attempt<HostResult>>): (out: CallEnd<string>)
    requires r.Valid()
    ensures ResolveSpecial(hostname, wildcard).Failure? ==> out == Finished(Failure(ResolveSpecial(hostname, wildcard).error))
    ensures out.Finished? && out.result.Success? ==>
      GetHostByNameEx(r, answers).0.Finished? && GetHostByNameEx(r, answers).0.result.Success?
      && out.result.value == GetHostByNameEx(r, answers).0.result.value.addrs[0]
  {
    match ResolveSpecial(hostname, wildcard)
    case Failure(e) => Finished(Failure(e))
    case Success(_) =>
      match GetHostByNameEx(r, answers).0
      case StillRunning => StillRunning
      case Finished(Failure(e)) => Finished(Failure(e))
      case Finished(Success(h)) => Finished(Success(h.addrs[0]))
  }

  /** `_gethostbyaddr(ip)`: ask c-ares; if it refuses the text as an IP
      address, resolve it with `_getaddrinfo` and ask again with the first
      address found, unless that is the same text. `byaddr` is the channel's
      answer per address and `resolved` the `_getaddrinfo` result. */
  function GetHostByAddrOnce(ip: string, byaddr: string -> Result<HostResult, Exc>,
                             resolved: Result<seq<AddrInfo>, Exc>): (r: Result<HostResult, Exc>)
    ensures byaddr(ip) != Failure(InvalidIP) ==> r == byaddr(ip)
    ensures byaddr(ip) == Failure(InvalidIP) && resolved.Failure? ==> r == Failure(resolved.error)
    ensures byaddr(ip) == Failure(InvalidIP) && resolved.Success? ==>
      (if |resolved.value| == 0 || resolved.value[0].sockaddr.host == ip then r == Failure(InvalidIP)
       else r == byaddr(resolved.value[0].sockaddr.host))
  {
    match byaddr(ip)
    case Failure(InvalidIP) =>
      (match resolved
       case Failure(e) => Failure(e)
       case Success(res) =>
         if |res| == 0 then Failure(InvalidIP)
         else if res[0].sockaddr.host == ip then Failure(InvalidIP)
         else byaddr(res[0].sockaddr.host))
    case other => other
  }

  /** One round of the `gethostbyaddr` loop: the channel's answers, the
      `_getaddrinfo` fallback result, and the fork seen meanwhile. */
  datatype ByAddrRound = ByAddrRound(byaddr: string -> Result<HostResult, Exc>,
                                     resolved: Result<seq<AddrInfo>, Exc>, forkSeen: Option<int>)

  /** `gethostbyaddr(ip)`: the special name resolved once, then the retry
      loop over `_gethostbyaddr`. */
  function GetHostByAddr(r: ResolverState, ip: string, wildcard: Result<seq<AddrInfo>, Exc>,
                         rounds: seq<ByAddrRound>): (out: CallEnd<HostResult>)
    requires r.Valid()
    ensures ResolveSpecial(ip, wildcard).Failure? ==> out == Finished(Failure(ResolveSpecial(ip, wildcard).error))
    ensures ResolveSpecial(ip, wildcard).Success? && |rounds| > 0 ==>
      var first := GetHostByAddrOnce(ResolveSpecial(ip, wildcard).value, rounds[0].byaddr, rounds[0].resolved);
      first.Success? ==> out == Finished(first)
  {
    match ResolveSpecial(ip, wildcard)
    case Failure(e) => Finished(Failure(e))
    case Success(addr) => Retry(r, ByAddrAttempts(addr, rounds)).0
  }

  /** The attempts of the `gethostbyaddr` loop for a resolved address. */
  function ByAddrAttempts(addr: string, rounds: seq<ByAddrRound>): (a: seq<Attempt<HostResult>>)
    ensures |a| == |rounds|
    ensures forall i :: 0 <= i < |rounds| ==> a[i].forkSeen == rounds[i].forkSeen
  {
    seq(|rounds|, i requires 0 <= i < |rounds| =>
      Attempt(GetHostByAddrOnce(addr, rounds[i].byaddr, rounds[i].resolved), rounds[i].forkSeen))
  }

  /** A host `gethostbyaddr` returns is the channel's answer in one of the
      rounds: for the address asked about, or for the first address
      `_getaddrinfo` found for it when the channel refused it as an IP. */
  lemma GetHostByAddrAnswered(r: ResolverState, ip: string, wildcard: Result<seq<AddrInfo>, Exc>,
                              rounds: seq<ByAddrRound>)
    requires r.Valid()
    ensures var out := GetHostByAddr(r, ip, wildcard, rounds);
      out.Finished? && out.result.Success? ==>
        ResolveSpecial(ip, wildcard).Success? &&
        var addr := ResolveSpecial(ip, wildcard).value;
        exists i :: 0 <= i < |rounds| &&
          (out.result == rounds[i].byaddr(addr)
           || (rounds[i].resolved.Success? && |rounds[i].resolved.value| > 0
               && out.result == rounds[i].byaddr(rounds[i].resolved.value[0].sockaddr.host)))
  {
    var out := GetHostByAddr(r, ip, wildcard, rounds);
    if out.Finished? && out.result.Success? {
      var addr := ResolveSpecial(ip, wildcard).value;
      var attempts := ByAddrAttempts(addr, rounds);
      RetryKeeps(r, attempts);
      var i :| 0 <= i < |attempts| && attempts[i].outcome == out.result;
      assert attempts[i].outcome == GetHostByAddrOnce(addr, rounds[i].byaddr, rounds[i].resolved);
    }
  }

  // ---------------------------------------------------------------------
  // _getnameinfo

  datatype FlagsArg = IntFlags(n: int) | NonIntFlags

  /** The `sockaddr` argument: a tuple `(host, port, *rest)`, a tuple too
      short to index, or no tuple. Only `rest` matters once the host and
      port have been resolved. */
  datatype SockAddrArg = SockTuple(rest: seq<int>) | ShortTuple | NotTuple

  /** The address handed to the channel's `getnameinfo`. */
  datatype NameInfoAddr = NameInfoAddr(host: string, port: int, rest: seq<int>)

  /** The fields of a sockaddr after host and port. */
  function AddressTail(sa: SockAddr): seq<int> {
    match sa
    case V4Addr(_, _) => []
    case V6Addr(_, _, f, s) => [f, s]
  }

  /** The address `_getnameinfo` passes on, from the one resolved entry and
      the fields the caller gave after host and port: an IPv4 sockaddr must
      have none; an IPv6 one keeps the resolved host and port and the
      caller's flow info and scope id. */
  function ChannelAddress(info: AddrInfo, rest: seq<int>): (r: Result<NameInfoAddr, Exc>)
    ensures info.family == AF_INET ==>
      (r.Success? <==> |rest| == 0)
      && (r.Failure? ==> r.error == SocketErrorMsg("IPv4 sockaddr must be 2 tuple"))
    ensures info.family == AF_INET6 ==> r == Success(NameInfoAddr(info.sockaddr.host, info.sockaddr.port, rest))
    ensures r.Success? ==> r.value.host == info.sockaddr.host && r.value.port == info.sockaddr.port
  {
    if info.family == AF_INET then
      if |rest| != 0 then Failure(SocketErrorMsg("IPv4 sockaddr must be 2 tuple"))
      else Success(NameInfoAddr(info.sockaddr.host, info.sockaddr.port, []))
    else if info.family == AF_INET6 then
      Success(NameInfoAddr(info.sockaddr.host, info.sockaddr.port, rest))
    else
      Success(NameInfoAddr(info.sockaddr.host, info.sockaddr.port, AddressTail(info.sockaddr)))
  }

  /** `_getnameinfo(sockaddr, flags)`. `resolved` is what
      `_getaddrinfo(sockaddr[0], str(sockaddr[1]), AF_UNSPEC, SOCK_DGRAM)`
      returned; `query` is the channel's `getnameinfo` answer, a host and an
      optional service. It fails unless the flags are an int, the sockaddr a
      tuple that resolves to exactly one address and the channel answers; a
      missing service becomes "0". */
  function GetNameInfo(sockaddr: SockAddrArg, flags: FlagsArg, resolved: Result<seq<AddrInfo>, Exc>,
                       query: (NameInfoAddr, int) -> Result<(string, Option<string>), Exc>)
    : (r: Result<(string, string), Exc>)
    ensures flags.NonIntFlags? ==> r == Failure(TypeError("an integer is required"))
    ensures flags.IntFlags? && sockaddr.NotTuple? ==> r == Failure(TypeError("getnameinfo() argument 1 must be a tuple"))
    ensures flags.IntFlags? && sockaddr.SockTuple? && resolved.Success? && |resolved.value| > 1 ==>
      r == Failure(SocketErrorMsg("sockaddr resolved to multiple addresses"))
    ensures r.Success? <==>
      flags.IntFlags? && sockaddr.SockTuple? && resolved.Success? && |resolved.value| == 1
      && ChannelAddress(resolved.value[0], sockaddr.rest).Success?
      && query(ChannelAddress(resolved.value[0], sockaddr.rest).value, flags.n).Success?
    ensures r.Success? ==>
      var (node, service) := query(ChannelAddress(resolved.value[0], sockaddr.rest).value, flags.n).value;
      r.value == (node, if service.Some? then service.value else "0")
  {
    if flags.NonIntFlags? then Failure(TypeError("an integer is required"))
    else if !sockaddr.SockTuple? then
      if sockaddr.ShortTuple? then Failure(IndexError)
      else Failure(TypeError("getnameinfo() argument 1 must be a tuple"))
    else match resolved
      case Failure(e) => Failure(e)
      case Success(result) =>
        if |result| == 0 then Failure(RuntimeError("No active exception to reraise"))
        else if |result| != 1 then Failure(SocketErrorMsg("sockaddr resolved to multiple addresses"))
        else
          match ChannelAddress(result[0], sockaddr.rest)
          case Failure(e) => Failure(e)
          case Success(a) =>
            match query(a, flags.n)
            case Failure(e) => Failure(e)
            case Success((node, service)) => Success((node, service.GetOr("0")))
  }

  /** Every entry of a list carries the port `p`. */
  predicate AllAtPort(xs: seq<AddrInfo>, p: int) {
    forall k :: 0 <= k < |xs| ==> xs[k].sockaddr.port == p
  }

  lemma AllAtPortConcat(xs: seq<AddrInfo>, ys: seq<AddrInfo>, p: int)
    requires AllAtPort(xs, p) && AllAtPort(ys, p)
    ensures AllAtPort(xs + ys, p)
  {
    forall k | 0 <= k < |xs + ys|
      ensures (xs + ys)[k].sockaddr.port == p
    {
      if k >= |xs| {
        assert (xs + ys)[k] == ys[k - |xs|];
      }
    }
  }

  lemma {:induction false} EntriesAtPort(family: int, sa: SockAddr, pairs: seq<(nat, int)>)
    ensures AllAtPort(Entries(family, sa, pairs), sa.port)
  {
    if |pairs| > 0 {
      EntriesAtPort(family, sa, pairs[1..]);
      AllAtPortConcat([AddrInfo(family, pairs[0].0, pairs[0].1, "", sa)], Entries(family, sa, pairs[1..]), sa.port);
    }
  }

  lemma {:induction false} V4OfAtPort(addrs: seq<string>, port: int, pairs: seq<(nat, int)>)
    ensures AllAtPort(V4Of(addrs, port, pairs), port)
  {
    if |addrs| > 0 {
      V4OfAtPort(addrs[..|addrs| - 1], port, pairs);
      EntriesAtPort(AF_INET, V4Addr(addrs[|addrs| - 1], port), pairs);
      AllAtPortConcat(V4Of(addrs[..|addrs| - 1], port, pairs), Entries(AF_INET, V4Addr(addrs[|addrs| - 1], port), pairs), port);
    }
  }

  lemma {:induction false} V6OfAtPort(addrs: seq<string>, port: int, pairs: seq<(nat, int)>, loopback: bool)
    ensures AllAtPort(V6Of(addrs, port, pairs, loopback), port)
  {
    if |addrs| > 0 {
      var a := addrs[|addrs| - 1];
      var last := if (a == Loopback6) == loopback then Entries(AF_INET6, V6Addr(a, port, 0, 0), pairs) else [];
      V6OfAtPort(addrs[..|addrs| - 1], port, pairs, loopback);
      EntriesAtPort(AF_INET6, V6Addr(a, port, 0, 0), pairs);
      AllAtPortConcat(V6Of(addrs[..|addrs| - 1], port, pairs, loopback), last, port);
    }
  }

  lemma {:induction false} V4PartAtPort(values: seq<HostResult>, port: int, pairs: seq<(nat, int)>)
    ensures AllAtPort(V4Part(values, port, pairs), port)
  {
    if |values| > 0 {
      var h := values[|values| - 1];
      var last := if h.family == AF_INET then V4Of(h.addrs, port, pairs) else [];
      V4PartAtPort(values[..|values| - 1], port, pairs);
      V4OfAtPort(h.addrs, port, pairs);
      AllAtPortConcat(V4Part(values[..|values| - 1], port, pairs), last, port);
    }
  }

  lemma {:induction false} V6PartAtPort(values: seq<HostResult>, port: int, pairs: seq<(nat, int)>, loopback: bool)
    ensures AllAtPort(V6Part(values, port, pairs, loopback), port)
  {
    if |values| > 0 {
      var h := values[|values| - 1];
      var last := if h.family == AF_INET6 then V6Of(h.addrs, port, pairs, loopback) else [];
      V6PartAtPort(values[..|values| - 1], port, pairs, loopback);
      V6OfAtPort(h.addrs, port, pairs, loopback);
      AllAtPortConcat(V6Part(values[..|values| - 1], port, pairs, loopback), last, port);
    }
  }

  /** Every tuple of the three groups carries the looked-up port. */
  lemma PartsAtPort(values: seq<HostResult>, port: int, pairs: seq<(nat, int)>)
    ensures AllAtPort(V6Part(values, port, pairs, true) + V4Part(values, port, pairs) + V6Part(values, port, pairs, false), port)
  {
    V6PartAtPort(values, port, pairs, true);
    V4PartAtPort(values, port, pairs);
    V6PartAtPort(values, port, pairs, false);
    AllAtPortConcat(V6Part(values, port, pairs, true), V4Part(values, port, pairs), port);
    AllAtPortConcat(V6Part(values, port, pairs, true) + V4Part(values, port, pairs), V6Part(values, port, pairs, false), port);
  }

  /** `getnameinfo((host, port, ...), flags)` resolved through c-ares: when it
      answers, the channel was asked about an address at the port the caller
      gave (reduced modulo 65536), and the answer is the channel's node with
      its service, "0" when it has none. */
  lemma NameInfoQueriesGivenPort(host: string, port: int, rest: seq<int>, flags: int,
                                 getserv: (string, string) -> ServLookup,
                                 answers: seq<Result<HostResult, Exc>>, system: Result<seq<AddrInfo>, Exc>,
                                 query: (NameInfoAddr, int) -> Result<(string, Option<string>), Exc>)
    requires |answers| == 2
    ensures var resolved := GetAddrInfo(HostBytes(host), PortStr(ShowInt(port)), AF_UNSPEC, SOCK_DGRAM, 0, 0,
                                        getserv, answers, system);
      var r := GetNameInfo(SockTuple(rest), IntFlags(flags), resolved, query);
      r.Success? ==>
        resolved.Success? && |resolved.value| == 1 &&
        var a := ChannelAddress(resolved.value[0], rest).value;
        a.port == port % 65536 && query(a, flags).Success?
        && r.value.0 == query(a, flags).value.0
        && r.value.1 == query(a, flags).value.1.GetOr("0")
  {
    assert !Delegates(HostBytes(host), 0) by {
      assert !HasBits(0, 1);
    }
    LookupPortDecimalString(port, SOCK_DGRAM, getserv);
    var resolved := GetAddrInfo(HostBytes(host), PortStr(ShowInt(port)), AF_UNSPEC, SOCK_DGRAM, 0, 0,
                                getserv, answers, system);
    var r := GetNameInfo(SockTuple(rest), IntFlags(flags), resolved, query);
    if r.Success? {
      assert resolved.value[0].sockaddr.port == port % 65536;
    }
  }

}

=== FILE: select.dfy ===
/** The cooperative `select`: one io watcher per descriptor at the highest
    priority, all reporting into one shared result whose event wakes the
    caller, and a cleanup that stops every started watcher and cancels the
    timeout however the call ends.

    The event loop is not modelled: whether `loop.io` refuses a descriptor,
    and which watchers fire (in callback order) before the caller resumes,
    are parameters. */
module Select {
  import opened Wrappers
  import opened Exceptions
  import Watchers

  /** An object in `rlist`/`wlist`: an int, an object with a `fileno()`
      method (and what calling it gives), or anything else. `id` stands for
      Python object identity. */
  datatype Selectable = IntObj(n: int) | WithFileno(id: nat, fileno: Result<int, Exc>) | NoFileno(id: nat)

  /** `get_fileno(obj)`: the descriptor behind an object. */
  function GetFileno(obj: Selectable): (r: Result<int, Exc>)
    ensures obj.IntObj? ==> r == Success(obj.n)
    ensures obj.WithFileno? ==> r == obj.fileno
    ensures obj.NoFileno? ==> r.Failure? && r.error.TypeError?
  {
    match obj
    case IntObj(n) => Success(n)
    case WithFileno(_, f) => f
    case NoFileno(_) => Failure(TypeError("argument must be an int, or have a fileno() method"))
  }

  // ---------------------------------------------------------------------
  // SelectResult

  /** The shared result: objects reported readable and writable, in
      callback order, and whether the event has been set. */
  datatype SelectResult = SelectResult(read: seq<Selectable>, write: seq<Selectable>, event: bool)

  const NewResult := SelectResult([], [], false)

  function AddRead(r: SelectResult, obj: Selectable): (r': SelectResult)
    ensures r'.read == r.read + [obj] && r'.write == r.write && r'.event
  {
    r.(read := r.read + [obj], event := true)
  }

  function AddWrite(r: SelectResult, obj: Selectable): (r': SelectResult)
    ensures r'.write == r.write + [obj] && r'.read == r.read && r'.event
  {
    r.(write := r.write + [obj], event := true)
  }

  /** A watcher callback: `add_read(obj)` or `add_write(obj)`. */
  datatype Callback = OnRead(obj: Selectable) | OnWrite(obj: Selectable)

  function Deliver(r: SelectResult, cbs: seq<Callback>): SelectResult
    decreases |cbs|
  {
    if |cbs| == 0 then r
    else
      var r1 := match cbs[0]
        case OnRead(o) => AddRead(r, o)
        case OnWrite(o) => AddWrite(r, o);
      Deliver(r1, cbs[1..])
  }

  /** The objects of the read callbacks, in order. */
  function Reads(cbs: seq<Callback>): seq<Selectable> {
    if |cbs| == 0 then [] else (if cbs[0].OnRead? then [cbs[0].obj] else []) + Reads(cbs[1..])
  }

  /** The objects of the write callbacks, in order. */
  function Writes(cbs: seq<Callback>): seq<Selectable> {
    if |cbs| == 0 then [] else (if cbs[0].OnWrite? then [cbs[0].obj] else []) + Writes(cbs[1..])
  }

  /** Callbacks append to their own list in the order they run, and the
      event is set exactly when at least one ran. */
  lemma {:induction false} DeliverAccumulates(r: SelectResult, cbs: seq<Callback>)
    ensures Deliver(r, cbs) == SelectResult(r.read + Reads(cbs), r.write + Writes(cbs), r.event || |cbs| > 0)
    decreases |cbs|
  {
    if |cbs| > 0 {
      var r1 := match cbs[0]
        case OnRead(o) => AddRead(r, o)
        case OnWrite(o) => AddWrite(r, o);
      DeliverAccumulates(r1, cbs[1..]);
      assert r.read + Reads(cbs) == r1.read + Reads(cbs[1..]);
      assert r.write + Writes(cbs) == r1.write + Writes(cbs[1..]);
    }
  }

  // ---------------------------------------------------------------------
  // Arming

  /** A started watcher: the object it reports, its descriptor, its event
      mask and its priority. */
  datatype SelectWatcher = SelectWatcher(obj: Selectable, fd: int, mode: int, priority: int)

  /** Arming one object: its descriptor, then `loop.io(fd, mode)`, which
      may refuse with an `IOError` (`io` gives its args, or `None`). */
  function ArmOne(obj: Selectable, mode: int, io: (int, int) -> Option<IOArgs>): (r: Result<SelectWatcher, Exc>)
    ensures r.Success? <==> GetFileno(obj).Success? && io(GetFileno(obj).value, mode).None?
    ensures r.Success? ==> r.value == SelectWatcher(obj, GetFileno(obj).value, mode, Watchers.MaxPri)
  {
    match GetFileno(obj)
    case Failure(e) => Failure(e)
    case Success(fd) =>
      match io(fd, mode)
      case Some(args) => Failure(IOError(args))
      case None => Success(SelectWatcher(obj, fd, mode, Watchers.MaxPri))
  }

  /** Arming a list in order, stopping at the first failure: the watchers
      started and the exception, if any. */
  function ArmList(objs: seq<Selectable>, mode: int, io: (int, int) -> Option<IOArgs>)
    : (r: (seq<SelectWatcher>, Option<Exc>))
    ensures |r.0| <= |objs|
    ensures r.1.None? ==> |r.0| == |objs|
    ensures forall i :: 0 <= i < |r.0| ==> ArmOne(objs[i], mode, io) == Success(r.0[i])
    ensures r.1.Some? ==> |r.0| < |objs| && ArmOne(objs[|r.0|], mode, io) == Failure(r.1.value)
  {
    if |objs| == 0 then ([], None)
    else
      var (armed, err) := ArmList(objs[..|objs| - 1], mode, io);
      if err.Some? then (armed, err)
      else
        match ArmOne(objs[|objs| - 1], mode, io)
        case Failure(e) => (armed, Some(e))
        case Success(w) => (armed + [w], None)
  }

  /** `except IOError: raise error(*ex.args)`: an `IOError` during arming,
      including a `socket.error` or one of its subclasses, becomes
      `select.error` with the same args; anything else passes. */
  function AsSelectError(e: Exc): (r: Exc)
    ensures IsIOError(e) ==> r == SelectError(ArgsOf(e))
    ensures !IsIOError(e) ==> r == e
    ensures r.SelectError? || !IsIOError(r)
  {
    if IsIOError(e) then SelectError(ArgsOf(e)) else e
  }

  /** A socket closed in another greenlet: its `fileno()` raises
      `socket.error(EBADF)`, nothing is armed, and the error reaches the
      caller as `select.error(EBADF, ...)`. */
  lemma ClosedSocketRaisesSelectError(io: (int, int) -> Option<IOArgs>)
    ensures var armed := Armed([WithFileno(0, Failure(SocketError(9)))], [], io);
      armed.0 == [] && armed.1 == Some(SocketError(9)) && AsSelectError(armed.1.value) == SelectError(Errno(9))
  {
    var objs := [WithFileno(0, Failure(SocketError(9)))];
    assert objs[..0] == [];
    assert ArmList(objs, Watchers.ReadMode, io) == ([], Some(SocketError(9)));
  }

  // ---------------------------------------------------------------------
  // select

  /** How the wait on the shared event ends: it returns (woken by a
      callback or by the timeout) after the watchers at the given indexes
      fired, in that order; or an exception is thrown into the caller. */
  datatype WaitEnd = Returned(fired: seq<nat>) | Interrupted(exc: Exc)

  /** The callbacks the fired watchers run. */
  function Fired(watchers: seq<SelectWatcher>, fired: seq<nat>): (cbs: seq<Callback>)
    requires forall k :: 0 <= k < |fired| ==> fired[k] < |watchers|
    ensures |cbs| == |fired|
  {
    if |fired| == 0 then []
    else
      var w := watchers[fired[0]];
      [if w.mode == Watchers.ReadMode then OnRead(w.obj) else OnWrite(w.obj)] + Fired(watchers, fired[1..])
  }

  /** The watchers `select` starts for `rlist` then `wlist`, and the
      arming exception, if any. */
  function Armed(rlist: seq<Selectable>, wlist: seq<Selectable>, io: (int, int) -> Option<IOArgs>)
    : (r: (seq<SelectWatcher>, Option<Exc>))
  {
    var (rs, rerr) := ArmList(rlist, Watchers.ReadMode, io);
    if rerr.Some? then (rs, rerr)
    else
      var (ws, werr) := ArmList(wlist, Watchers.WriteMode, io);
      (rs + ws, werr)
  }

  lemma ArmStep(objs: seq<Selectable>, i: nat, mode: int, io: (int, int) -> Option<IOArgs>)
    requires i < |objs| && ArmList(objs[..i], mode, io).1.None?
    ensures ArmList(objs[..i + 1], mode, io) ==
      match ArmOne(objs[i], mode, io)
      case Failure(e) => (ArmList(objs[..i], mode, io).0, Some(e))
      case Success(w) => (ArmList(objs[..i], mode, io).0 + [w], None)
  {
    assert objs[..i + 1][..i] == objs[..i];
  }

  /** Arms one list onto `watchers`, as the `for` loops of `select` do. */
  method ArmLoop(watchers: seq<SelectWatcher>, objs: seq<Selectable>, mode: int, io: (int, int) -> Option<IOArgs>)
    returns (out: seq<SelectWatcher>, err: Option<Exc>)
    ensures (out, err) == (watchers + ArmList(objs, mode, io).0, ArmList(objs, mode, io).1)
  {
    out, err := watchers, None;
    var i := 0;
    while i < |objs|
      invariant 0 <= i <= |objs|
      invariant ArmList(objs[..i], mode, io).1.None?
      invariant out == watchers + ArmList(objs[..i], mode, io).0
    {
      ArmStep(objs, i, mode, io);
      match ArmOne(objs[i], mode, io)
      case Failure(e) =>
        assert ArmList(objs[..i + 1], mode, io) == ArmList(objs, mode, io) by {
          ArmListStops(objs, i + 1, mode, io);
        }
        return out, Some(e);
      case Success(w) =>
        out := out + [w];
      i := i + 1;
    }
    assert objs[..i] == objs;
  }

  /** Once arming has failed, the objects after the failing one are never
      looked at. */
  lemma {:induction false} ArmListStops(objs: seq<Selectable>, i: nat, mode: int, io: (int, int) -> Option<IOArgs>)
    requires i <= |objs| && ArmList(objs[..i], mode, io).1.Some?
    ensures ArmList(objs, mode, io) == ArmList(objs[..i], mode, io)
    decreases |objs| - i
  {
    if i < |objs| {
      assert objs[..i + 1][..i] == objs[..i];
      ArmListStops(objs, i + 1, mode, io);
    } else {
      assert objs[..i] == objs;
    }
  }

  /** `select(rlist, wlist, xlist, timeout)`. Returns the call's outcome,
      the watchers it started, the watchers it stopped (in order), and
      whether it cancelled its timeout. `xlist` is never looked at. */
  method Select(rlist: seq<Selectable>, wlist: seq<Selectable>, xlist: seq<Selectable>,
                io: (int, int) -> Option<IOArgs>, wait: WaitEnd)
    returns (r: Result<(seq<Selectable>, seq<Selectable>, seq<Selectable>), Exc>,
             started: seq<SelectWatcher>, stopped: seq<SelectWatcher>, timeoutCancelled: bool)
    requires wait.Returned? ==> forall k :: 0 <= k < |wait.fired| ==> wait.fired[k] < |rlist| + |wlist|
    ensures stopped == started && timeoutCancelled
    ensures started == Armed(rlist, wlist, io).0
    ensures Armed(rlist, wlist, io).1.Some? ==> r == Failure(AsSelectError(Armed(rlist, wlist, io).1.value))
    ensures Armed(rlist, wlist, io).1.None? && wait.Interrupted? ==> r == Failure(wait.exc)
    ensures Armed(rlist, wlist, io).1.None? && wait.Returned? ==>
      |started| == |rlist| + |wlist|
      && var cbs := Fired(started, wait.fired);
      r == Success((Reads(cbs), Writes(cbs), []))
  {
    var watchers: seq<SelectWatcher> := [];
    var err: Option<Exc>;
    watchers, err := ArmLoop(watchers, rlist, Watchers.ReadMode, io);
    assert watchers == ArmList(rlist, Watchers.ReadMode, io).0;
    if err.None? {
      watchers, err := ArmLoop(watchers, wlist, Watchers.WriteMode, io);
    }
    assert (watchers, err) == Armed(rlist, wlist, io);
    if err.Some? {
      r := Failure(AsSelectError(err.value));
    } else {
      r := AwaitResult(watchers, wait);
    }
    // finally: stop every watcher that was started, then cancel the timeout
    started := watchers;
    stopped := StopAll(watchers);
    timeoutCancelled := true;
  }

  /** The wait on the shared result once every watcher is armed. */
  method AwaitResult(watchers: seq<SelectWatcher>, wait: WaitEnd)
    returns (r: Result<(seq<Selectable>, seq<Selectable>, seq<Selectable>), Exc>)
    requires wait.Returned? ==> forall k :: 0 <= k < |wait.fired| ==> wait.fired[k] < |watchers|
    ensures wait.Interrupted? ==> r == Failure(wait.exc)
    ensures wait.Returned? ==>
      var cbs := Fired(watchers, wait.fired);
      r == Success((Reads(cbs), Writes(cbs), []))
  {
    match wait
    case Interrupted(e) =>
      r := Failure(e);
    case Returned(fired) =>
      var cbs := Fired(watchers, fired);
      var result := Deliver(NewResult, cbs);
      DeliverAccumulates(NewResult, cbs);
      assert [] + Reads(cbs) == Reads(cbs) && [] + Writes(cbs) == Writes(cbs);
      r := Success((result.read, result.write, []));
  }

  /** The `finally` loop: every watcher in the list is stopped, in order. */
  method StopAll(watchers: seq<SelectWatcher>) returns (stopped: seq<SelectWatcher>)
    ensures stopped == watchers
  {
    stopped := [];
    var i := 0;
    while i < |watchers|
      invariant 0 <= i <= |watchers|
      invariant stopped == watchers[..i]
    {
      stopped := stopped + [watchers[i]];
      i := i + 1;
    }
    assert watchers[..i] == watchers;
  }

  /** The watchers of a completed arming: one per object, read watchers
      (mode 1) for `rlist` then write watchers (mode 2) for `wlist`, each at
      the highest priority on the object's descriptor. */
  lemma ArmedLayout(rlist: seq<Selectable>, wlist: seq<Selectable>, io: (int, int) -> Option<IOArgs>)
    requires Armed(rlist, wlist, io).1.None?
    ensures var ws := Armed(rlist, wlist, io).0;
      |ws| == |rlist| + |wlist|
      && (forall i :: 0 <= i < |rlist| ==>
            ws[i] == SelectWatcher(rlist[i], GetFileno(rlist[i]).value, Watchers.ReadMode, Watchers.MaxPri))
      && (forall i :: 0 <= i < |wlist| ==>
            ws[|rlist| + i] == SelectWatcher(wlist[i], GetFileno(wlist[i]).value, Watchers.WriteMode, Watchers.MaxPri))
  {
    var rs := ArmList(rlist, Watchers.ReadMode, io).0;
    var ws := ArmList(wlist, Watchers.WriteMode, io).0;
    assert forall i :: 0 <= i < |wlist| ==> (rs + ws)[|rlist| + i] == ws[i];
  }

  /** Watchers laid out as `select` starts them: read watchers for
      `rlist`, then write watchers for `wlist`. */
  predicate WatchesLists(ws: seq<SelectWatcher>, rlist: seq<Selectable>, wlist: seq<Selectable>) {
    && |ws| == |rlist| + |wlist|
    && (forall i :: 0 <= i < |rlist| ==> ws[i].obj == rlist[i] && ws[i].mode == Watchers.ReadMode)
    && (forall i :: 0 <= i < |wlist| ==> ws[|rlist| + i].obj == wlist[i] && ws[|rlist| + i].mode == Watchers.WriteMode)
  }

  lemma {:induction false} ReadsFrom(ws: seq<SelectWatcher>, fired: seq<nat>, rlist: seq<Selectable>, wlist: seq<Selectable>)
    requires WatchesLists(ws, rlist, wlist)
    requires forall k :: 0 <= k < |fired| ==> fired[k] < |ws|
    ensures forall o :: o in Reads(Fired(ws, fired)) ==> o in rlist
    ensures forall o :: o in Writes(Fired(ws, fired)) ==> o in wlist
  {
    if |fired| > 0 {
      var rest := fired[1..];
      assert forall k :: 0 <= k < |rest| ==> rest[k] == fired[k + 1];
      ReadsFrom(ws, rest, rlist, wlist);
      var j := fired[0];
      if j >= |rlist| {
        assert ws[|rlist| + (j - |rlist|)].obj == wlist[j - |rlist|];
      }
    }
  }

  /** What a completed `select` reports readable came from `rlist`, and
      what it reports writable from `wlist`; it never reports an
      exceptional condition. */
  lemma SelectReportsOwnLists(rlist: seq<Selectable>, wlist: seq<Selectable>, io: (int, int) -> Option<IOArgs>,
                              fired: seq<nat>)
    requires Armed(rlist, wlist, io).1.None?
    requires forall k :: 0 <= k < |fired| ==> fired[k] < |rlist| + |wlist|
    ensures var cbs := Fired(Armed(rlist, wlist, io).0, fired);
      (forall o :: o in Reads(cbs) ==> o in rlist) && (forall o :: o in Writes(cbs) ==> o in wlist)
  {
    ArmedLayout(rlist, wlist, io);
    ReadsFrom(Armed(rlist, wlist, io).0, fired, rlist, wlist);
  }
}

=== FILE: text.dfy ===
/** The pieces of Python's `str` behaviour the core relies on, on byte-like
    strings (`seq<char>` holding ASCII): `int(s)` and `int(s, 16)` parsing,
    `str(n)` and `'%x' % n` formatting, `split`, `join`, `strip`, `lower`,
    `upper` and `capitalize`. Case mapping is ASCII-only, as for Python 2
    byte strings. */
module Text {
  import opened Wrappers

  // ---------------------------------------------------------------------
  // Character classes

  predicate IsDigit(c: char) { '0' <= c <= '9' }

  predicate IsHexDigit(c: char) { IsDigit(c) || 'a' <= c <= 'f' || 'A' <= c <= 'F' }

  /** Python's whitespace set for byte strings: space, \t, \n, \r, \v, \f. */
  predicate IsSpace(c: char) {
    c == ' ' || c == '\t' || c == '\n' || c == '\r' || c == '\U{000B}' || c == '\U{000C}'
  }

  predicate AllDigits(s: string) { forall i :: 0 <= i < |s| ==> IsDigit(s[i]) }

  predicate AllHexDigits(s: string) { forall i :: 0 <= i < |s| ==> IsHexDigit(s[i]) }

  predicate NoSpace(s: string) { forall i :: 0 <= i < |s| ==> !IsSpace(s[i]) }

  // ---------------------------------------------------------------------
  // Decimal: str(n) and int(s)

  function DigitChar(d: nat): (c: char)
    requires d < 10
    ensures IsDigit(c)
  {
    ('0' as int + d) as char
  }

  function DigitValue(c: char): (d: nat)
    requires IsDigit(c)
    ensures d < 10
  {
    c as int - '0' as int
  }

  /** `str(n)` for a non-negative integer: no leading zeros, at least one digit. */
  function ShowNat(n: nat): (s: string)
    ensures 1 <= |s| && AllDigits(s)
    decreases n
  {
    if n < 10 then [DigitChar(n)] else ShowNat(n / 10) + [DigitChar(n % 10)]
  }

  /** The value of a run of decimal digits, most significant first. */
  function DigitsValue(s: string): nat
    requires AllDigits(s)
  {
    if s == [] then 0 else 10 * DigitsValue(s[..|s| - 1]) + DigitValue(s[|s| - 1])
  }

  lemma {:induction false} ShowNatValue(n: nat)
    ensures DigitsValue(ShowNat(n)) == n
    decreases n
  {
    if n >= 10 {
      var s := ShowNat(n);
      assert s[..|s| - 1] == ShowNat(n / 10);
      ShowNatValue(n / 10);
    }
  }

  /** `str(i)` for any integer. */
  function ShowInt(i: int): string {
    if i < 0 then "-" + ShowNat(-i) else ShowNat(i)
  }

  /** Python's `int(s)` in base 10: surrounding whitespace is ignored, one
      optional sign, then at least one decimal digit; anything else is a
      `ValueError`, here `None`. */
  function ParseInt(s: string): Option<int> {
    var t := Strip(s);
    if |t| > 0 && (t[0] == '-' || t[0] == '+') then
      if |t| > 1 && AllDigits(t[1..]) then
        Some(if t[0] == '-' then -(DigitsValue(t[1..]) as int) else DigitsValue(t[1..]))
      else None
    else if |t| > 0 && AllDigits(t) then Some(DigitsValue(t))
    else None
  }

  lemma ParseShowInt(i: int)
    ensures ParseInt(ShowInt(i)) == Some(i)
  {
    if i < 0 {
      ParseShowNegative(i);
    } else {
      ParseShowNat(i);
    }
  }

  lemma ParseShowNat(i: int)
    requires i >= 0
    ensures ParseInt(ShowInt(i)) == Some(i)
  {
    var s := ShowNat(i);
    assert ShowInt(i) == s;
    StripNoSpace(s);
    assert IsDigit(s[0]);
    ShowNatValue(i);
  }

  lemma ParseShowNegative(i: int)
    requires i < 0
    ensures ParseInt(ShowInt(i)) == Some(i)
  {
    var d := ShowNat(-i);
    calc {
      ParseInt(ShowInt(i));
      ParseInt("-" + d);
      { ParseMinusDigits(d); }
      Some(-(DigitsValue(d) as int));
      { ShowNatValue(-i); }
      Some(i);
    }
  }

  lemma ParseMinusDigits(d: string)
    requires |d| > 0 && AllDigits(d)
    ensures ParseInt("-" + d) == Some(-(DigitsValue(d) as int))
  {
    var s := "-" + d;
    assert s[0] == '-' && s[1..] == d && s[|s| - 1] == d[|d| - 1];
    StripNoSpace(s);
  }

  // ---------------------------------------------------------------------
  // Hexadecimal: '%x' % n and int(s, 16)

  function HexChar(d: nat): (c: char)
    requires d < 16
    ensures IsHexDigit(c) && !IsSpace(c) && c != ';'
  {
    if d < 10 then DigitChar(d) else ('a' as int + (d - 10)) as char
  }

  function HexValue(c: char): (d: nat)
    requires IsHexDigit(c)
    ensures d < 16
  {
    if IsDigit(c) then DigitValue(c)
    else if 'a' <= c <= 'f' then c as int - 'a' as int + 10
    else c as int - 'A' as int + 10
  }

  /** `'%x' % n`: lower-case hexadecimal, no prefix, no leading zeros. */
  function ShowHex(n: nat): (s: string)
    ensures 1 <= |s| && AllHexDigits(s)
    ensures forall i :: 0 <= i < |s| ==> !IsSpace(s[i]) && s[i] != ';' && s[i] != 'x' && s[i] != 'X'
    decreases n
  {
    if n < 16 then [HexChar(n)] else ShowHex(n / 16) + [HexChar(n % 16)]
  }

  function HexDigitsValue(s: string): nat
    requires AllHexDigits(s)
  {
    if s == [] then 0 else 16 * HexDigitsValue(s[..|s| - 1]) + HexValue(s[|s| - 1])
  }

  lemma {:induction false} ShowHexValue(n: nat)
    ensures HexDigitsValue(ShowHex(n)) == n
    decreases n
  {
    if n >= 16 {
      var s := ShowHex(n);
      assert s[..|s| - 1] == ShowHex(n / 16);
      ShowHexValue(n / 16);
      assert HexValue(HexChar(n % 16)) == n % 16;
    } else {
      assert HexValue(HexChar(n)) == n;
    }
  }

  /** The digits after an optional `0x`/`0X` prefix, which `int(s, 16)` accepts. */
  function DropHexPrefix(t: string): string {
    if |t| >= 2 && t[0] == '0' && (t[1] == 'x' || t[1] == 'X') then t[2..] else t
  }

  function ParseHexUnsigned(t: string): Option<nat> {
    var d := DropHexPrefix(t);
    if |d| > 0 && AllHexDigits(d) then Some(HexDigitsValue(d)) else None
  }

  /** Python's `int(s, 16)`: surrounding whitespace ignored, one optional
      sign, an optional `0x` prefix, then at least one hex digit. */
  function ParseHex(s: string): Option<int> {
    var t := Strip(s);
    if |t| > 0 && (t[0] == '-' || t[0] == '+') then
      match ParseHexUnsigned(t[1..])
      case None => None
      case Some(v) => Some(if t[0] == '-' then -(v as int) else v)
    else
      match ParseHexUnsigned(t)
      case None => None
      case Some(v) => Some(v)
  }

  /** Parsing a `'%x'` rendering followed by any run of whitespace gives the number back. */
  lemma ParseShowHex(n: nat, tail: string)
    requires forall i :: 0 <= i < |tail| ==> IsSpace(tail[i])
    ensures ParseHex(ShowHex(n) + tail) == Some(n)
  {
    var h := ShowHex(n);
    StripTrailingSpace(h, tail);
    assert DropHexPrefix(h) == h by {
      if |h| >= 2 {
        assert h[1] != 'x' && h[1] != 'X';
      }
    }
    ShowHexValue(n);
  }

  // ---------------------------------------------------------------------
  // strip

  function StripLeft(s: string): (r: string)
    ensures |r| <= |s|
    ensures r == s[|s| - |r|..]
    ensures |r| > 0 ==> !IsSpace(r[0])
  {
    if |s| > 0 && IsSpace(s[0]) then StripLeft(s[1..]) else s
  }

  function StripRight(s: string): (r: string)
    ensures |r| <= |s|
    ensures r == s[..|r|]
    ensures |r| > 0 ==> !IsSpace(r[|r| - 1])
  {
    if |s| > 0 && IsSpace(s[|s| - 1]) then StripRight(s[..|s| - 1]) else s
  }

  /** `s.strip()` */
  function Strip(s: string): string {
    StripRight(StripLeft(s))
  }

  lemma StripNoSpace(s: string)
    requires |s| > 0 ==> !IsSpace(s[0]) && !IsSpace(s[|s| - 1])
    ensures Strip(s) == s
  {
  }

  lemma {:induction false} StripRightSpaces(s: string, tail: string)
    requires |s| > 0 ==> !IsSpace(s[|s| - 1])
    requires forall i :: 0 <= i < |tail| ==> IsSpace(tail[i])
    ensures StripRight(s + tail) == s
    decreases |tail|
  {
    if |tail| > 0 {
      assert (s + tail)[..|s + tail| - 1] == s + tail[..|tail| - 1];
      StripRightSpaces(s, tail[..|tail| - 1]);
    } else {
      assert s + tail == s;
    }
  }

  lemma StripTrailingSpace(s: string, tail: string)
    requires |s| > 0 && !IsSpace(s[0]) && !IsSpace(s[|s| - 1])
    requires forall i :: 0 <= i < |tail| ==> IsSpace(tail[i])
    ensures Strip(s + tail) == s
  {
    assert StripLeft(s + tail) == s + tail;
    StripRightSpaces(s, tail);
  }

  // ---------------------------------------------------------------------
  // split / join / find

  function IndexOf(s: string, c: char): (r: Option<nat>)
    ensures r.None? <==> c !in s
    ensures r.Some? ==> r.value < |s| && s[r.value] == c && c !in s[..r.value]
  {
    if |s| == 0 then None
    else if s[0] == c then Some(0)
    else match IndexOf(s[1..], c)
      case None => None
      case Some(k) => assert s[..k + 1] == [s[0]] + s[1..][..k]; Some(k + 1)
  }

  /** `s.split(c, 1)` reported as the text before and after the first `c`,
      or `None` when `c` does not occur. */
  function SplitOnce(s: string, c: char): (r: Option<(string, string)>)
    ensures r.None? <==> c !in s
    ensures r.Some? ==> s == r.value.0 + [c] + r.value.1 && c !in r.value.0
  {
    match IndexOf(s, c)
    case None => None
    case Some(k) =>
      assert s == s[..k] + [c] + s[k + 1..];
      Some((s[..k], s[k + 1..]))
  }

  /** `s.split(c)` for a one-character separator. */
  function Split(s: string, c: char): (r: seq<string>)
    ensures |r| >= 1
  {
    if |s| == 0 then [""]
    else
      var rest := Split(s[1..], c);
      if s[0] == c then [""] + rest else [[s[0]] + rest[0]] + rest[1..]
  }

  /** `sep.join(ps)` */
  function Join(ps: seq<string>, sep: string): string {
    if |ps| == 0 then "" else if |ps| == 1 then ps[0] else ps[0] + sep + Join(ps[1..], sep)
  }

  lemma {:induction false} JoinSplit(s: string, c: char)
    ensures Join(Split(s, c), [c]) == s
  {
    if |s| > 0 {
      var rest := Split(s[1..], c);
      JoinSplit(s[1..], c);
      if s[0] == c {
        assert s == [c] + s[1..];
      } else {
        var r := Split(s, c);
        if |rest| == 1 {
          assert Join(r, [c]) == [s[0]] + rest[0];
        } else {
          assert r[1..] == rest[1..];
          assert Join(rest, [c]) == rest[0] + [c] + Join(rest[1..], [c]);
        }
        assert s == [s[0]] + s[1..];
      }
    }
  }

  lemma {:induction false} SplitNoSeparator(s: string, c: char)
    ensures forall i :: 0 <= i < |Split(s, c)| ==> c !in Split(s, c)[i]
  {
    if |s| > 0 {
      SplitNoSeparator(s[1..], c);
    }
  }

  /** A string without the separator splits into itself. */
  lemma {:induction false} SplitAbsent(s: string, c: char)
    requires c !in s
    ensures Split(s, c) == [s]
  {
    if |s| > 0 {
      assert c !in s[1..];
      SplitAbsent(s[1..], c);
      assert [s[0]] + s[1..] == s;
    }
  }

  /** Two separator-free pieces joined by the separator split back apart. */
  lemma {:induction false} SplitPair(a: string, b: string, c: char)
    requires c !in a && c !in b
    ensures Split(a + [c] + b, c) == [a, b]
  {
    var s := a + [c] + b;
    if |a| == 0 {
      assert s[1..] == b;
      SplitAbsent(b, c);
    } else {
      assert s[1..] == a[1..] + [c] + b;
      assert c !in a[1..];
      SplitPair(a[1..], b, c);
      assert [a[0]] + a[1..] == a;
    }
  }

  /** `s.startswith(p)` */
  predicate StartsWith(s: string, p: string) {
    |p| <= |s| && s[..|p|] == p
  }

  /** `p in s` for strings */
  predicate Contains(s: string, p: string)
    decreases |s|
  {
    StartsWith(s, p) || (|s| > 0 && Contains(s[1..], p))
  }

  // ---------------------------------------------------------------------
  // Word splitting: `s.split()` with no argument

  function TakeWord(s: string): (w: string)
    ensures |w| <= |s| && w == s[..|w|] && NoSpace(w)
    ensures |w| < |s| ==> IsSpace(s[|w|])
    ensures |s| > 0 && !IsSpace(s[0]) ==> |w| > 0
  {
    if |s| == 0 || IsSpace(s[0]) then "" else [s[0]] + TakeWord(s[1..])
  }

  /** `s.split()`: maximal runs of non-whitespace, in order. */
  function Words(s: string): (ws: seq<string>)
    ensures forall i | 0 <= i < |ws| :: NoSpace(ws[i])
    ensures forall i | 0 <= i < |ws| :: |ws[i]| > 0
    decreases |s|
  {
    if |s| == 0 then []
    else if IsSpace(s[0]) then Words(s[1..])
    else
      var w := TakeWord(s);
      [w] + Words(s[|w|..])
  }

  predicate AllSpace(s: string) { forall i :: 0 <= i < |s| ==> IsSpace(s[i]) }

  /** The first word ends where the whitespace starts. */
  lemma {:induction false} TakeWordOf(w: string, s: string)
    requires NoSpace(w)
    requires |s| == 0 || IsSpace(s[0])
    ensures TakeWord(w + s) == w
  {
    if |w| > 0 {
      assert (w + s)[1..] == w[1..] + s;
      TakeWordOf(w[1..], s);
      assert [w[0]] + w[1..] == w;
    } else {
      assert w + s == s;
    }
  }

  /** Leading whitespace contributes no words. */
  lemma {:induction false} WordsSkipSpace(sp: string, s: string)
    requires AllSpace(sp)
    ensures Words(sp + s) == Words(s)
  {
    if |sp| > 0 {
      assert (sp + s)[1..] == sp[1..] + s;
      WordsSkipSpace(sp[1..], s);
    } else {
      assert sp + s == s;
    }
  }

  /** A word followed by whitespace is the first of the words. */
  lemma WordsCons(w: string, sp: string, s: string)
    requires |w| > 0 && NoSpace(w)
    requires |sp| > 0 && AllSpace(sp)
    ensures Words(w + sp + s) == [w] + Words(s)
  {
    var t := w + sp + s;
    assert t == w + (sp + s);
    TakeWordOf(w, sp + s);
    assert t[|w|..] == sp + s;
    WordsSkipSpace(sp, s);
  }

  /** A single word is its own list of words. */
  lemma WordsSingle(w: string)
    requires |w| > 0 && NoSpace(w)
    ensures Words(w) == [w]
  {
    TakeWordOf(w, "");
    assert w + "" == w;
    assert w[|w|..] == "";
  }

  // ---------------------------------------------------------------------
  // Case

  function LowerChar(c: char): char {
    if 'A' <= c <= 'Z' then (c as int + 32) as char else c
  }

  function UpperChar(c: char): char {
    if 'a' <= c <= 'z' then (c as int - 32) as char else c
  }

  /** `s.lower()` */
  function Lower(s: string): (r: string)
    ensures |r| == |s|
    ensures forall i :: 0 <= i < |s| ==> r[i] == LowerChar(s[i])
  {
    if |s| == 0 then "" else [LowerChar(s[0])] + Lower(s[1..])
  }

  /** `s.upper()` */
  function Upper(s: string): (r: string)
    ensures |r| == |s|
    ensures forall i :: 0 <= i < |s| ==> r[i] == UpperChar(s[i])
  {
    if |s| == 0 then "" else [UpperChar(s[0])] + Upper(s[1..])
  }

  /** `s.capitalize()`: first character upper-cased, the rest lower-cased. */
  function Capitalize(s: string): (r: string)
    ensures |r| == |s|
  {
    if |s| == 0 then "" else [UpperChar(s[0])] + Lower(s[1..])
  }

  /** `s.replace(a, b)` for single characters. */
  function ReplaceChar(s: string, a: char, b: char): (r: string)
    ensures |r| == |s|
    ensures forall i :: 0 <= i < |s| ==> r[i] == (if s[i] == a then b else s[i])
  {
    if |s| == 0 then "" else [if s[0] == a then b else s[0]] + ReplaceChar(s[1..], a, b)
  }
}

=== FILE: watchers.dfy ===
/** The wait/cancel protocol every cooperative I/O call is built from:
    an event-loop io watcher whose callback slot holds the greenlet waiting
    on it, `Hub.wait(watcher)` and `Hub.cancel_wait(watcher, exc)`.

    The loop itself (libev) is not modelled: readiness is an event handed
    in. `Hub.wait` and `Hub.cancel_wait` are called by gevent/py3/socket.py
    but are not defined in the hub module of this source; they are modelled
    here as the protocol those callers rely on: `wait` arms an idle watcher
    and always disarms it, `cancel_wait` defers a throw into whoever waits on
    an armed watcher and does nothing for an idle one. */
module Watchers {
  import opened Wrappers
  import opened Exceptions
  import Hub

  /** libev's highest watcher priority and the default one. */
  const MaxPri := 2
  const DefaultPri := 0

  /** io watcher event masks. */
  const ReadMode := 1
  const WriteMode := 2
  const ReadWriteMode := 3

  /** An io watcher: descriptor, event mask, priority, and its callback
      slot, the greenlet to resume. The watcher is armed exactly when the
      slot is set. */
  datatype IoWatcher = IoWatcher(fd: int, mode: int, priority: int, callback: Option<Hub.TaskId>) {
    predicate Armed() {
      callback.Some?
    }
  }

  /** `loop.io(fd, mode)`: a new idle watcher at the default priority. */
  function NewIo(fd: int, mode: int): (w: IoWatcher)
    ensures !w.Armed() && w.fd == fd && w.mode == mode && w.priority == DefaultPri
  {
    IoWatcher(fd, mode, DefaultPri, None)
  }

  /** How a wait ends: the watcher fired, or an exception was thrown into
      the waiting greenlet (by `cancel_wait`, a timeout, a kill). */
  datatype WaitEnd = Ready | ThrownIn(exc: Exc)

  /** The unique mark the watcher's callback switches back with. */
  const ReadyMark: nat := 1

  function AsSignal(e: WaitEnd): Hub.Signal {
    match e
    case Ready => Hub.Value(ReadyMark)
    case ThrownIn(x) => Hub.Throw(x)
  }

  /** `Hub.wait(watcher)` from greenlet `cur`: the watcher must be idle; it
      is armed with a fresh waiter's switch, the greenlet waits on that
      waiter, and the watcher is stopped whatever ended the wait. The
      refusal of an armed watcher is an assumption of this model: the
      socket code asserts the watcher is idle before it calls `wait`. */
  function HubWait(w: IoWatcher, cur: Hub.TaskId, hub: Hub.TaskId, end: WaitEnd): (r: (Result<(), Exc>, IoWatcher))
    ensures w.Armed() ==> r.0.Failure? && r.0.error.AssertionError? && r.1 == w
    ensures !w.Armed() ==> r.1 == w
    ensures !w.Armed() && cur != hub ==> (r.0.Success? <==> end.Ready?)
    ensures !w.Armed() && cur != hub && end.ThrownIn? ==> r.0 == Failure(end.exc)
    ensures !w.Armed() && cur == hub ==> r.0.Failure?
  {
    if w.Armed() then (Failure(AssertionError("This watcher is already used by another greenlet")), w)
    else
      var armed := w.(callback := Some(cur));
      var (got, _) := Hub.WaiterWait(Hub.FreshWaiter, cur, hub, AsSignal(end));
      var outcome :=
        match got
        case Success(_) => Success(())
        case Failure(e) => Failure(e);
      (outcome, armed.(callback := None))
  }

  // ---------------------------------------------------------------------
  // cancel_wait and the race against readiness

  /** One watcher together with the cancellations queued for it with
      `loop.run_callback`, in queue order. */
  datatype Cell = Cell(w: IoWatcher, queued: seq<Exc>)

  /** `Hub.cancel_wait(watcher, exc)`: for an armed watcher, queue a
      callback that will throw `exc` into the waiter; for an idle one, do
      nothing. */
  function CancelWait(c: Cell, exc: Exc): (r: Cell)
    ensures !c.w.Armed() ==> r == c
    ensures c.w.Armed() ==> r.w == c.w && r.queued == c.queued + [exc]
  {
    if c.w.Armed() then c.(queued := c.queued + [exc]) else c
  }

  /** What happens to one watcher: a greenlet starts waiting on it, it
      becomes ready, someone cancels the wait, or the hub runs the oldest
      queued cancellation callback. */
  datatype CellEvent = StartWait(task: Hub.TaskId) | BecomesReady | CancelCall(exc: Exc) | RunQueued

  /** A resumption: which greenlet, with what. */
  datatype Wakeup = Wakeup(task: Hub.TaskId, end: WaitEnd)

  /** One step. A wakeup always disarms (the waiting greenlet's `finally`
      stops the watcher before it does anything else); a queued
      cancellation that finds the watcher idle is dropped. */
  function CellStep(c: Cell, ev: CellEvent): (r: (Cell, seq<Wakeup>))
    ensures |r.1| <= 1
    ensures |r.1| == 1 ==> c.w.Armed() && !r.0.w.Armed() && r.1[0].task == c.w.callback.value
  {
    match ev
    case StartWait(t) =>
      if c.w.Armed() then (c, []) else (c.(w := c.w.(callback := Some(t))), [])
    case BecomesReady =>
      if c.w.Armed() then (c.(w := c.w.(callback := None)), [Wakeup(c.w.callback.value, Ready)])
      else (c, [])
    case CancelCall(e) => (CancelWait(c, e), [])
    case RunQueued =>
      if |c.queued| == 0 then (c, [])
      else if c.w.Armed() then
        (Cell(c.w.(callback := None), c.queued[1..]), [Wakeup(c.w.callback.value, ThrownIn(c.queued[0]))])
      else (c.(queued := c.queued[1..]), [])
  }

  function CellRun(c: Cell, evs: seq<CellEvent>): (Cell, seq<Wakeup>)
    decreases |evs|
  {
    if |evs| == 0 then (c, [])
    else
      var (c1, out1) := CellStep(c, evs[0]);
      var (c2, out2) := CellRun(c1, evs[1..]);
      (c2, out1 + out2)
  }

  function Armings(c: Cell, evs: seq<CellEvent>): nat
    decreases |evs|
  {
    if |evs| == 0 then 0
    else
      (if evs[0].StartWait? && !c.w.Armed() then 1 else 0) + Armings(CellStep(c, evs[0]).0, evs[1..])
  }

  function ArmedCount(c: Cell): nat {
    if c.w.Armed() then 1 else 0
  }

  /** Whatever interleaving of readiness, cancellations and queued callbacks
      happens, every wait is resumed at most once: wakeups plus a wait still
      pending equal the waits started (plus one already pending at the
      start). In particular a cancellation racing with readiness in the
      same loop iteration never delivers a second time. */
  lemma {:induction false} EachWaitResumedAtMostOnce(c: Cell, evs: seq<CellEvent>)
    ensures ArmedCount(c) + Armings(c, evs) == |CellRun(c, evs).1| + ArmedCount(CellRun(c, evs).0)
    decreases |evs|
  {
    if |evs| > 0 {
      EachWaitResumedAtMostOnce(CellStep(c, evs[0]).0, evs[1..]);
    }
  }

  /** The two orders of the race between readiness and a cancellation of
      the same armed watcher each resume the waiter exactly once, with
      whichever came first. */
  lemma CancelRacesReadiness(fd: int, mode: int, pri: int, task: Hub.TaskId, exc: Exc)
    ensures var c := Cell(IoWatcher(fd, mode, pri, Some(task)), []);
      CellRun(c, [CancelCall(exc), BecomesReady, RunQueued]).1 == [Wakeup(task, Ready)]
    ensures var c := Cell(IoWatcher(fd, mode, pri, Some(task)), []);
      CellRun(c, [CancelCall(exc), RunQueued, BecomesReady]).1 == [Wakeup(task, ThrownIn(exc))]
  {
    var w := IoWatcher(fd, mode, pri, Some(task));
    var c := Cell(w, []);
    var idle := w.(callback := None);
    // readiness first: the queued cancellation finds the watcher idle
    var evs1 := [CancelCall(exc), BecomesReady, RunQueued];
    assert evs1[1..] == [BecomesReady, RunQueued] && evs1[1..][1..] == [RunQueued];
    assert c.queued + [exc] == [exc] && [exc][1..] == [];
    assert CellStep(c, CancelCall(exc)) == (Cell(w, [exc]), []);
    assert CellStep(Cell(w, [exc]), BecomesReady) == (Cell(idle, [exc]), [Wakeup(task, Ready)]);
    assert CellStep(Cell(idle, [exc]), RunQueued) == (Cell(idle, []), []);
    assert CellRun(Cell(idle, [exc]), [RunQueued]).1 == [];
    // the cancellation callback first: readiness finds the watcher idle
    var evs2 := [CancelCall(exc), RunQueued, BecomesReady];
    assert evs2[1..] == [RunQueued, BecomesReady] && evs2[1..][1..] == [BecomesReady];
    assert CellStep(Cell(w, [exc]), RunQueued) == (Cell(idle, []), [Wakeup(task, ThrownIn(exc))]);
    assert CellStep(Cell(idle, []), BecomesReady) == (Cell(idle, []), []);
    assert CellRun(Cell(idle, []), [BecomesReady]).1 == [];
  }
}

=== FILE: wrappers.dfy ===
/** Failure-carrying datatypes shared by every module of the model.
    Python exceptions become the `Failure` arm of a `Result`; an absent
    Python value (`None`) becomes `None` of an `Option`. */
module Wrappers {

  datatype Option<+T> = None | Some(value: T) {
    function GetOr(default: T): T {
      match this
      case Some(v) => v
      case None => default
    }
  }

  datatype Result<+R, +E> = Success(value: R) | Failure(error: E) {
    predicate IsFailure() {
      Failure?
    }

    function PropagateFailure<U>(): Result<U, E>
      requires Failure?
    {
      Failure(error)
    }

    function Extract(): R
      requires Success?
    {
      value
    }
  }
}

=== FILE: wsgi_environ.dfy ===
/** `get_environ` of the WSGI handler: the CGI-style variables built from
    the request, the header fields folded into `HTTP_*` variables, and
    the body stream handed to the application. The environment holds only
    text values; `wsgi.input` is returned beside it. */
module WsgiEnviron {
  import opened Wrappers
  import opened Text
  import WsgiRequest
  import WsgiInput

  // ---------------------------------------------------------------------
  // Path and query string

  /** `path.split('?', 1)`: the path before the first '?' and the query
      after it, the query empty when there is no '?'. */
  function PathQuery(path: string): (r: (string, string))
    ensures '?' !in r.0
    ensures '?' in path ==> path == r.0 + "?" + r.1
    ensures '?' !in path ==> r == (path, "")
  {
    match SplitOnce(path, '?')
    case None => (path, "")
    case Some(pq) => pq
  }

  /** `urllib.unquote`: a '%' followed by two hexadecimal digits stands for
      the character with that code; any other '%' is kept. */
  function Unquote(s: string): (r: string)
    ensures |r| <= |s|
    ensures '%' !in s ==> r == s
  {
    if |s| == 0 then ""
    else if s[0] == '%' && |s| >= 3 && IsHexDigit(s[1]) && IsHexDigit(s[2]) then
      [(16 * HexValue(s[1]) + HexValue(s[2])) as char] + Unquote(s[3..])
    else
      assert '%' !in s ==> '%' !in s[1..];
      [s[0]] + Unquote(s[1..])
  }

  /** The characters a client escapes in a request path: '%', '?', space
      and the control characters. */
  predicate Unsafe(c: char) { c == '%' || c == '?' || c as int <= 32 }

  /** "%XX" with two lower-case hexadecimal digits. */
  function Escape(c: char): (e: string)
    requires c as int < 256
    ensures |e| == 3 && e[0] == '%' && IsHexDigit(e[1]) && IsHexDigit(e[2]) && '?' !in e
  {
    "%" + [HexChar(c as int / 16), HexChar(c as int % 16)]
  }

  /** Reference escaping of a path, the inverse of `Unquote`. */
  function Quote(s: string): (r: string)
    ensures '?' !in r
  {
    if |s| == 0 then ""
    else (if Unsafe(s[0]) then Escape(s[0]) else [s[0]]) + Quote(s[1..])
  }

  lemma HexRoundTrip(d: nat)
    requires d < 16
    ensures HexValue(HexChar(d)) == d
  {
  }

  lemma UnescapeOne(c: char, rest: string)
    requires Unsafe(c)
    ensures Unquote(Escape(c) + rest) == [c] + Unquote(rest)
  {
    var s := Escape(c) + rest;
    HexRoundTrip(c as int / 16);
    HexRoundTrip(c as int % 16);
    assert s[0] == '%' && s[1] == HexChar(c as int / 16) && s[2] == HexChar(c as int % 16);
    assert s[3..] == rest;
    assert (16 * HexValue(s[1]) + HexValue(s[2])) as char == c;
  }

  /** Unquoting undoes quoting, for every string. */
  lemma {:induction false} UnquoteQuote(s: string)
    ensures Unquote(Quote(s)) == s
    decreases |s|
  {
    if |s| > 0 {
      UnquoteQuote(s[1..]);
      if Unsafe(s[0]) {
        UnescapeOne(s[0], Quote(s[1..]));
      } else {
        assert ([s[0]] + Quote(s[1..]))[1..] == Quote(s[1..]);
      }
    }
  }

  // ---------------------------------------------------------------------
  // Header fields

  /** One character of `key.replace('-', '_').upper()`. */
  function EnvChar(c: char): char {
    UpperChar(if c == '-' then '_' else c)
  }

  /** `key.replace('-', '_').upper()`, one character at a time (both are
      character maps). */
  function EnvName(name: string): (r: string)
    ensures |r| == |name|
    ensures forall i :: 0 <= i < |name| ==> r[i] == EnvChar(name[i])
  {
    seq(|name|, i requires 0 <= i < |name| => EnvChar(name[i]))
  }

  /** The variable a header field goes under: "HTTP_" and its name, except
      for Content-Type and Content-Length, which have their own variables. */
  function HeaderKey(name: string): (r: Option<string>)
    ensures r.Some? ==> StartsWith(r.value, "HTTP_")
  {
    var key := EnvName(name);
    if key == "CONTENT_TYPE" || key == "CONTENT_LENGTH" then None else Some("HTTP_" + key)
  }

  /** Repeated cookies are joined with "; ", other repeated fields with ",". */
  function Separator(key: string): string {
    if Contains(key, "COOKIE") then "; " else ","
  }

  /** The header fields as the loop sees them: the variable each goes
      under (none for Content-Type and Content-Length) and its stripped
      value. */
  function Keyed(fields: seq<(string, string)>): (kvs: seq<(Option<string>, string)>)
    ensures |kvs| == |fields|
  {
    if |fields| == 0 then [] else [(HeaderKey(fields[0].0), Strip(fields[0].1))] + Keyed(fields[1..])
  }

  lemma {:induction false} KeyedAt(fields: seq<(string, string)>, i: int)
    requires 0 <= i < |fields|
    ensures Keyed(fields)[i] == (HeaderKey(fields[i].0), Strip(fields[i].1))
    decreases i
  {
    if i > 0 {
      KeyedAt(fields[1..], i - 1);
      assert Keyed(fields)[i] == Keyed(fields[1..])[i - 1];
    }
  }

  /** Every variable a keyed field goes under is an `HTTP_*` one. */
  predicate HttpKeys(kvs: seq<(Option<string>, string)>) {
    forall i :: 0 <= i < |kvs| && kvs[i].0.Some? ==> StartsWith(kvs[i].0.value, "HTTP_")
  }

  lemma KeyedHttp(fields: seq<(string, string)>)
    ensures HttpKeys(Keyed(fields))
  {
    forall i | 0 <= i < |fields| && Keyed(fields)[i].0.Some?
      ensures StartsWith(Keyed(fields)[i].0.value, "HTTP_")
    {
      KeyedAt(fields, i);
    }
  }

  /** One round of the header loop: the value is stored, or appended after
      the separator when the variable is already set. */
  function AddHeader(env: map<string, string>, kv: (Option<string>, string)): map<string, string> {
    match kv.0
    case None => env
    case Some(key) => if key in env then env[key := env[key] + Separator(key) + kv.1] else env[key := kv.1]
  }

  /** The header loop: it only adds variables, and only those some field
      goes under. */
  function AddHeaders(env: map<string, string>, kvs: seq<(Option<string>, string)>): (r: map<string, string>)
    ensures forall k :: k in env ==> k in r
    ensures forall k :: k in r && k !in env ==> ValuesOf(kvs, k) != []
    decreases |kvs|
  {
    if |kvs| == 0 then env else AddHeaders(AddHeader(env, kvs[0]), kvs[1..])
  }

  /** The values of the keyed fields that go under `key`, in order. */
  function ValuesOf(kvs: seq<(Option<string>, string)>, key: string): seq<string>
    decreases |kvs|
  {
    if |kvs| == 0 then [] else (if kvs[0].0 == Some(key) then [kvs[0].1] else []) + ValuesOf(kvs[1..], key)
  }

  /** Reference: the stripped values of the fields that go under `key`,
      in the order they came. */
  function ValuesFor(fields: seq<(string, string)>, key: string): seq<string> {
    ValuesOf(Keyed(fields), key)
  }

  /** `start`, then each value after the separator. */
  function JoinOnto(start: string, vs: seq<string>, sep: string): string
    decreases |vs|
  {
    if |vs| == 0 then start else JoinOnto(start + sep + vs[0], vs[1..], sep)
  }

  lemma {:induction false} JoinOntoIsJoin(start: string, vs: seq<string>, sep: string)
    ensures JoinOnto(start, vs, sep) == start + (if |vs| == 0 then "" else sep + Join(vs, sep))
    decreases |vs|
  {
    if |vs| > 0 {
      JoinOntoIsJoin(start + sep + vs[0], vs[1..], sep);
      if |vs| == 1 {
        assert Join(vs, sep) == vs[0];
      } else {
        assert Join(vs, sep) == vs[0] + sep + Join(vs[1..], sep);
      }
    }
  }

  /** The header loop, for any one variable: it is set afterwards exactly
      when it was set before or some field goes under it, and its value
      is the earlier value, or the first field's, followed by the other
      fields' values after the separator. */
  lemma {:induction false} AddHeadersValue(env: map<string, string>, kvs: seq<(Option<string>, string)>, key: string)
    ensures var r := AddHeaders(env, kvs);
      var vs := ValuesOf(kvs, key);
      && (key in r <==> key in env || |vs| > 0)
      && (key in env ==> r[key] == JoinOnto(env[key], vs, Separator(key)))
      && (key !in env && |vs| > 0 ==> r[key] == JoinOnto(vs[0], vs[1..], Separator(key)))
    decreases |kvs|
  {
    if |kvs| > 0 {
      var env1 := AddHeader(env, kvs[0]);
      AddHeadersValue(env1, kvs[1..], key);
      var vs := ValuesOf(kvs, key);
      var rest := ValuesOf(kvs[1..], key);
      if kvs[0].0 == Some(key) {
        assert vs == [kvs[0].1] + rest;
        assert vs[1..] == rest;
      } else {
        assert vs == rest;
      }
    }
  }

  lemma {:induction false} ValuesOfNone(kvs: seq<(Option<string>, string)>, key: string)
    requires forall i :: 0 <= i < |kvs| ==> kvs[i].0 != Some(key)
    ensures ValuesOf(kvs, key) == []
    decreases |kvs|
  {
    if |kvs| > 0 {
      ValuesOfNone(kvs[1..], key);
    }
  }

  /** A variable that exactly one field goes under holds that field's value. */
  lemma {:induction false} ValuesOfUnique(kvs: seq<(Option<string>, string)>, key: string, t: int)
    requires 0 <= t < |kvs| && kvs[t].0 == Some(key)
    requires forall j :: 0 <= j < |kvs| && j != t ==> kvs[j].0 != Some(key)
    ensures ValuesOf(kvs, key) == [kvs[t].1]
    decreases |kvs|
  {
    if t == 0 {
      ValuesOfNone(kvs[1..], key);
    } else {
      ValuesOfUnique(kvs[1..], key, t - 1);
    }
  }

  // ---------------------------------------------------------------------
  // get_environ

  /** The environment and the body stream the application receives. */
  datatype Environ = Environ(vars: map<string, string>, input: WsgiInput.Input)

  /** The header loop leaves every variable outside `HTTP_*` as it was. */
  lemma KeepsOthers(env: map<string, string>, kvs: seq<(Option<string>, string)>, key: string)
    requires HttpKeys(kvs) && !StartsWith(key, "HTTP_")
    ensures key in AddHeaders(env, kvs) <==> key in env
    ensures key in env ==> AddHeaders(env, kvs)[key] == env[key]
  {
    AddHeadersValue(env, kvs, key);
    ValuesOfNone(kvs, key);
  }

  /** What `get_environ` reads from the request before the header loop:
      the method, the unescaped path and the query, Content-Type and
      Content-Length. */
  datatype RequestInfo = RequestInfo(command: string, pathInfo: string, query: string,
                                     contentType: Option<string>, contentLength: string)

  function Info(req: WsgiRequest.Request): RequestInfo {
    var pq := PathQuery(req.path);
    RequestInfo(req.command, Unquote(pq.0), pq.1, WsgiRequest.Get(req.fields, "content-type"),
                WsgiRequest.Get(req.fields, "content-length").GetOr(""))
  }

  /** The names of the variables the server sets itself. */
  const RequestVarNames: set<string> := {"REQUEST_METHOD", "SCRIPT_NAME", "PATH_INFO", "QUERY_STRING",
    "CONTENT_TYPE", "CONTENT_LENGTH", "SERVER_PROTOCOL", "REMOTE_ADDR", "REMOTE_PORT"}

  /** The variables set before the header loop: the server's base
      environment, the request method, path and query, Content-Type and a
      non-empty Content-Length, the protocol, and the peer's address when
      it is a host and port. */
  function BaseVars(base: map<string, string>, info: RequestInfo, client: Option<(string, int)>): (r: map<string, string>)
    ensures forall k :: k in base ==> k in r
    ensures forall k :: k in r && k !in base ==> k in RequestVarNames
    ensures forall k :: k in base && k !in RequestVarNames ==> r[k] == base[k]
    ensures "REMOTE_ADDR" in r && "REMOTE_ADDR" !in base ==> client.Some?
  {
    var env0 := base["REQUEST_METHOD" := info.command]["SCRIPT_NAME" := ""]["PATH_INFO" := info.pathInfo]["QUERY_STRING" := info.query];
    var env1 := match info.contentType
      case Some(t) => env0["CONTENT_TYPE" := t]
      case None => env0;
    var env2 := if info.contentLength != "" then env1["CONTENT_LENGTH" := info.contentLength] else env1;
    var env3 := env2["SERVER_PROTOCOL" := "HTTP/1.0"];
    match client
    case Some(addr) => env3["REMOTE_ADDR" := addr.0]["REMOTE_PORT" := ShowInt(addr.1)]
    case None => env3
  }

  /** None of the variables set before the header loop is an `HTTP_*`
      one, so those come from the base environment alone. */
  lemma BaseNoHttp(base: map<string, string>, info: RequestInfo, client: Option<(string, int)>, key: string)
    requires StartsWith(key, "HTTP_")
    ensures key in BaseVars(base, info, client) <==> key in base
  {
    assert key[0] == 'H';
  }

  /** A variable whose name does not start with 'H' is no `HTTP_*` one. */
  lemma NotHttp(key: string)
    requires |key| > 0 && key[0] != 'H'
    ensures !StartsWith(key, "HTTP_")
  {
  }

  /** `get_environ`: the base variables, then the header fields; a pending
      "Expect: 100-continue" hands the socket to the body stream, and a
      chunked transfer coding makes the stream decode chunks. */
  function GetEnviron(base: map<string, string>, req: WsgiRequest.Request, client: Option<(string, int)>, rfile: string): (e: Environ)
    ensures e.input.rfile == rfile && e.input.contentLength == req.contentLength
    ensures e.input.position == 0 && e.input.chunkLength == -1 && e.input.sent == ""
    ensures e.input.socket <==> "HTTP_EXPECT" in e.vars && e.vars["HTTP_EXPECT"] == "100-continue"
    ensures e.input.chunkedInput <==>
      Lower(if "HTTP_TRANSFER_ENCODING" in e.vars then e.vars["HTTP_TRANSFER_ENCODING"] else "") == "chunked"
  {
    var env := AddHeaders(BaseVars(base, Info(req), client), Keyed(req.fields));
    var socket := "HTTP_EXPECT" in env && env["HTTP_EXPECT"] == "100-continue";
    var chunked := Lower(if "HTTP_TRANSFER_ENCODING" in env then env["HTTP_TRANSFER_ENCODING"] else "") == "chunked";
    Environ(env, WsgiInput.NewInput(rfile, req.contentLength, socket, chunked))
  }

  /** The header loop keeps a variable set before it outside `HTTP_*`. */
  lemma KeepsVar(env: map<string, string>, fields: seq<(string, string)>, key: string, value: string)
    requires |key| > 0 && key[0] != 'H'
    requires key in env && env[key] == value
    ensures key in AddHeaders(env, Keyed(fields)) && AddHeaders(env, Keyed(fields))[key] == value
  {
    NotHttp(key);
    KeyedHttp(fields);
    KeepsOthers(env, Keyed(fields), key);
  }

  lemma BaseRequestVars(base: map<string, string>, info: RequestInfo, client: Option<(string, int)>)
    ensures var e := BaseVars(base, info, client);
      && "REQUEST_METHOD" in e && e["REQUEST_METHOD"] == info.command
      && "SCRIPT_NAME" in e && e["SCRIPT_NAME"] == ""
      && "PATH_INFO" in e && e["PATH_INFO"] == info.pathInfo
      && "QUERY_STRING" in e && e["QUERY_STRING"] == info.query
      && "SERVER_PROTOCOL" in e && e["SERVER_PROTOCOL"] == "HTTP/1.0"
  {
  }

  /** The request variables: method, an empty script name, the unescaped
      path before any '?', the query after it, and the protocol, which is
      always reported as HTTP/1.0. */
  lemma RequestVariables(base: map<string, string>, req: WsgiRequest.Request, client: Option<(string, int)>, rfile: string)
    ensures var e := GetEnviron(base, req, client, rfile).vars;
      && "REQUEST_METHOD" in e && e["REQUEST_METHOD"] == req.command
      && "SCRIPT_NAME" in e && e["SCRIPT_NAME"] == ""
      && "PATH_INFO" in e && e["PATH_INFO"] == Unquote(PathQuery(req.path).0)
      && "QUERY_STRING" in e && e["QUERY_STRING"] == PathQuery(req.path).1
      && "SERVER_PROTOCOL" in e && e["SERVER_PROTOCOL"] == "HTTP/1.0"
  {
    var info := Info(req);
    var env0 := BaseVars(base, info, client);
    BaseRequestVars(base, info, client);
    KeepsVar(env0, req.fields, "REQUEST_METHOD", info.command);
    KeepsVar(env0, req.fields, "SCRIPT_NAME", "");
    KeepsVar(env0, req.fields, "PATH_INFO", info.pathInfo);
    KeepsVar(env0, req.fields, "QUERY_STRING", info.query);
    KeepsVar(env0, req.fields, "SERVER_PROTOCOL", "HTTP/1.0");
  }

  lemma BaseContentVars(base: map<string, string>, info: RequestInfo, client: Option<(string, int)>)
    ensures var e := BaseVars(base, info, client);
      && ("CONTENT_TYPE" in e <==> info.contentType.Some? || "CONTENT_TYPE" in base)
      && (info.contentType.Some? ==> e["CONTENT_TYPE"] == info.contentType.value)
      && (info.contentLength != "" ==> "CONTENT_LENGTH" in e && e["CONTENT_LENGTH"] == info.contentLength)
  {
  }

  /** CONTENT_TYPE is the request's Content-Type; CONTENT_LENGTH is its
      Content-Length when that is not empty. */
  lemma ContentVariables(base: map<string, string>, req: WsgiRequest.Request, client: Option<(string, int)>, rfile: string)
    ensures var e := GetEnviron(base, req, client, rfile).vars;
      var ct := WsgiRequest.Get(req.fields, "content-type");
      var cl := WsgiRequest.Get(req.fields, "content-length");
      && ("CONTENT_TYPE" in e <==> ct.Some? || "CONTENT_TYPE" in base)
      && (ct.Some? ==> e["CONTENT_TYPE"] == ct.value)
      && (cl.GetOr("") != "" ==> "CONTENT_LENGTH" in e && e["CONTENT_LENGTH"] == cl.value)
  {
    var info := Info(req);
    var env0 := BaseVars(base, info, client);
    BaseContentVars(base, info, client);
    NotHttp("CONTENT_TYPE");
    KeyedHttp(req.fields);
    KeepsOthers(env0, Keyed(req.fields), "CONTENT_TYPE");
    if info.contentLength != "" {
      KeepsVar(env0, req.fields, "CONTENT_LENGTH", info.contentLength);
    }
  }

  /** REMOTE_ADDR and REMOTE_PORT give the peer's host and port. */
  lemma PeerVariables(base: map<string, string>, req: WsgiRequest.Request, host: string, port: int, rfile: string)
    ensures var e := GetEnviron(base, req, Some((host, port)), rfile).vars;
      "REMOTE_ADDR" in e && e["REMOTE_ADDR"] == host && "REMOTE_PORT" in e && e["REMOTE_PORT"] == ShowInt(port)
  {
    var env0 := BaseVars(base, Info(req), Some((host, port)));
    KeepsVar(env0, req.fields, "REMOTE_ADDR", host);
    KeepsVar(env0, req.fields, "REMOTE_PORT", ShowInt(port));
  }

  /** A path sent escaped, with a query, arrives unescaped in PATH_INFO and
      with the query intact in QUERY_STRING. */
  lemma PathRoundTrip(base: map<string, string>, req: WsgiRequest.Request, client: Option<(string, int)>, rfile: string,
                      path: string, query: string)
    requires req.path == Quote(path) + "?" + query
    ensures var e := GetEnviron(base, req, client, rfile).vars;
      "PATH_INFO" in e && e["PATH_INFO"] == path && "QUERY_STRING" in e && e["QUERY_STRING"] == query
  {
    assert req.path == Quote(path) + ['?'] + query;
    IndexOfFirstAt(Quote(path), query, '?');
    UnquoteQuote(path);
    RequestVariables(base, req, client, rfile);
  }

  lemma IndexOfFirstAt(a: string, b: string, c: char)
    requires c !in a
    ensures SplitOnce(a + [c] + b, c) == Some((a, b))
  {
    var s := a + [c] + b;
    var x := SplitOnce(s, c).value.0;
    assert forall i :: 0 <= i < |a| ==> s[i] == a[i];
    assert forall i :: 0 <= i < |x| ==> s[i] == x[i];
    assert s[|x|] == c && s[|a|] == c;
    assert |x| == |a|;
    assert x == s[..|a|] == a;
  }

  /** Every `HTTP_*` variable the server's base environment does not set
      holds exactly the stripped values of the fields that go under it,
      joined with its separator, and is absent when there are none. */
  lemma HeaderVariables(base: map<string, string>, req: WsgiRequest.Request, client: Option<(string, int)>, rfile: string,
                        key: string)
    requires StartsWith(key, "HTTP_") && key !in base
    ensures var e := GetEnviron(base, req, client, rfile);
      var vs := ValuesFor(req.fields, key);
      && (key in e.vars <==> |vs| > 0)
      && (|vs| > 0 ==> e.vars[key] == Join(vs, Separator(key)))
  {
    var env0 := BaseVars(base, Info(req), client);
    BaseNoHttp(base, Info(req), client, key);
    FreshVariable(env0, Keyed(req.fields), key);
  }

  /** A variable not set before the header loop ends up holding the
      joined values of its fields, or stays unset. */
  lemma FreshVariable(env: map<string, string>, kvs: seq<(Option<string>, string)>, key: string)
    requires key !in env
    ensures var r := AddHeaders(env, kvs);
      var vs := ValuesOf(kvs, key);
      && (key in r <==> |vs| > 0)
      && (|vs| > 0 ==> r[key] == Join(vs, Separator(key)))
  {
    AddHeadersValue(env, kvs, key);
    var vs := ValuesOf(kvs, key);
    if |vs| > 0 {
      JoinOntoIsJoin(vs[0], vs[1..], Separator(key));
      if |vs| == 1 {
        assert Join(vs, Separator(key)) == vs[0];
      } else {
        assert Join(vs, Separator(key)) == vs[0] + Separator(key) + Join(vs[1..], Separator(key));
      }
    }
  }

  /** Content-Type and Content-Length never reach the header loop: no
      `HTTP_CONTENT_TYPE` or `HTTP_CONTENT_LENGTH` is made from them. */
  lemma NoHttpContentVariables(fields: seq<(string, string)>)
    ensures ValuesFor(fields, "HTTP_CONTENT_TYPE") == [] && ValuesFor(fields, "HTTP_CONTENT_LENGTH") == []
  {
    NoHttpContent(fields, "CONTENT_TYPE");
    NoHttpContent(fields, "CONTENT_LENGTH");
    assert "HTTP_" + "CONTENT_TYPE" == "HTTP_CONTENT_TYPE";
    assert "HTTP_" + "CONTENT_LENGTH" == "HTTP_CONTENT_LENGTH";
  }

  lemma NoHttpContent(fields: seq<(string, string)>, c: string)
    requires c == "CONTENT_TYPE" || c == "CONTENT_LENGTH"
    ensures ValuesFor(fields, "HTTP_" + c) == []
  {
    var key := "HTTP_" + c;
    forall i | 0 <= i < |fields|
      ensures Keyed(fields)[i].0 != Some(key)
    {
      KeyedAt(fields, i);
      NotContentKey(fields[i].0, c);
    }
    ValuesOfNone(Keyed(fields), key);
  }

  lemma NotContentKey(name: string, c: string)
    requires c == "CONTENT_TYPE" || c == "CONTENT_LENGTH"
    ensures HeaderKey(name) != Some("HTTP_" + c)
  {
    PrefixedKey(EnvName(name), c);
  }

  // ---------------------------------------------------------------------
  // Agreement with read_request on the transfer coding

  lemma CharsAgree(c: char, l: char)
    requires c != '_' && ('a' <= l <= 'z' || l == '-')
    ensures EnvChar(c) == EnvChar(l) <==> LowerChar(c) == l
  {
  }

  /** For a name without '_', the environment name matches that of a
      lower-case name exactly when the names are equal ignoring case. */
  lemma NamesAgree(name: string, lower: string)
    requires '_' !in name
    requires forall i :: 0 <= i < |lower| ==> 'a' <= lower[i] <= 'z' || lower[i] == '-'
    ensures EnvName(name) == EnvName(lower) <==> WsgiRequest.Key(name) == lower
  {
    if |name| == |lower| {
      var e, f, k := EnvName(name), EnvName(lower), WsgiRequest.Key(name);
      forall i | 0 <= i < |name|
        ensures e[i] == f[i] <==> k[i] == lower[i]
      {
        CharsAgree(name[i], lower[i]);
      }
      if e == f {
        assert forall i :: 0 <= i < |name| ==> k[i] == lower[i];
      }
      if k == lower {
        assert forall i :: 0 <= i < |name| ==> e[i] == f[i];
      }
    } else {
      assert |WsgiRequest.Key(name)| == |name|;
    }
  }

  /** A field goes under HTTP_TRANSFER_ENCODING exactly when
      `headers.get('transfer-encoding')` would see it, provided its name
      has no '_'. */
  lemma TransferEncodingName(name: string)
    requires '_' !in name
    ensures HeaderKey(name) == Some("HTTP_TRANSFER_ENCODING") <==> WsgiRequest.Key(name) == "transfer-encoding"
  {
    var te, v := "transfer-encoding", "TRANSFER_ENCODING";
    TransferEncodingWords(te, v);
    NameAgrees(name, te, v);
  }

  /** For a lower-case name `lower` whose variable is "HTTP_" and `v`, a
      field goes under that variable exactly when its name equals `lower`
      ignoring case, provided it has no '_'. */
  lemma NameAgrees(name: string, lower: string, v: string)
    requires '_' !in name
    requires forall i :: 0 <= i < |lower| ==> 'a' <= lower[i] <= 'z' || lower[i] == '-'
    requires EnvName(lower) == v && v != "CONTENT_TYPE" && v != "CONTENT_LENGTH"
    ensures HeaderKey(name) == Some("HTTP_" + v) <==> WsgiRequest.Key(name) == lower
  {
    NamesAgree(name, lower);
    KeyOfName(name, v);
  }

  /** Outside the two content variables, a field goes under "HTTP_" and
      `v` exactly when its environment name is `v`. */
  lemma KeyOfName(name: string, v: string)
    requires v != "CONTENT_TYPE" && v != "CONTENT_LENGTH"
    ensures HeaderKey(name) == Some("HTTP_" + v) <==> EnvName(name) == v
  {
    PrefixedKey(EnvName(name), v);
  }

  lemma TransferEncodingWords(te: string, v: string)
    requires te == "transfer-encoding" && v == "TRANSFER_ENCODING"
    ensures EnvName(te) == v && "HTTP_" + v == "HTTP_TRANSFER_ENCODING"
    ensures v != "CONTENT_TYPE" && v != "CONTENT_LENGTH"
    ensures forall i :: 0 <= i < |te| ==> 'a' <= te[i] <= 'z' || te[i] == '-'
  {
    assert |v| != |"CONTENT_TYPE"| && |v| != |"CONTENT_LENGTH"|;
    LowerShape(te);
  }

  lemma LowerShape(te: string)
    requires te == "transfer-encoding"
    ensures forall i :: 0 <= i < |te| ==> 'a' <= te[i] <= 'z' || te[i] == '-'
  {
  }

  lemma PrefixedKey(a: string, b: string)
    ensures "HTTP_" + a == "HTTP_" + b <==> a == b
  {
    if "HTTP_" + a == "HTTP_" + b {
      assert a == ("HTTP_" + a)[5..];
    }
  }

  /** The request carries exactly one Transfer-Encoding field, at index
      `t`, with a stripped value, and no field name has a '_'. */
  predicate SingleTransferEncoding(fields: seq<(string, string)>, t: int) {
    && 0 <= t < |fields|
    && WsgiRequest.Key(fields[t].0) == "transfer-encoding"
    && Strip(fields[t].1) == fields[t].1
    && (forall j :: 0 <= j < |fields| && j != t ==> WsgiRequest.Key(fields[j].0) != "transfer-encoding")
    && (forall j :: 0 <= j < |fields| ==> '_' !in fields[j].0)
  }

  lemma SingleValue(fields: seq<(string, string)>, t: int)
    requires SingleTransferEncoding(fields, t)
    ensures ValuesFor(fields, "HTTP_TRANSFER_ENCODING") == [fields[t].1]
    ensures WsgiRequest.Get(fields, "transfer-encoding") == Some(fields[t].1)
  {
    var key := "HTTP_TRANSFER_ENCODING";
    var kvs := Keyed(fields);
    forall j | 0 <= j < |fields|
      ensures kvs[j].0 == Some(key) <==> j == t
    {
      KeyedAt(fields, j);
      TransferEncodingName(fields[j].0);
    }
    KeyedAt(fields, t);
    ValuesOfUnique(kvs, key, t);
  }

  /** With a single, well-formed Transfer-Encoding field, `get_environ`
      decodes the body as chunked exactly when `read_request` treated the
      request as chunked. */
  lemma ChunkedAgrees(base: map<string, string>, req: WsgiRequest.Request, client: Option<(string, int)>, rfile: string, t: int)
    requires SingleTransferEncoding(req.fields, t)
    requires "HTTP_TRANSFER_ENCODING" !in base
    ensures GetEnviron(base, req, client, rfile).input.chunkedInput <==> WsgiRequest.IsChunked(req.fields)
  {
    SingleValue(req.fields, t);
    HeaderVariables(base, req, client, rfile, "HTTP_TRANSFER_ENCODING");
    assert Join([req.fields[t].1], Separator("HTTP_TRANSFER_ENCODING")) == req.fields[t].1;
  }

  /** Two Transfer-Encoding fields, say "gzip" then "chunked":
      `read_request` takes the last one and treats the body as chunked,
      `get_environ` joins them into "gzip,chunked" and does not. */
  lemma TwoTransferEncodingsDisagree(base: map<string, string>, req: WsgiRequest.Request, client: Option<(string, int)>, rfile: string,
                                     name: string, first: string, last: string)
    requires WsgiRequest.Key(name) == "transfer-encoding" && '_' !in name
    requires |req.fields| == 2 && req.fields[0] == (name, first) && req.fields[1] == (name, last)
    requires |first| > 0 && Strip(first) == first && last == "chunked"
    requires "HTTP_TRANSFER_ENCODING" !in base
    ensures WsgiRequest.IsChunked(req.fields)
    ensures !GetEnviron(base, req, client, rfile).input.chunkedInput
  {
    TransferEncodingName(name);
    ChunkedWord(last);
    FieldsDisagree(base, req, client, rfile, name, "HTTP_TRANSFER_ENCODING", "transfer-encoding", first, last);
    ChunkedWhenLast(req.fields, last);
  }

  lemma ChunkedWhenLast(fields: seq<(string, string)>, last: string)
    requires WsgiRequest.Get(fields, "transfer-encoding") == Some(last) && last == "chunked"
    ensures WsgiRequest.IsChunked(fields)
  {
    ChunkedWord(last);
  }

  lemma FieldsDisagree(base: map<string, string>, req: WsgiRequest.Request, client: Option<(string, int)>, rfile: string,
                       name: string, key: string, lower: string, first: string, last: string)
    requires HeaderKey(name) == Some(key) && WsgiRequest.Key(name) == lower && key !in base
    requires |req.fields| == 2 && req.fields[0] == (name, first) && req.fields[1] == (name, last)
    requires |first| > 0 && Strip(first) == first && Strip(last) == last
    ensures WsgiRequest.Get(req.fields, lower) == Some(last)
    ensures var e := GetEnviron(base, req, client, rfile);
      key in e.vars && Lower(e.vars[key]) != last
  {
    var sep := JoinedVariable(base, req, client, rfile, name, key, first, last);
    JoinedLength(first, last, sep);
    LastField(req.fields, lower);
  }

  /** Two fields under one variable leave it holding both values joined. */
  lemma JoinedVariable(base: map<string, string>, req: WsgiRequest.Request, client: Option<(string, int)>, rfile: string,
                       name: string, key: string, a: string, b: string) returns (sep: string)
    requires HeaderKey(name) == Some(key) && key !in base
    requires |req.fields| == 2 && req.fields[0] == (name, a) && req.fields[1] == (name, b)
    requires Strip(a) == a && Strip(b) == b
    ensures var e := GetEnviron(base, req, client, rfile);
      key in e.vars && e.vars[key] == Join([a, b], sep)
  {
    TwoValues(req.fields, name, key, a, b);
    HeaderVariables(base, req, client, rfile, key);
    sep := Separator(key);
  }

  /** Two fields under the same variable give its two values in order. */
  lemma TwoValues(fields: seq<(string, string)>, name: string, key: string, a: string, b: string)
    requires HeaderKey(name) == Some(key)
    requires |fields| == 2 && fields[0] == (name, a) && fields[1] == (name, b)
    requires Strip(a) == a && Strip(b) == b
    ensures ValuesFor(fields, key) == [a, b]
  {
    KeyedAt(fields, 0);
    KeyedAt(fields, 1);
    TwoKeyed(Keyed(fields), key, a, b);
  }

  lemma TwoKeyed(kvs: seq<(Option<string>, string)>, key: string, a: string, b: string)
    requires |kvs| == 2 && kvs[0] == (Some(key), a) && kvs[1] == (Some(key), b)
    ensures ValuesOf(kvs, key) == [a, b]
  {
    assert ValuesOf(kvs[1..], key) == [b] + ValuesOf(kvs[2..], key);
  }

  /** A non-empty value joined before `b` is longer than `b`, in any case. */
  lemma JoinedLength(a: string, b: string, sep: string)
    requires |a| > 0
    ensures Lower(Join([a, b], sep)) != b
  {
    var j := Join([a, b], sep);
    assert j == a + sep + Join([b], sep);
    assert Join([b], sep) == b;
  }

  /** `headers.get` returns the later of two fields with the same key. */
  lemma LastField(fields: seq<(string, string)>, key: string)
    requires |fields| == 2 && WsgiRequest.Key(fields[0].0) == key && WsgiRequest.Key(fields[1].0) == key
    ensures WsgiRequest.Get(fields, key) == Some(fields[1].1)
  {
  }

  /** "chunked" is its own lower case and its own stripped form. */
  lemma ChunkedWord(w: string)
    requires w == "chunked"
    ensures Lower(w) == w && Strip(w) == w
  {
    LowerWord(w);
    StripWord(w);
  }

  lemma LowerWord(w: string)
    requires forall i :: 0 <= i < |w| ==> 'a' <= w[i] <= 'z'
    ensures Lower(w) == w
  {
  }

  lemma StripWord(w: string)
    requires |w| > 0 && forall i :: 0 <= i < |w| ==> 'a' <= w[i] <= 'z'
    ensures Strip(w) == w
  {
    StripNoSpace(w);
  }
}

=== FILE: wsgi_input.dfy ===
/** `wsgi.input`: the request body reader of the WSGI server. A body is
    either bounded by Content-Length (`_do_read`) or framed with the chunked
    transfer coding of section 4.1 of RFC 7230 (`_chunked_read`). Before the
    first read of a body the interim "100 Continue" response is sent when
    the client asked for it.

    The request stream `rfile` is modelled as the bytes not yet consumed;
    reading takes a prefix off it. */
module WsgiInput {
  import opened Wrappers
  import opened Exceptions
  import opened Text

  const ContinueResponse := "HTTP/1.1 100 Continue\r\n\r\n"

  function Min(a: int, b: int): int {
    if a < b then a else b
  }

  // ---------------------------------------------------------------------
  // The buffered request stream

  /** `rfile.read(n)`: up to `n` bytes, everything left when `n` is
      negative. Returns the bytes read and what remains. */
  function RfileRead(rest: string, n: int): (r: (string, string))
    ensures r.0 + r.1 == rest
    ensures n < 0 ==> r.0 == rest
    ensures n >= 0 ==> |r.0| == Min(n, |rest|)
  {
    if n < 0 || n >= |rest| then (rest, "") else (rest[..n], rest[n..])
  }

  /** `rfile.readline(n)`: through the first newline, and at most `n`
      bytes when `n` is non-negative. */
  function RfileReadLine(rest: string, n: int): (r: (string, string))
    ensures r.0 + r.1 == rest
    ensures n >= 0 ==> |r.0| <= n
    ensures forall i :: 0 <= i < |r.0| - 1 ==> r.0[i] != '\n'
    ensures |r.1| > 0 && (n < 0 || |r.0| < n) ==> |r.0| > 0 && r.0[|r.0| - 1] == '\n'
    decreases |rest|
  {
    if |rest| == 0 || n == 0 then ("", rest)
    else if rest[0] == '\n' then ("\n", rest[1..])
    else
      var tail := RfileReadLine(rest[1..], if n > 0 then n - 1 else n);
      ([rest[0]] + tail.0, tail.1)
  }

  /** A line that ends at its only newline is read whole, whatever follows. */
  lemma {:induction false} ReadLineExact(line: string, rest: string)
    requires |line| > 0 && line[|line| - 1] == '\n'
    requires forall i :: 0 <= i < |line| - 1 ==> line[i] != '\n'
    ensures RfileReadLine(line + rest, -1) == (line, rest)
    decreases |line|
  {
    if |line| > 1 {
      assert (line + rest)[1..] == line[1..] + rest;
      ReadLineExact(line[1..], rest);
      assert [line[0]] + line[1..] == line;
    } else {
      assert (line + rest)[1..] == rest;
    }
  }

  function Reader(rest: string, n: int, useReadline: bool): (r: (string, string))
    ensures r.0 + r.1 == rest
    ensures n >= 0 ==> |r.0| <= n
  {
    if useReadline then RfileReadLine(rest, n) else RfileRead(rest, n)
  }

  predicate EndsWithNewline(s: string) {
    |s| > 0 && s[|s| - 1] == '\n'
  }

  // ---------------------------------------------------------------------
  // Input

  /** The reader's state: the unread stream, the declared Content-Length,
      whether "100 Continue" is still owed (and all that was sent on the
      socket), the bytes of the body (or of the current chunk) consumed so
      far, whether the body is chunked, and the current chunk's size (-1
      before the first chunk header). */
  datatype Input = Input(rfile: string, contentLength: Option<int>, socket: bool, sent: string,
                         position: int, chunkedInput: bool, chunkLength: int)

  function NewInput(rfile: string, contentLength: Option<int>, socket: bool, chunkedInput: bool): (inp: Input)
    ensures inp.position == 0 && inp.chunkLength == -1 && inp.sent == ""
  {
    Input(rfile, contentLength, socket, "", 0, chunkedInput, -1)
  }

  /** `_send_100_continue`: sends the interim response once, then forgets
      the socket. */
  function SendContinue(inp: Input): (r: Input)
    ensures !r.socket
    ensures r.sent == inp.sent + (if inp.socket then ContinueResponse else "")
    ensures r.(socket := inp.socket, sent := inp.sent) == inp
  {
    if inp.socket then inp.(socket := false, sent := inp.sent + ContinueResponse) else inp
  }

  /** The stream of `after` is what remains of the stream of `before`. */
  predicate ConsumedFrom(before: Input, after: Input) {
    |after.rfile| <= |before.rfile| && after.rfile == before.rfile[|before.rfile| - |after.rfile|..]
  }

  lemma SplitAt(s: string, a: string, b: string)
    requires s == a + b
    ensures s[..|a|] == a && s[|a|..] == b && s[|s| - |b|..] == b
  {
  }

  /** The bytes consumed between two states. */
  function Consumed(before: Input, after: Input): string
    requires ConsumedFrom(before, after)
  {
    before.rfile[..|before.rfile| - |after.rfile|]
  }

  // ---------------------------------------------------------------------
  // _do_read

  /** The number of bytes `_do_read` asks the stream for: what is left of
      the body, or less when the caller asks for less. A negative request
      is not clamped. */
  function Requested(inp: Input, length: Option<int>): int
    requires inp.contentLength.Some?
  {
    var left := inp.contentLength.value - inp.position;
    if length.None? || length.value > left then left else length.value
  }

  /** `_do_read(length, use_readline)` exactly as written. Without a
      Content-Length the body is empty (and no "100 Continue" is sent).
      Otherwise it sends "100 Continue" if owed, asks the stream for
      `Requested` bytes (nothing when that is 0), advances `position` by
      what was read, and fails on a short read unless it is a line that
      ends in a newline. */
  function DoReadAsWritten(inp: Input, length: Option<int>, useReadline: bool): (out: (Result<string, Exc>, Input))
    ensures inp.contentLength.None? ==> out == (Success(""), inp)
    ensures inp.contentLength.Some? ==> out.1 == SendContinue(inp).(rfile := out.1.rfile, position := out.1.position)
    ensures ConsumedFrom(inp, out.1)
    ensures out.1.position == inp.position + |Consumed(inp, out.1)|
    ensures out.0.Success? ==> out.0.value == Consumed(inp, out.1)
    ensures inp.contentLength.Some? && Requested(inp, length) >= 0 ==>
      |Consumed(inp, out.1)| <= Requested(inp, length)
    ensures inp.contentLength.Some? && Requested(inp, length) > 0 ==>
      var got := Consumed(inp, out.1);
      (out.0.Failure? <==> |got| < Requested(inp, length) && !(useReadline && EndsWithNewline(got)))
    ensures out.0.Failure? ==> out.0.error == ShortBody(out.1.position)
  {
    if inp.contentLength.None? then (Success(""), inp)
    else
      var inp1 := SendContinue(inp);
      var n := Requested(inp, length);
      if n == 0 then (Success(""), inp1)
      else
        var got := Reader(inp1.rfile, n, useReadline);
        var read, rest := got.0, got.1;
        assert inp.rfile == read + rest;
        var inp2 := inp1.(rfile := rest, position := inp1.position + |read|);
        if |read| < n && !(useReadline && EndsWithNewline(read)) then
          (Failure(ShortBody(inp2.position)), inp2)
        else (Success(read), inp2)
  }

  /** A negative read size, which Python file objects take to mean "all of
      it", is passed to the stream unclamped: the body reader then reads
      past the end of the body into whatever follows it on the connection. */
  lemma NegativeLengthReadsPastBody()
    ensures var inp := NewInput("abcd", Some(2), false, false);
      var out := DoReadAsWritten(inp, Some(-1), false);
      out.0 == Success("abcd") && out.1.position == 4 > inp.contentLength.value
  {
    var inp := NewInput("abcd", Some(2), false, false);
    assert Requested(inp, Some(-1)) == -1;
  }

  /** A body cut short after two of its four bytes: the error names
      position 2, where the reader stopped. */
  lemma ShortReadNamesPosition()
    ensures DoReadAsWritten(NewInput("ab", Some(4), false, false), None, false)
      == (Failure(IOError(Message(EofInBody + " at position 2"))), NewInput("", Some(4), false, false).(position := 2))
  {
    var inp := NewInput("ab", Some(4), false, false);
    assert Requested(inp, None) == 4;
    assert RfileRead("ab", 4) == ("ab", "");
    assert DoReadAsWritten(inp, None, false).1 == NewInput("", Some(4), false, false).(position := 2);
    assert ShowInt(2) == "2";
    assert EofInBody + " at position " + "2" == EofInBody + " at position 2";
  }

  /** A negative size read as "no size given". */
  function NoNegative(length: Option<int>): (r: Option<int>)
    ensures r.Some? ==> r.value >= 0
    ensures length.Some? && length.value >= 0 ==> r == length
  {
    if length.Some? && length.value < 0 then None else length
  }

  /** `_do_read` as intended: a negative size means the rest of the body,
      not the rest of the connection. */
  function DoRead(inp: Input, length: Option<int>, useReadline: bool): (out: (Result<string, Exc>, Input))
    ensures inp.contentLength.None? ==> out == (Success(""), inp)
    ensures ConsumedFrom(inp, out.1)
    ensures out.1.position == inp.position + |Consumed(inp, out.1)|
    ensures out.0.Success? ==> out.0.value == Consumed(inp, out.1)
    ensures out.0.Failure? ==> out.0.error == ShortBody(out.1.position)
  {
    DoReadAsWritten(inp, NoNegative(length), useReadline)
  }

  /** The corrected reader never reads past the declared body: a read that
      starts inside the body ends inside it, whatever size is asked for. */
  lemma DoReadStaysInBody(inp: Input, length: Option<int>, useReadline: bool)
    requires inp.contentLength.Some? && 0 <= inp.position <= inp.contentLength.value
    ensures var out := DoRead(inp, length, useReadline);
      out.1.position <= inp.contentLength.value
      && (out.0.Success? ==> |out.0.value| <= inp.contentLength.value - inp.position)
  {
  }

  // ---------------------------------------------------------------------
  // _chunked_read

  /** The chunk-size field of a chunk header line: the text before the
      first `;` (chunk extensions are ignored). */
  function SizeField(line: string): (f: string)
    ensures ';' !in f
    ensures ';' !in line ==> f == line
  {
    match SplitOnce(line, ';')
    case None => line
    case Some((size, _)) => size
  }

  /** A data round of the chunk loop: reads up to `maxreadlen` bytes of
      the current chunk and, when that completes the chunk, the line break
      after it. Nothing read means the stream ended. */
  function DataRound(inp: Input, maxreadlen: int, useReadline: bool): (r: (string, Input))
    requires maxreadlen > 0
    ensures |r.0| <= maxreadlen
    ensures ConsumedFrom(inp, r.1)
    ensures |r.0| > 0 ==> |r.1.rfile| < |inp.rfile|
    ensures SameBody(inp, r.1) && r.1.chunkLength == inp.chunkLength && r.1.position == inp.position + |r.0|
  {
    var got := Reader(inp.rfile, maxreadlen, useReadline);
    var data, rest := got.0, got.1;
    var mid := inp.(rfile := rest, position := inp.position + |data|);
    assert ConsumedFrom(inp, mid) by { SplitAt(inp.rfile, data, rest); }
    if inp.chunkLength == mid.position then
      var after := RfileReadLine(rest, -1);
      var last := mid.(rfile := after.1);
      assert ConsumedFrom(mid, last) by { SplitAt(rest, after.0, after.1); }
      ConsumedTrans(inp, mid, last);
      (data, last)
    else
      (data, mid)
  }

  /** A header round of the chunk loop: reads a chunk header line and
      parses its size in hexadecimal; a size of 0 ends the body, and the
      line after it is consumed as well. */
  function HeaderRound(inp: Input): (r: (Option<Exc>, Input))
    ensures ConsumedFrom(inp, r.1)
    ensures r.0.None? ==> |r.1.rfile| < |inp.rfile| && r.1.position == 0
    ensures r.0.Some? && r.0.value.IOError? ==> r.1.chunkLength == 0
    ensures SameBody(inp, r.1)
  {
    var read := RfileReadLine(inp.rfile, -1);
    var line, rest := read.0, read.1;
    var mid := inp.(rfile := rest);
    assert ConsumedFrom(inp, mid) by { SplitAt(inp.rfile, line, rest); }
    if !EndsWithNewline(line) then
      (Some(IOError(Message(EofInChunkHeader))), mid.(chunkLength := 0))
    else
      var size := ParseHex(SizeField(line));
      if size.None? then (Some(ValueError(BadHexSize)), mid)
      else if size.value == 0 then
        var trailer := RfileReadLine(rest, -1);
        var last := mid.(rfile := trailer.1, chunkLength := 0, position := 0);
        assert ConsumedFrom(mid, last) by { SplitAt(rest, trailer.0, trailer.1); }
        ConsumedTrans(inp, mid, last);
        (None, last)
      else
        (None, mid.(chunkLength := size.value, position := 0))
  }

  /** A complete header line announcing a non-empty chunk starts that chunk. */
  lemma HeaderRoundReads(inp: Input, line: string, rest: string, n: nat)
    requires RfileReadLine(inp.rfile, -1) == (line, rest)
    requires EndsWithNewline(line) && ParseHex(SizeField(line)) == Some(n) && n > 0
    ensures HeaderRound(inp) == (None, inp.(rfile := rest, chunkLength := n, position := 0))
  {
  }

  const EofInBody := "unexpected end of file while reading request"

  /** The `IOError` of a short body read, which names the position the
      reader had reached, counting what the short read did return. */
  function ShortBody(position: int): Exc {
    IOError(Message(EofInBody + " at position " + ShowInt(position)))
  }
  const EofInChunkHeader := "unexpected end of file while reading chunked data header"
  const EofInChunkData := "unexpected end of file while parsing chunked data"
  const BadHexSize := "invalid literal for int() with base 16"

  /** Two states of the same body reader that differ at most in the stream
      and the chunk bookkeeping. */
  predicate SameBody(a: Input, b: Input) {
    a.socket == b.socket && a.sent == b.sent && a.contentLength == b.contentLength && a.chunkedInput == b.chunkedInput
  }

  lemma ConsumedTrans(a: Input, b: Input, c: Input)
    requires ConsumedFrom(a, b) && ConsumedFrom(b, c)
    ensures ConsumedFrom(a, c)
  {
  }

  /** The `while self.chunk_length != 0` loop of `_chunked_read`, reading
      onto `acc`. `length` is what may still be returned (`None`: no
      bound). */
  function ChunkLoop(inp: Input, length: Option<int>, useReadline: bool, acc: string): (out: (Result<string, Exc>, Input))
    requires length.Some? ==> length.value > 0
    ensures ConsumedFrom(inp, out.1)
    ensures SameBody(inp, out.1)
    ensures out.0.Success? ==> |acc| <= |out.0.value|
    ensures out.0.Success? && length.Some? ==> |out.0.value| <= |acc| + length.value
    ensures out.0.Success? ==> out.1.chunkLength == 0 || length.Some? || useReadline
    ensures out.0.Failure? && out.0.error.IOError? ==> out.1.chunkLength == 0
    decreases |inp.rfile|
  {
    if inp.chunkLength == 0 then (Success(acc), inp)
    else
      var left := inp.chunkLength - inp.position;
      var maxreadlen := if length.Some? && length.value < left then length.value else left;
      if maxreadlen > 0 then
        var round := DataRound(inp, maxreadlen, useReadline);
        var data, inp' := round.0, round.1;
        if |data| == 0 then
          (Failure(IOError(Message(EofInChunkData))), inp'.(chunkLength := 0))
        else if length.Some? && length.value == |data| then (Success(acc + data), inp')
        else if useReadline && data[|data| - 1] == '\n' then (Success(acc + data), inp')
        else
          var out := ChunkLoop(inp', if length.Some? then Some(length.value - |data|) else None, useReadline, acc + data);
          ConsumedTrans(inp, inp', out.1);
          out
      else
        var round := HeaderRound(inp);
        var err, inp' := round.0, round.1;
        if err.Some? then (Failure(err.value), inp')
        else
          var out := ChunkLoop(inp', length, useReadline, acc);
          ConsumedTrans(inp, inp', out.1);
          out
  }

  /** `_chunked_read(length, use_readline)`: sends "100 Continue" if owed;
      a size of 0 returns nothing, a negative (or no) size reads without
      bound; otherwise never more than the size is returned. */
  function ChunkedRead(inp: Input, length: Option<int>, useReadline: bool): (out: (Result<string, Exc>, Input))
    ensures !out.1.socket && out.1.sent == SendContinue(inp).sent
    ensures length == Some(0) ==> out == (Success(""), SendContinue(inp))
    ensures ConsumedFrom(inp, out.1)
    ensures out.0.Success? && length.Some? && length.value > 0 ==> |out.0.value| <= length.value
    ensures out.0.Success? && (length.None? || length.value < 0) && !useReadline ==> out.1.chunkLength == 0
    ensures out.0.Failure? && out.0.error.IOError? ==> out.1.chunkLength == 0
  {
    var inp1 := SendContinue(inp);
    if length == Some(0) then (Success(""), inp1)
    else ChunkLoop(inp1, NoNegative(length), useReadline, "")
  }

  /** `Input.read(length)`: the chunked reader or the Content-Length
      reader. Either consumes the stream from the front; a body bounded by
      Content-Length returns exactly what it consumed and, read from inside
      the body, never leaves it (the corrected `DoRead`); a chunked read
      returns nothing for size 0 and never more than a positive size. */
  function Read(inp: Input, length: Option<int>): (out: (Result<string, Exc>, Input))
    ensures ConsumedFrom(inp, out.1)
    ensures !inp.chunkedInput && out.0.Success? ==> out.0.value == Consumed(inp, out.1)
    ensures !inp.chunkedInput && inp.contentLength.Some? && 0 <= inp.position <= inp.contentLength.value ==>
      inp.position <= out.1.position <= inp.contentLength.value
    ensures inp.chunkedInput && length == Some(0) ==> out.0 == Success("")
    ensures inp.chunkedInput && out.0.Success? && length.Some? && length.value > 0 ==> |out.0.value| <= length.value
  {
    if inp.chunkedInput then ChunkedRead(inp, length, false) else DoRead(inp, length, false)
  }

  /** `Input.readline(size)`: the same two readers, reading by lines. */
  function ReadLine(inp: Input, size: Option<int>): (out: (Result<string, Exc>, Input))
    ensures ConsumedFrom(inp, out.1)
    ensures !inp.chunkedInput && out.0.Success? ==> out.0.value == Consumed(inp, out.1)
    ensures !inp.chunkedInput && inp.contentLength.Some? && 0 <= inp.position <= inp.contentLength.value ==>
      inp.position <= out.1.position <= inp.contentLength.value
    ensures inp.chunkedInput && size == Some(0) ==> out.0 == Success("")
    ensures inp.chunkedInput && out.0.Success? && size.Some? && size.value > 0 ==> |out.0.value| <= size.value
  {
    if inp.chunkedInput then ChunkedRead(inp, size, true) else DoRead(inp, size, true)
  }
}

=== FILE: wsgi_request.dfy ===
/** Request-line and header validation of the WSGI handler: the HTTP
    version check, `read_request` and the status chosen by
    `handle_one_request` before the application runs. Header parsing
    itself (the `mimetools.Message` of the request) is an input: its status
    text and its (name, value) fields, values already stripped. */
module WsgiRequest {
  import opened Wrappers
  import opened Exceptions
  import opened Text
  import WsgiInput

  const MaxRequestLine := 8192

  const TooLongResponse := "HTTP/1.0 414 Request URI Too Long\r\nConnection: close\r\nContent-length: 0\r\n\r\n"
  const BadRequestResponse := "HTTP/1.0 400 Bad Request\r\nConnection: close\r\nContent-length: 0\r\n\r\n"

  // ---------------------------------------------------------------------
  // _check_http_version

  /** Python's `<` on tuples of integers: the first difference decides, and
      a proper prefix is smaller. */
  predicate TupleLess(a: seq<int>, b: seq<int>)
    decreases |a|
  {
    if |a| == 0 then |b| > 0
    else if |b| == 0 then false
    else if a[0] != b[0] then a[0] < b[0]
    else TupleLess(a[1..], b[1..])
  }

  /** `tuple(int(x) for x in parts)`; `None` when some part is not an
      integer literal. */
  function ParseInts(parts: seq<string>): (r: Option<seq<int>>)
    ensures r.Some? <==> forall i :: 0 <= i < |parts| ==> ParseInt(parts[i]).Some?
    ensures r.Some? ==> |r.value| == |parts|
    ensures r.Some? ==> forall i :: 0 <= i < |parts| ==> ParseInt(parts[i]) == Some(r.value[i])
  {
    if |parts| == 0 then Some([])
    else match (ParseInt(parts[0]), ParseInts(parts[1..]))
      case (Some(n), Some(ns)) => Some([n] + ns)
      case (None, _) => None
      case (_, None) =>
        assert forall i :: 1 <= i < |parts| ==> parts[i] == parts[1..][i - 1];
        None
  }

  /** The numbers of the version after "HTTP/", when all parse. */
  function VersionNumbers(version: string): Option<seq<int>>
    requires StartsWith(version, "HTTP/")
  {
    ParseInts(Split(version[5..], '.'))
  }

  /** The versions the server speaks: 0.9 and later within major 0, and
      every 1.x. */
  predicate Supported(v: seq<int>)
    requires |v| >= 2
  {
    (v[0] == 0 && v[1] >= 9) || v[0] == 1
  }

  /** `_check_http_version`: a non-"HTTP/" version is refused; a part that
      is not an integer raises `ValueError` and a single number raises
      `IndexError`; otherwise the minor number must be non-negative and
      `(0, 9) <= version < (2, 0)` as tuples. */
  function CheckHttpVersion(version: string): (r: Result<bool, Exc>)
    ensures !StartsWith(version, "HTTP/") ==> r == Success(false)
    ensures r == Success(true) <==>
      StartsWith(version, "HTTP/") && VersionNumbers(version).Some?
      && |VersionNumbers(version).value| >= 2
      && VersionNumbers(version).value[1] >= 0 && Supported(VersionNumbers(version).value)
    ensures r.Failure? <==>
      StartsWith(version, "HTTP/") && (VersionNumbers(version).None? || |VersionNumbers(version).value| < 2)
  {
    if !StartsWith(version, "HTTP/") then Success(false)
    else match ParseInts(Split(version[5..], '.'))
      case None => Failure(ValueError("invalid literal for int() with base 10"))
      case Some(v) =>
        if |v| < 2 then Failure(IndexError)
        else
          SupportedIsTupleRange(v);
          TupleLessLow(v);
          Success(!(v[1] < 0 || TupleLess(v, [0, 9]) || !TupleLess(v, [2, 0])))
  }

  lemma TupleLessLow(v: seq<int>)
    requires |v| >= 2
    ensures TupleLess(v, [0, 9]) <==> v[0] < 0 || (v[0] == 0 && v[1] < 9)
  {
    var lo: seq<int> := [0, 9];
    var nine: seq<int> := [9];
    var none: seq<int> := [];
    assert lo[1..] == nine && nine[1..] == none;
    assert v[1..][1..] == v[2..] && v[1..][0] == v[1];
    assert !TupleLess(v[2..], none);
    assert TupleLess(v[1..], nine) <==> v[1] < 9;
  }

  lemma TupleLessHigh(v: seq<int>)
    requires |v| >= 2
    ensures TupleLess(v, [2, 0]) <==> v[0] < 2 || (v[0] == 2 && v[1] < 0)
  {
    var hi: seq<int> := [2, 0];
    var zero: seq<int> := [0];
    var none: seq<int> := [];
    assert hi[1..] == zero && zero[1..] == none;
    assert v[1..][1..] == v[2..] && v[1..][0] == v[1];
    assert !TupleLess(v[2..], none);
    assert TupleLess(v[1..], zero) <==> v[1] < 0;
  }

  /** With a non-negative minor number, the tuple comparisons of the
      version check select exactly the supported versions. */
  lemma SupportedIsTupleRange(v: seq<int>)
    requires |v| >= 2
    ensures (v[1] >= 0 && !TupleLess(v, [0, 9]) && TupleLess(v, [2, 0])) <==> (v[1] >= 0 && Supported(v))
  {
    TupleLessLow(v);
    TupleLessHigh(v);
  }

  /** `"HTTP/%d.%d" % (major, minor)` */
  function VersionText(major: nat, minor: nat): string {
    "HTTP/" + ShowNat(major) + "." + ShowNat(minor)
  }

  lemma NoDot(s: string)
    requires AllDigits(s)
    ensures '.' !in s
  {
    assert forall i :: 0 <= i < |s| ==> IsDigit(s[i]);
  }

  lemma ParsePair(major: nat, minor: nat)
    ensures ParseInts([ShowNat(major), ShowNat(minor)]) == Some([major as int, minor as int])
  {
    var parts := [ShowNat(major), ShowNat(minor)];
    ParseShowInt(major);
    ParseShowInt(minor);
    assert ShowInt(major) == ShowNat(major) && ShowInt(minor) == ShowNat(minor);
    var last := [ShowNat(minor)];
    var none: seq<string> := [];
    assert parts[1..] == last && last[1..] == none;
    assert ParseInts(none) == Some([]);
    assert ParseInt(last[0]) == Some(minor as int);
    assert [minor as int] + [] == [minor as int];
    assert ParseInts(last) == Some([minor as int]);
    assert ParseInts(parts[1..]) == Some([minor as int]);
    assert ParseInt(parts[0]) == Some(major as int);
    assert [major as int] + [minor as int] == [major as int, minor as int];
  }

  /** The numbers of `"HTTP/%d.%d"` are the two numbers written. */
  lemma VersionNumbersOf(major: nat, minor: nat)
    ensures var version := VersionText(major, minor);
      StartsWith(version, "HTTP/") && VersionNumbers(version) == Some([major as int, minor as int])
  {
    var a := ShowNat(major);
    var b := ShowNat(minor);
    var tail := a + ['.'] + b;
    var version := "HTTP/" + tail;
    assert VersionText(major, minor) == ("HTTP/" + a) + ['.'] + b;
    assert ("HTTP/" + a) + ['.'] + b == version;
    WsgiInput.SplitAt(version, "HTTP/", tail);
    NoDot(a);
    NoDot(b);
    SplitPair(a, b, '.');
    ParsePair(major, minor);
  }

  /** `"HTTP/%d.%d"` is accepted exactly for the supported versions. */
  lemma VersionAccepted(major: nat, minor: nat)
    ensures CheckHttpVersion(VersionText(major, minor))
      == Success((major == 0 && minor >= 9) || major == 1)
  {
    VersionNumbersOf(major, minor);
  }

  /** Only 1.1 is spelled "HTTP/1.1". */
  lemma VersionShape(major: nat, minor: nat)
    ensures VersionText(major, minor) == "HTTP/1.1" <==> major == 1 && minor == 1
  {
    var version := VersionText(major, minor);
    if version == "HTTP/1.1" {
      VersionNumbersOf(major, minor);
      VersionNumbersOf(1, 1);
      assert ShowNat(1) == "1";
      assert VersionText(1, 1) == "HTTP/1.1";
      assert VersionNumbers(version) == VersionNumbers("HTTP/1.1");
    }
  }

  // ---------------------------------------------------------------------
  // Headers

  /** The key a header name is stored under: its lower-case form. */
  function Key(name: string): string {
    Lower(name)
  }

  /** `headers.get(key)` for a lower-case key: names compare
      case-insensitively and, as in `rfc822.Message`, the last occurrence
      wins. */
  function Get(fields: seq<(string, string)>, key: string): (r: Option<string>)
    ensures r.None? <==> forall i :: 0 <= i < |fields| ==> Key(fields[i].0) != key
    ensures r.Some? ==>
      exists i :: 0 <= i < |fields| && Key(fields[i].0) == key && fields[i].1 == r.value &&
        (forall j :: i < j < |fields| ==> Key(fields[j].0) != key)
  {
    var i := LastIndex(fields, key, |fields|);
    if i < 0 then None else Some(fields[i].1)
  }

  /** The index of the last of the first `n` fields stored under `key`,
      or -1 when there is none. */
  function LastIndex(fields: seq<(string, string)>, key: string, n: nat): (i: int)
    requires n <= |fields|
    ensures -1 <= i < n
    ensures i >= 0 ==> Key(fields[i].0) == key
    ensures forall j :: i < j < n ==> Key(fields[j].0) != key
  {
    if n == 0 then -1
    else if Key(fields[n - 1].0) == key then n - 1
    else LastIndex(fields, key, n - 1)
  }

  /** `del headers[key]`: every field of that name goes, the others stay
      in order. */
  function Delete(fields: seq<(string, string)>, key: string): (r: seq<(string, string)>)
    ensures forall f :: f in r <==> f in fields && Key(f.0) != key
    ensures |r| <= |fields|
  {
    if |fields| == 0 then []
    else if Key(fields[0].0) == key then Delete(fields[1..], key)
    else [fields[0]] + Delete(fields[1..], key)
  }

  /** The parsed header block: a non-empty status reports a malformed block. */
  datatype Headers = Headers(status: string, fields: seq<(string, string)>)

  // ---------------------------------------------------------------------
  // read_request

  datatype Request = Request(
    command: string,
    path: string,
    version: string,
    fields: seq<(string, string)>,
    contentLength: Option<int>,
    closeConnection: bool)

  /** What `read_request` did: returned true, returned after logging an
      error, or raised. */
  datatype Parsed = Accepted(req: Request) | Rejected | Raised(exc: Exc)

  predicate IsChunked(fields: seq<(string, string)>) {
    Lower(Get(fields, "transfer-encoding").GetOr("")) == "chunked"
  }

  /** The request line as method, path and version; `None` when it is
      refused. Only a three-word line with a bad version can raise. */
  function RequestLine(raw: string): (r: Result<Option<(string, string, string)>, Exc>)
    ensures var ws := Words(StripRight(raw));
      r.Success? && r.value.Some? ==>
        (|ws| == 3 && CheckHttpVersion(ws[2]) == Success(true) && r.value.value == (ws[0], ws[1], ws[2])) ||
        (|ws| == 2 && ws[0] == "GET" && r.value.value == (ws[0], ws[1], "HTTP/0.9"))
    ensures var ws := Words(StripRight(raw));
      (|ws| != 2 && |ws| != 3) || (|ws| == 2 && ws[0] != "GET") ==> r == Success(None)
    ensures var ws := Words(StripRight(raw));
      r.Failure? <==> |ws| == 3 && CheckHttpVersion(ws[2]).Failure?
  {
    var words := Words(StripRight(raw));
    if |words| == 3 then
      var check :- CheckHttpVersion(words[2]);
      if check then Success(Some((words[0], words[1], words[2]))) else Success(None)
    else if |words| == 2 then
      if words[0] != "GET" then Success(None) else Success(Some((words[0], words[1], "HTTP/0.9")))
    else Success(None)
  }

  /** The header part of `read_request`: a bad header block is refused; a
      chunked transfer coding removes every Content-Length; a
      Content-Length must be an integer (else `ValueError`), non-negative,
      and zero for GET and HEAD. */
  function CheckHeaders(command: string, path: string, version: string, headers: Headers): (r: Parsed)
    ensures r.Accepted? ==> r.req.command == command && r.req.path == path && r.req.version == version
    ensures r.Accepted? ==> headers.status == ""
    ensures r.Accepted? && IsChunked(headers.fields) ==> r.req.contentLength.None? && Get(r.req.fields, "content-length").None?
    ensures r.Accepted? && !IsChunked(headers.fields) ==> r.req.fields == headers.fields
    ensures r.Accepted? && r.req.contentLength.Some? ==>
      r.req.contentLength.value >= 0 && (r.req.contentLength.value != 0 ==> command != "GET" && command != "HEAD")
    ensures r.Accepted? ==> r.req.contentLength.Some? == Get(r.req.fields, "content-length").Some?
    ensures r.Accepted? ==> r.req.closeConnection == CloseConnection(version, r.req.fields)
    ensures r.Raised? ==> r.exc.ValueError?
  {
    if headers.status != "" then Rejected
    else
      var fields := if IsChunked(headers.fields) then Delete(headers.fields, "content-length") else headers.fields;
      match Get(fields, "content-length")
      case None => Accepted(Request(command, path, version, fields, None, CloseConnection(version, fields)))
      case Some(text) =>
        match ParseInt(text)
        case None => Raised(ValueError("invalid literal for int() with base 10"))
        case Some(n) =>
          if n < 0 then Rejected
          else if n != 0 && (command == "GET" || command == "HEAD") then Rejected
          else Accepted(Request(command, path, version, fields, Some(n), CloseConnection(version, fields)))
  }

  /** `read_request(raw_requestline)` with the header block already parsed. */
  function ReadRequest(raw: string, headers: Headers): (r: Parsed)
    ensures r.Accepted? <==>
      RequestLine(raw).Success? && RequestLine(raw).value.Some? &&
        var (c, p, v) := RequestLine(raw).value.value; CheckHeaders(c, p, v, headers).Accepted?
    ensures r.Accepted? ==> r == CheckHeaders(r.req.command, r.req.path, r.req.version, headers)
    ensures RequestLine(raw).Failure? ==> r == Raised(RequestLine(raw).error)
  {
    match RequestLine(raw)
    case Failure(e) => Raised(e)
    case Success(None) => Rejected
    case Success(Some((command, path, version))) => CheckHeaders(command, path, version, headers)
  }

  /** Only an HTTP/1.1 request keeps the connection, unless it asks to
      close it. */
  function CloseConnection(version: string, fields: seq<(string, string)>): (close: bool)
    ensures !close <==> version == "HTTP/1.1" && Lower(Get(fields, "connection").GetOr("")) != "close"
  {
    if version == "HTTP/1.1" then Lower(Get(fields, "connection").GetOr("")) == "close" else true
  }

  lemma VersionNoSpace(major: nat, minor: nat)
    ensures NoSpace(VersionText(major, minor))
  {
    var a := ShowNat(major);
    var b := ShowNat(minor);
    var version := VersionText(major, minor);
    forall i | 0 <= i < |version|
      ensures !IsSpace(version[i])
    {
      if i >= 5 && i < 5 + |a| {
        assert version[i] == a[i - 5];
      } else if i > 5 + |a| {
        assert version[i] == b[i - 6 - |a|];
      }
    }
  }

  /** A request line of three words separated by single spaces, followed
      by line-end whitespace, splits back into the three words. */
  lemma RequestLineWords(verb: string, path: string, version: string, eol: string)
    requires |verb| > 0 && NoSpace(verb) && |path| > 0 && NoSpace(path)
    requires |version| > 0 && NoSpace(version) && AllSpace(eol)
    ensures Words(StripRight(verb + " " + path + " " + version + eol)) == [verb, path, version]
  {
    var line := verb + " " + path + " " + version;
    StripRightSpaces(line, eol);
    ThreeWords(verb, path, version);
  }

  lemma ThreeWords(verb: string, path: string, version: string)
    requires |verb| > 0 && NoSpace(verb) && |path| > 0 && NoSpace(path)
    requires |version| > 0 && NoSpace(version)
    ensures Words(verb + " " + path + " " + version) == [verb, path, version]
  {
    var rest := path + " " + version;
    assert verb + " " + path + " " + version == verb + " " + rest;
    WordsCons(verb, " ", rest);
    WordsCons(path, " ", version);
    WordsSingle(version);
  }

  /** A well-formed three-word request line with a clean header block is
      accepted exactly when its version is supported, and then keeps the
      connection exactly for HTTP/1.1. */
  lemma RequestLineAccepted(verb: string, path: string, major: nat, minor: nat, eol: string)
    requires |verb| > 0 && NoSpace(verb) && |path| > 0 && NoSpace(path)
    requires AllSpace(eol)
    ensures var r := ReadRequest(verb + " " + path + " " + VersionText(major, minor) + eol, Headers("", []));
      && (r.Accepted? <==> (major == 0 && minor >= 9) || major == 1)
      && (r.Accepted? ==> r.req.command == verb && r.req.path == path && r.req.contentLength.None?)
      && (r.Accepted? ==> r.req.closeConnection == !(major == 1 && minor == 1))
  {
    var version := VersionText(major, minor);
    VersionNoSpace(major, minor);
    RequestLineWords(verb, path, version, eol);
    VersionAccepted(major, minor);
    VersionShape(major, minor);
  }

  // ---------------------------------------------------------------------
  // handle_one_request, up to running the application

  /** What `handle_one_request` does before the application: stop without
      answering, answer with one of the canned error responses, or go on
      with the parsed request. */
  datatype Handled = Quiet | Respond(code: string, response: string) | Proceed(req: Request)

  /** `handle_one_request`: a closed stream, a socket error while reading
      or an empty request line end the connection quietly; the line is read
      with `readline(8192)`, and a line of that length is answered 414;
      a refused or unparsable request is answered 400. */
  function HandleOneRequest(closed: bool, readFails: bool, rfile: string, headers: Headers): (r: Handled)
    ensures closed || readFails ==> r == Quiet
    ensures !closed && !readFails && |WsgiInput.RfileReadLine(rfile, MaxRequestLine).0| == 0 ==> r == Quiet
    ensures r == Quiet <==> closed || readFails || |WsgiInput.RfileReadLine(rfile, MaxRequestLine).0| == 0
    ensures r.Respond? ==> (r.code == "414" && r.response == TooLongResponse) || (r.code == "400" && r.response == BadRequestResponse)
    ensures r.Proceed? ==>
      var raw := WsgiInput.RfileReadLine(rfile, MaxRequestLine).0;
      0 < |raw| < MaxRequestLine && ReadRequest(raw, headers) == Accepted(r.req)
  {
    if closed || readFails then Quiet
    else
      var raw := WsgiInput.RfileReadLine(rfile, MaxRequestLine).0;
      if |raw| == 0 then Quiet
      else if |raw| >= MaxRequestLine then Respond("414", TooLongResponse)
      else match ReadRequest(raw, headers)
        case Accepted(req) => Proceed(req)
        case _ => Respond("400", BadRequestResponse)
  }

  /** The 414 answer comes exactly when the stream holds 8192 bytes before
      any line break within them. */
  lemma TooLongIff(rfile: string, headers: Headers)
    ensures HandleOneRequest(false, false, rfile, headers).Respond?
            && HandleOneRequest(false, false, rfile, headers).code == "414"
        <==> |rfile| >= MaxRequestLine && '\n' !in rfile[..MaxRequestLine - 1]
  {
    LineReadLength(rfile, MaxRequestLine);
  }

  /** `readline(n)` returns n bytes exactly when n bytes are available and
      the first n - 1 hold no line break. */
  lemma {:induction false} LineReadLength(rest: string, n: nat)
    requires n > 0
    ensures |WsgiInput.RfileReadLine(rest, n).0| == n <==> |rest| >= n && '\n' !in rest[..n - 1]
    decreases n
  {
    if |rest| > 0 && rest[0] != '\n' && n > 1 {
      LineReadLength(rest[1..], n - 1);
      if |rest| >= n {
        assert rest[1..][..n - 2] == rest[1..n - 1];
        assert rest[..n - 1] == [rest[0]] + rest[1..n - 1];
      }
    } else if |rest| >= n && rest[0] == '\n' && n > 1 {
      assert rest[..n - 1][0] == '\n';
    }
  }

  /** The handler goes on to the application exactly when the request line
      is short enough and `read_request` accepts it. */
  lemma ProceedIff(rfile: string, headers: Headers)
    ensures var raw := WsgiInput.RfileReadLine(rfile, MaxRequestLine).0;
      (HandleOneRequest(false, false, rfile, headers).Proceed? <==>
       0 < |raw| < MaxRequestLine && ReadRequest(raw, headers).Accepted?)
  {
  }
}

=== FILE: wsgi_response.dfy ===
/** The response side of the WSGI handler: `start_response` (status code
    and header-name normalisation), `finalize_headers` (Date, Connection
    and the choice between Content-Length and chunked framing), `write`
    (the header block once, then the body, framed when chunked) and
    `process_result`, which writes every piece the application yields and
    terminates a chunked body. Sending is assumed to succeed in
    `process_result`; `write` models a failed send as well. */
module WsgiResponse {
  import opened Wrappers
  import opened Exceptions
  import opened Text
  import Chunked
  import WsgiInput

  // ---------------------------------------------------------------------
  // start_response

  function CapitalizeAll(ps: seq<string>): (r: seq<string>)
    ensures |r| == |ps|
    ensures forall i :: 0 <= i < |ps| ==> r[i] == Capitalize(ps[i])
  {
    if |ps| == 0 then [] else [Capitalize(ps[0])] + CapitalizeAll(ps[1..])
  }

  /** `'-'.join([x.capitalize() for x in key.split('-')])` */
  function HeaderName(key: string): string {
    Join(CapitalizeAll(Split(key, '-')), "-")
  }

  /** Reference definition of the normalised name, one character at a
      time: upper case at the start and after each '-', lower case
      elsewhere. */
  function TitleFrom(s: string, atStart: bool): (r: string)
    ensures |r| == |s|
  {
    if |s| == 0 then ""
    else [if atStart then UpperChar(s[0]) else LowerChar(s[0])] + TitleFrom(s[1..], s[0] == '-')
  }

  /** What follows the first piece of a joined, capitalised split. */
  function JoinedRest(ps: seq<string>): string
    requires |ps| >= 1
  {
    if |ps| == 1 then "" else "-" + Join(CapitalizeAll(ps[1..]), "-")
  }

  lemma JoinFirst(ps: seq<string>)
    requires |ps| >= 1
    ensures Join(CapitalizeAll(ps), "-") == Capitalize(ps[0]) + JoinedRest(ps)
  {
    var cs := CapitalizeAll(ps);
    var first := Capitalize(ps[0]);
    var tail := CapitalizeAll(ps[1..]);
    assert cs == [first] + tail;
    if |ps| > 1 {
      JoinCons([first] + tail, "-");
      assert ([first] + tail)[1..] == tail;
      assert JoinedRest(ps) == "-" + Join(tail, "-");
    }
  }

  lemma JoinCons(cs: seq<string>, sep: string)
    requires |cs| > 1
    ensures Join(cs, sep) == cs[0] + (sep + Join(cs[1..], sep))
  {
  }

  lemma {:induction false} SplitTitle(s: string)
    ensures Capitalize(Split(s, '-')[0]) + JoinedRest(Split(s, '-')) == TitleFrom(s, true)
    ensures Lower(Split(s, '-')[0]) + JoinedRest(Split(s, '-')) == TitleFrom(s, false)
    decreases |s|
  {
    if |s| > 0 {
      var rest := Split(s[1..], '-');
      var ps := Split(s, '-');
      SplitTitle(s[1..]);
      if s[0] == '-' {
        assert ps == [""] + rest;
        assert ps[1..] == rest;
        JoinFirst(rest);
        assert UpperChar('-') == '-' && LowerChar('-') == '-';
      } else {
        var first := [s[0]] + rest[0];
        assert ps == [first] + rest[1..];
        assert ps[1..] == rest[1..];
        assert first[1..] == rest[0];
        assert Lower(first) == [LowerChar(s[0])] + Lower(rest[0]);
        assert JoinedRest(ps) == JoinedRest(rest);
      }
    }
  }

  /** `start_response` normalises a header name exactly as the reference
      definition says. */
  lemma HeaderNameIsTitle(key: string)
    ensures HeaderName(key) == TitleFrom(key, true)
  {
    JoinFirst(Split(key, '-'));
    SplitTitle(key);
  }

  lemma {:induction false} TitleIgnoresCase(a: string, b: string, atStart: bool)
    requires Lower(a) == Lower(b)
    ensures TitleFrom(a, atStart) == TitleFrom(b, atStart)
    decreases |a|
  {
    if |a| > 0 {
      assert LowerChar(a[0]) == LowerChar(b[0]);
      CaseOfSameLetter(a[0], b[0]);
      assert Lower(a[1..]) == Lower(a)[1..] == Lower(b)[1..] == Lower(b[1..]);
      TitleIgnoresCase(a[1..], b[1..], a[0] == '-');
    }
  }

  lemma CaseOfSameLetter(x: char, y: char)
    requires LowerChar(x) == LowerChar(y)
    ensures UpperChar(x) == UpperChar(y)
    ensures x == '-' <==> y == '-'
  {
  }

  lemma {:induction false} TitleIdempotent(s: string, atStart: bool)
    ensures TitleFrom(TitleFrom(s, atStart), atStart) == TitleFrom(s, atStart)
    decreases |s|
  {
    if |s| > 0 {
      var t := TitleFrom(s, atStart);
      assert t[1..] == TitleFrom(s[1..], s[0] == '-');
      assert t[0] == '-' <==> s[0] == '-';
      TitleIdempotent(s[1..], s[0] == '-');
    }
  }

  /** Header names that differ only in case are normalised to the same
      name, and a normalised name is left as it is. */
  lemma HeaderNameNormalises(a: string, b: string)
    ensures Lower(a) == Lower(b) ==> HeaderName(a) == HeaderName(b)
    ensures HeaderName(HeaderName(a)) == HeaderName(a)
  {
    HeaderNameIsTitle(a);
    HeaderNameIsTitle(b);
    HeaderNameIsTitle(HeaderName(a));
    if Lower(a) == Lower(b) {
      TitleIgnoresCase(a, b, true);
    }
    TitleIdempotent(a, true);
  }

  /** `int(status.split(' ', 1)[0])` */
  function StatusCode(status: string): (r: Result<int, Exc>)
    ensures r.Success? <==> ParseInt(FirstToken(status)).Some?
    ensures r.Success? ==> Some(r.value) == ParseInt(FirstToken(status))
  {
    match ParseInt(FirstToken(status))
    case None => Failure(ValueError("invalid literal for int() with base 10"))
    case Some(code) => Success(code)
  }

  /** The text before the first space, or all of it. */
  function FirstToken(status: string): (t: string)
    ensures ' ' !in t
    ensures StartsWith(status, t)
  {
    match SplitOnce(status, ' ')
    case None => status
    case Some((t, _)) => assert status[..|t|] == t; t
  }

  /** A status line "<code> <reason>" yields its code. */
  lemma StatusCodeOf(code: nat, reason: string)
    ensures StatusCode(ShowNat(code) + " " + reason) == Success(code)
  {
    var digits := ShowNat(code);
    assert ' ' !in digits by {
      assert forall i :: 0 <= i < |digits| ==> IsDigit(digits[i]);
    }
    var status := digits + " " + reason;
    assert status == digits + [' '] + reason;
    IndexOfFirst(digits, reason, ' ');
    assert FirstToken(status) == digits;
    ParseShowInt(code);
    assert ShowInt(code) == digits;
  }

  lemma IndexOfFirst(a: string, b: string, c: char)
    requires c !in a
    ensures SplitOnce(a + [c] + b, c) == Some((a, b))
  {
    var s := a + [c] + b;
    var r := SplitOnce(s, c);
    assert c in s by { assert s[|a|] == c; }
    var (x, y) := r.value;
    assert forall i :: 0 <= i < |a| ==> s[i] == a[i];
    assert forall i :: 0 <= i < |x| ==> s[i] == x[i];
    assert s[|x|] == c && s[|a|] == c;
    assert |x| == |a|;
    assert x == s[..|a|] == a;
    assert y == s[|a| + 1..] == b;
  }

  // ---------------------------------------------------------------------
  // Handler state

  /** The response state of one request: the protocol version of the
      request, the status line and code set by `start_response`, the
      response headers, and what `write` has decided and counted. An
      empty status stands for "start_response not called". */
  datatype Handler = Handler(
    version: string,
    status: string,
    code: int,
    headers: seq<(string, string)>,
    headersSent: bool,
    chunked: bool,
    close: bool,
    length: nat)

  /** The state `handle_one_response` starts from. */
  function NewHandler(version: string, close: bool): (h: Handler)
    ensures h.status == "" && !h.headersSent && !h.chunked && h.length == 0
  {
    Handler(version, "", 0, [], false, false, close, 0)
  }

  /** `start_response(status, headers, exc_info)`: with exception
      information after the headers went out, the exception is raised
      again; otherwise the code is parsed from the status and every header
      name normalised. */
  function StartResponse(h: Handler, status: string, headers: seq<(string, string)>, excInfo: Option<Exc>): (r: Result<Handler, Exc>)
    ensures excInfo.Some? && h.headersSent ==> r == Failure(excInfo.value)
    ensures r.Success? ==> Success(r.value.code) == StatusCode(status) && r.value.status == status
    ensures r.Success? ==> |r.value.headers| == |headers|
    ensures r.Success? ==> forall i :: 0 <= i < |headers| ==> r.value.headers[i] == (HeaderName(headers[i].0), headers[i].1)
    ensures r.Success? ==> r.value.headersSent == h.headersSent && r.value.chunked == h.chunked && r.value.version == h.version
    ensures r.Failure? ==> (excInfo.Some? && h.headersSent) || StatusCode(status).Failure?
  {
    if excInfo.Some? && h.headersSent then Failure(excInfo.value)
    else
      var code :- StatusCode(status);
      Success(h.(code := code, status := status, headers := NormaliseNames(headers)))
  }

  function NormaliseNames(headers: seq<(string, string)>): (r: seq<(string, string)>)
    ensures |r| == |headers|
    ensures forall i :: 0 <= i < |headers| ==> r[i] == (HeaderName(headers[i].0), headers[i].1)
  {
    if |headers| == 0 then [] else [(HeaderName(headers[0].0), headers[0].1)] + NormaliseNames(headers[1..])
  }

  // ---------------------------------------------------------------------
  // finalize_headers

  /** What the application returned: its pieces, and whether the result
      has a length (`hasattr(result, '__len__')`). */
  datatype AppResult = AppResult(chunks: seq<string>, sized: bool)

  function Names(headers: seq<(string, string)>): (r: seq<string>)
    ensures |r| == |headers|
    ensures forall i :: 0 <= i < |headers| ==> r[i] == headers[i].0
  {
    if |headers| == 0 then [] else [headers[0].0] + Names(headers[1..])
  }

  /** `sum(len(chunk) for chunk in result)` */
  function TotalLength(chunks: seq<string>): nat {
    if |chunks| == 0 then 0 else |chunks[0]| + TotalLength(chunks[1..])
  }

  lemma {:induction false} TotalLengthIsConcat(chunks: seq<string>)
    ensures TotalLength(chunks) == |Chunked.Concat(chunks)|
  {
    if |chunks| > 0 {
      TotalLengthIsConcat(chunks[1..]);
    }
  }

  predicate NoBody(code: int) { code == 204 || code == 304 }

  datatype Finalized = Finalized(headers: seq<(string, string)>, close: bool, chunked: bool)

  /** The Date header, added only when the application did not set one. */
  function DateHeader(names: seq<string>, date: string): (r: seq<(string, string)>)
    ensures r == [] || r == [("Date", date)]
    ensures r == [] <==> "Date" in names
  {
    if "Date" in names then [] else [("Date", date)]
  }

  /** An HTTP/1.0 response without a Connection header gets
      "Connection: close". */
  function ConnectionHeader(version: string, names: seq<string>): (r: seq<(string, string)>)
    ensures r == [] || r == [("Connection", "close")]
    ensures r != [] <==> version == "HTTP/1.0" && "Connection" !in names
  {
    if version == "HTTP/1.0" && "Connection" !in names then [("Connection", "close")] else []
  }

  /** The framing header: Content-Length for a sized result, otherwise
      chunked unless the request was HTTP/1.0; none for 204 and 304 or
      when the application set a Content-Length. */
  function FramingHeader(version: string, code: int, names: seq<string>, result: AppResult): (r: (seq<(string, string)>, bool))
    ensures r.1 <==> !NoBody(code) && "Content-Length" !in names && !result.sized && version != "HTTP/1.0"
    ensures r.1 ==> r.0 == [("Transfer-Encoding", "chunked")]
    ensures !NoBody(code) && "Content-Length" !in names && result.sized ==>
      r.0 == [("Content-Length", ShowNat(TotalLength(result.chunks)))]
    ensures r.0 != [] ==> !NoBody(code) && "Content-Length" !in names && |r.0| == 1
    ensures r.0 == [] ==> NoBody(code) || "Content-Length" in names || (!result.sized && version == "HTTP/1.0")
  {
    if !NoBody(code) && "Content-Length" !in names then
      if result.sized then ([("Content-Length", ShowNat(TotalLength(result.chunks)))], false)
      else if version != "HTTP/1.0" then ([("Transfer-Encoding", "chunked")], true)
      else ([], false)
    else ([], false)
  }

  /** The headers `finalize_headers` appends, in order. */
  function Added(version: string, code: int, names: seq<string>, result: AppResult, date: string): seq<(string, string)> {
    DateHeader(names, date) + ConnectionHeader(version, names) + FramingHeader(version, code, names, result).0
  }

  lemma AddedParts(version: string, code: int, names: seq<string>, result: AppResult, date: string)
    ensures var d := DateHeader(names, date);
      var c := ConnectionHeader(version, names);
      var f := FramingHeader(version, code, names, result).0;
      && (forall x :: x in Added(version, code, names, result, date) <==> x in d || x in c || x in f)
      && Names(Added(version, code, names, result, date)) == Names(d) + Names(c) + Names(f)
  {
    var d := DateHeader(names, date);
    var c := ConnectionHeader(version, names);
    var f := FramingHeader(version, code, names, result).0;
    NamesAppend(d, c);
    NamesAppend(d + c, f);
  }

  /** `finalize_headers`: appends Date, Connection and framing headers
      that the application did not set, and decides whether the
      connection closes and whether the body is chunked. */
  function FinalizeHeaders(version: string, code: int, headers: seq<(string, string)>, result: AppResult, date: string): (f: Finalized)
    ensures |headers| <= |f.headers| <= |headers| + 3
    ensures f.headers[..|headers|] == headers
    ensures f.close <==> (version == "HTTP/1.0" && "Connection" !in Names(headers)) || ("Connection", "close") in headers
    ensures f.chunked <==> !NoBody(code) && "Content-Length" !in Names(headers) && !result.sized && version != "HTTP/1.0"
  {
    var names := Names(headers);
    var added := Added(version, code, names, result, date);
    assert (headers + added)[..|headers|] == headers;
    Finalized(headers + added, ConnectionHeader(version, names) != [] || ("Connection", "close") in headers,
              FramingHeader(version, code, names, result).1)
  }

  /** The headers after `finalize_headers` are the application's,
      followed by the added ones. */
  lemma FinalizeShape(version: string, code: int, headers: seq<(string, string)>, result: AppResult, date: string)
    ensures var added := Added(version, code, Names(headers), result, date);
      && FinalizeHeaders(version, code, headers, result, date).headers == headers + added
      && Names(headers + added) == Names(headers) + Names(added)
  {
    NamesAppend(headers, Added(version, code, Names(headers), result, date));
  }

  /** Every added header but Transfer-Encoding has a name not in use, and
      the added Date header is first, present exactly when missing. */
  lemma AddedFresh(version: string, code: int, names: seq<string>, result: AppResult, date: string)
    ensures var added := Added(version, code, names, result, date);
      && (forall x :: x in added && x.0 != "Transfer-Encoding" ==> x.0 !in names)
      && (("Date", date) in added <==> "Date" !in names)
      && ("Date" !in names ==> added[0] == ("Date", date))
  {
    AddedParts(version, code, names, result, date);
  }

  /** `finalize_headers` does not repeat what the application set: every
      header it adds, except Transfer-Encoding, has a name the application
      did not use. */
  lemma FinalizeAddsOnlyMissing(version: string, code: int, headers: seq<(string, string)>, result: AppResult, date: string)
    ensures var f := FinalizeHeaders(version, code, headers, result, date);
      forall i :: |headers| <= i < |f.headers| && f.headers[i].0 != "Transfer-Encoding" ==> f.headers[i].0 !in Names(headers)
  {
    var added := Added(version, code, Names(headers), result, date);
    FinalizeShape(version, code, headers, result, date);
    AddedFresh(version, code, Names(headers), result, date);
    AddedNames(headers, added);
    forall i | |headers| <= i < |headers + added|
      ensures (headers + added)[i] in added
    {
      assert added[i - |headers|] in added;
    }
  }

  /** A Date header is always present after `finalize_headers`, and it is
      the one added exactly when the application did not set one. */
  lemma FinalizeDate(version: string, code: int, headers: seq<(string, string)>, result: AppResult, date: string)
    ensures var f := FinalizeHeaders(version, code, headers, result, date);
      && "Date" in Names(f.headers)
      && (("Date", date) in f.headers[|headers|..] <==> "Date" !in Names(headers))
  {
    var added := Added(version, code, Names(headers), result, date);
    FinalizeShape(version, code, headers, result, date);
    AddedFresh(version, code, Names(headers), result, date);
    assert (headers + added)[|headers|..] == added;
    if "Date" !in Names(headers) {
      assert Names(added)[0] == "Date";
    }
  }

  /** A chunked body carries "Transfer-Encoding: chunked" and no
      Content-Length. */
  lemma FinalizeChunked(version: string, code: int, headers: seq<(string, string)>, result: AppResult, date: string)
    ensures var f := FinalizeHeaders(version, code, headers, result, date);
      f.chunked ==> ("Transfer-Encoding", "chunked") in f.headers && "Content-Length" !in Names(f.headers)
  {
    var names := Names(headers);
    var added := Added(version, code, names, result, date);
    FinalizeShape(version, code, headers, result, date);
    AddedParts(version, code, names, result, date);
    if FramingHeader(version, code, names, result).1 {
      assert added[|added| - 1] == ("Transfer-Encoding", "chunked");
    }
  }

  /** A sized result gets a Content-Length of the total length of its
      pieces, unless the application set one or the status has no body. */
  lemma FinalizeSized(version: string, code: int, headers: seq<(string, string)>, result: AppResult, date: string)
    requires !NoBody(code) && "Content-Length" !in Names(headers) && result.sized
    ensures ("Content-Length", ShowNat(TotalLength(result.chunks))) in FinalizeHeaders(version, code, headers, result, date).headers
  {
    var names := Names(headers);
    var added := Added(version, code, names, result, date);
    FinalizeShape(version, code, headers, result, date);
    assert added[|added| - 1] == ("Content-Length", ShowNat(TotalLength(result.chunks)));
    assert (headers + added)[|headers| + |added| - 1] in headers + added;
  }

  /** Every response with a body to a request newer than HTTP/1.0 is
      delimited, by Content-Length or by chunking. */
  lemma FinalizeDelimited(version: string, code: int, headers: seq<(string, string)>, result: AppResult, date: string)
    requires !NoBody(code) && version != "HTTP/1.0"
    ensures var f := FinalizeHeaders(version, code, headers, result, date);
      "Content-Length" in Names(f.headers) || f.chunked
  {
    var names := Names(headers);
    var added := Added(version, code, names, result, date);
    FinalizeShape(version, code, headers, result, date);
    AddedParts(version, code, names, result, date);
    if "Content-Length" !in names && result.sized {
      assert Names(added)[|added| - 1] == "Content-Length";
    }
  }

  lemma AddedNames(headers: seq<(string, string)>, added: seq<(string, string)>)
    ensures (headers + added)[..|headers|] == headers
    ensures forall i :: |headers| <= i < |headers + added| ==> (headers + added)[i] == added[i - |headers|]
  {
  }

  lemma NamesAppend(a: seq<(string, string)>, b: seq<(string, string)>)
    ensures Names(a + b) == Names(a) + Names(b)
  {
    var n := Names(a + b);
    assert forall i :: 0 <= i < |a| ==> n[i] == a[i].0;
  }

  // ---------------------------------------------------------------------
  // write

  /** `'%s: %s\r\n' % header` for each header, joined. */
  function HeaderLines(headers: seq<(string, string)>): string {
    if |headers| == 0 then "" else headers[0].0 + ": " + headers[0].1 + "\r\n" + HeaderLines(headers[1..])
  }

  /** The status line, the header lines and the blank line. */
  function HeaderBlock(version: string, status: string, headers: seq<(string, string)>): string {
    version + " " + status + "\r\n" + HeaderLines(headers) + "\r\n"
  }

  /** One piece of body as it goes on the wire. */
  function Body(chunked: bool, data: string): (b: string)
    ensures data == "" ==> b == ""
    ensures data != "" && !chunked ==> b == data
    ensures data != "" && chunked ==> b == Chunked.Frame(data)
  {
    if data == "" then "" else if chunked then Chunked.Frame(data) else data
  }

  /** `write(data)`: refuses to run before `start_response`; the first
      call finalises the headers and sends the header block in front of
      the data; a failed send marks the status and negates the code.
      Returns the exception raised, the new state and the bytes sent. */
  function Write(h: Handler, data: string, result: AppResult, date: string, sendError: Option<string>): (r: (Option<Exc>, Handler, string))
    ensures h.status == "" ==> r == (Some(AssertionError("The application did not call start_response()")), h, "")
    ensures h.status != "" ==> r.1.headersSent && r.1.version == h.version
    ensures h.status != "" && sendError.None? ==> r.0.None? && r.1.status == h.status && r.1.length == h.length + |r.2|
    ensures h.status != "" && h.headersSent && sendError.None? ==>
      r.2 == Body(h.chunked, data) && r.1.chunked == h.chunked && r.1.headers == h.headers && r.1.close == h.close
    ensures h.status != "" && !h.headersSent && sendError.None? ==>
      var f := FinalizeHeaders(h.version, h.code, h.headers, result, date);
      && r.2 == HeaderBlock(h.version, h.status, f.headers) + Body(h.chunked || f.chunked, data)
      && r.1.headers == f.headers && r.1.chunked == (h.chunked || f.chunked) && r.1.close == (h.close || f.close)
    ensures h.status != "" && sendError.Some? ==>
      r.0 == Some(SocketErrorMsg(sendError.value)) && r.2 == "" && r.1.code == (if h.code > 0 then -h.code else h.code)
  {
    if h.status == "" then (Some(AssertionError("The application did not call start_response()")), h, "")
    else
      var (h1, head) := StartHeaders(h, result, date);
      var msg := head + Body(h1.chunked, data);
      match sendError
      case Some(e) => (Some(SocketErrorMsg(e)), h1.(status := "socket error: " + e, code := if h1.code > 0 then -h1.code else h1.code), "")
      case None => (None, h1.(length := h1.length + |msg|), msg)
  }

  /** The header part of `write`: finalised and rendered on the first
      call, nothing afterwards. */
  function StartHeaders(h: Handler, result: AppResult, date: string): (r: (Handler, string))
    ensures r.0.headersSent && r.0.version == h.version && r.0.status == h.status
    ensures r.0.code == h.code && r.0.length == h.length
    ensures h.headersSent ==> r == (h, "")
    ensures !h.headersSent ==>
      var f := FinalizeHeaders(h.version, h.code, h.headers, result, date);
      r.1 == HeaderBlock(h.version, h.status, f.headers) && r.0.headers == f.headers
      && r.0.chunked == (h.chunked || f.chunked) && r.0.close == (h.close || f.close)
  {
    if h.headersSent then (h, "")
    else
      var f := FinalizeHeaders(h.version, h.code, h.headers, result, date);
      (h.(headersSent := true, headers := f.headers, chunked := h.chunked || f.chunked, close := h.close || f.close),
       HeaderBlock(h.version, h.status, f.headers))
  }

  // ---------------------------------------------------------------------
  // process_result

  /** The non-empty pieces, in order. */
  function NonEmpty(chunks: seq<string>): (r: seq<string>)
    ensures Chunked.NonEmptyPieces(r)
    ensures Chunked.Concat(r) == Chunked.Concat(chunks)
  {
    if |chunks| == 0 then []
    else if chunks[0] == "" then NonEmpty(chunks[1..])
    else
      var rest := NonEmpty(chunks[1..]);
      assert ([chunks[0]] + rest)[1..] == rest;
      [chunks[0]] + rest
  }

  /** `for data in result: if data: write(data)`: every non-empty piece is
      written, so the header block goes out exactly when some piece is not
      empty; before `start_response` the first such piece is refused and
      nothing is sent. */
  function WriteAll(h: Handler, chunks: seq<string>, result: AppResult, date: string): (r: (Option<Exc>, Handler, string))
    ensures h.status != "" ==> r.0.None? && r.1.status == h.status
    ensures h.status != "" ==> (r.1.headersSent <==> h.headersSent || Chunked.Concat(chunks) != "")
    ensures h.status == "" ==> r.1 == h && r.2 == ""
    ensures h.status == "" ==>
      r.0 == if Chunked.Concat(chunks) != "" then Some(AssertionError("The application did not call start_response()")) else None
    decreases |chunks|
  {
    if |chunks| == 0 then (None, h, "")
    else if chunks[0] == "" then WriteAll(h, chunks[1..], result, date)
    else
      var w := Write(h, chunks[0], result, date, None);
      if w.0.Some? then w
      else
        var r := WriteAll(w.1, chunks[1..], result, date);
        (r.0, r.1, w.2 + r.2)
  }

  /** `process_result`: the pieces, then the header block alone if no
      piece was written, then the last chunk of a chunked body. After
      `start_response` it raises nothing, the headers are out and a chunked
      response ends with the last chunk; before it, a non-empty piece raises
      the assertion and nothing is sent. */
  function ProcessResult(h: Handler, result: AppResult, date: string): (r: (Option<Exc>, Handler, string))
    ensures h.status != "" ==> r.0.None? && r.1.headersSent && r.1.status == h.status
    ensures h.status != "" && r.1.chunked ==>
      |r.2| >= |Chunked.LastChunk| && r.2[|r.2| - |Chunked.LastChunk|..] == Chunked.LastChunk
    ensures h.status == "" && Chunked.Concat(result.chunks) != "" ==>
      r.0 == Some(AssertionError("The application did not call start_response()")) && r.2 == ""
  {
    var w := WriteAll(h, result.chunks, result, date);
    if w.0.Some? then w
    else
      var t := Trailer(w.1, result, date);
      if t.0.Some? then (t.0, t.1, w.2 + t.2) else (None, t.1, w.2 + t.2)
  }

  /** What `process_result` sends after the pieces: the header block if
      nothing was written yet, then the last chunk of a chunked body. */
  function Trailer(h: Handler, result: AppResult, date: string): (r: (Option<Exc>, Handler, string))
    ensures h.status != "" ==> r.0.None? && r.1.headersSent && r.1.status == h.status
    ensures h.status != "" && r.1.chunked ==>
      |r.2| >= |Chunked.LastChunk| && r.2[|r.2| - |Chunked.LastChunk|..] == Chunked.LastChunk
    ensures h.status != "" && h.headersSent ==> r.2 == if h.chunked then Chunked.LastChunk else ""
    ensures h.status != "" && !h.headersSent ==>
      var f := FinalizeHeaders(h.version, h.code, h.headers, result, date);
      r.2 == HeaderBlock(h.version, h.status, f.headers) + if h.chunked || f.chunked then Chunked.LastChunk else ""
  {
    var w := if h.status != "" && !h.headersSent then Write(h, "", result, date, None) else (None, h, "");
    if w.0.Some? then w
    else if w.1.chunked then (None, w.1.(length := w.1.length + |Chunked.LastChunk|), w.2 + Chunked.LastChunk)
    else (None, w.1, w.2)
  }

  /** The body written for the pieces, once the headers are out. */
  function BodyOf(chunked: bool, chunks: seq<string>): string {
    if chunked then Chunked.Frames(NonEmpty(chunks)) else Chunked.Concat(chunks)
  }

  /** After the headers went out, writing the pieces sends exactly their
      body and changes nothing but the count. */
  lemma {:induction false} WriteAllAfterHeaders(h: Handler, chunks: seq<string>, result: AppResult, date: string)
    requires h.status != "" && h.headersSent
    ensures var r := WriteAll(h, chunks, result, date);
      && r.0.None? && r.2 == BodyOf(h.chunked, chunks)
      && r.1.headersSent && r.1.chunked == h.chunked && r.1.status == h.status && r.1.headers == h.headers
    decreases |chunks|
  {
    if |chunks| > 0 {
      if chunks[0] == "" {
        WriteAllAfterHeaders(h, chunks[1..], result, date);
      } else {
        var h1 := Write(h, chunks[0], result, date, None).1;
        WriteAllAfterHeaders(h1, chunks[1..], result, date);
        var rest := NonEmpty(chunks[1..]);
        assert NonEmpty(chunks) == [chunks[0]] + rest;
        assert ([chunks[0]] + rest)[1..] == rest;
      }
    }
  }

  /** An empty piece is skipped: nothing is written for it. */
  lemma SkipEmpty(h: Handler, chunks: seq<string>, result: AppResult, date: string)
    requires |chunks| > 0 && chunks[0] == ""
    ensures WriteAll(h, chunks, result, date) == WriteAll(h, chunks[1..], result, date)
    ensures NonEmpty(chunks) == NonEmpty(chunks[1..])
    ensures Chunked.Concat(chunks) == Chunked.Concat(chunks[1..])
  {
  }

  /** A non-empty piece is written, and the rest follow it. */
  lemma WriteFirst(h: Handler, chunks: seq<string>, result: AppResult, date: string) returns (h1: Handler)
    requires h.status != "" && |chunks| > 0 && chunks[0] != ""
    ensures h1 == Write(h, chunks[0], result, date, None).1
    ensures var r := WriteAll(h1, chunks[1..], result, date);
      WriteAll(h, chunks, result, date) == (r.0, r.1, Write(h, chunks[0], result, date, None).2 + r.2)
    ensures NonEmpty(chunks) == [chunks[0]] + NonEmpty(chunks[1..])
    ensures Chunked.Concat(chunks) != ""
  {
    h1 := Write(h, chunks[0], result, date, None).1;
    var rest := NonEmpty(chunks[1..]);
    assert ([chunks[0]] + rest)[1..] == rest;
    assert |Chunked.Concat(chunks)| >= |chunks[0]|;
  }

  /** The body of a non-empty first piece followed by the others. */
  lemma BodyOfCons(chunked: bool, chunks: seq<string>)
    requires |chunks| > 0 && chunks[0] != ""
    requires NonEmpty(chunks) == [chunks[0]] + NonEmpty(chunks[1..])
    ensures BodyOf(chunked, chunks) == Body(chunked, chunks[0]) + BodyOf(chunked, chunks[1..])
  {
    var rest := NonEmpty(chunks[1..]);
    assert ([chunks[0]] + rest)[1..] == rest;
  }

  /** Before the headers went out, leading empty pieces send nothing and
      the first non-empty piece sends the header block with it. */
  lemma {:induction false} WriteAllFromStart(h: Handler, chunks: seq<string>, result: AppResult, date: string)
    requires h.status != "" && !h.headersSent
    ensures var r := WriteAll(h, chunks, result, date);
      var f := FinalizeHeaders(h.version, h.code, h.headers, result, date);
      && r.0.None? && r.1.status == h.status
      && (r.1.headersSent <==> Chunked.Concat(chunks) != "")
      && (!r.1.headersSent ==> r.1 == h && r.2 == "")
      && (r.1.headersSent ==> r.1.chunked == (h.chunked || f.chunked) && r.1.headers == f.headers)
      && (r.1.headersSent ==> r.2 == HeaderBlock(h.version, h.status, f.headers) + BodyOf(h.chunked || f.chunked, chunks))
    decreases |chunks|
  {
    if |chunks| > 0 {
      if chunks[0] == "" {
        SkipEmpty(h, chunks, result, date);
        WriteAllFromStart(h, chunks[1..], result, date);
      } else {
        StartWithPiece(h, chunks, result, date);
      }
    }
  }

  /** A non-empty first piece sends the header block and then the body. */
  lemma StartWithPiece(h: Handler, chunks: seq<string>, result: AppResult, date: string)
    requires h.status != "" && !h.headersSent && |chunks| > 0 && chunks[0] != ""
    ensures var r := WriteAll(h, chunks, result, date);
      var f := FinalizeHeaders(h.version, h.code, h.headers, result, date);
      && r.0.None? && r.1.status == h.status && r.1.headersSent && Chunked.Concat(chunks) != ""
      && r.1.chunked == (h.chunked || f.chunked) && r.1.headers == f.headers
      && r.2 == HeaderBlock(h.version, h.status, f.headers) + BodyOf(h.chunked || f.chunked, chunks)
  {
    var f := FinalizeHeaders(h.version, h.code, h.headers, result, date);
    var hb, c := HeaderBlock(h.version, h.status, f.headers), h.chunked || f.chunked;
    var h1 := WriteFirst(h, chunks, result, date);
    WriteAllAfterHeaders(h1, chunks[1..], result, date);
    BodyOfCons(c, chunks);
    Glue(WriteAll(h, chunks, result, date).2, Write(h, chunks[0], result, date, None).2, WriteAll(h1, chunks[1..], result, date).2,
         hb, Body(c, chunks[0]), BodyOf(c, chunks[1..]));
  }

  lemma Glue(all: string, w: string, r: string, hb: string, first: string, rest: string)
    requires all == w + r && w == hb + first && r == rest
    ensures all == hb + (first + rest)
  {
  }

  /** The whole response of `process_result` after `start_response`: the
      header block exactly once, then the body, then the last chunk when
      the body is chunked. */
  lemma ResponseLayout(h: Handler, result: AppResult, date: string)
    requires h.status != "" && !h.headersSent && !h.chunked
    ensures var r := ProcessResult(h, result, date);
      var f := FinalizeHeaders(h.version, h.code, h.headers, result, date);
      && r.0.None?
      && r.2 == HeaderBlock(h.version, h.status, f.headers)
                + (if f.chunked then Chunked.Frames(NonEmpty(result.chunks)) + Chunked.LastChunk
                   else Chunked.Concat(result.chunks))
  {
    if Chunked.Concat(result.chunks) == "" {
      LayoutWithoutBody(h, result, date);
    } else {
      LayoutWithBody(h, result, date);
    }
  }

  /** Some piece is non-empty: the pieces carry the header block, and the
      last chunk follows them. */
  lemma LayoutWithBody(h: Handler, result: AppResult, date: string)
    requires h.status != "" && !h.headersSent && !h.chunked && Chunked.Concat(result.chunks) != ""
    ensures var r := ProcessResult(h, result, date);
      var f := FinalizeHeaders(h.version, h.code, h.headers, result, date);
      && r.0.None?
      && r.2 == HeaderBlock(h.version, h.status, f.headers)
                + (if f.chunked then Chunked.Frames(NonEmpty(result.chunks)) + Chunked.LastChunk
                   else Chunked.Concat(result.chunks))
  {
    var f := FinalizeHeaders(h.version, h.code, h.headers, result, date);
    var w := WriteAll(h, result.chunks, result, date);
    WriteAllFromStart(h, result.chunks, result, date);
    var t := Trailer(w.1, result, date);
    Glue(ProcessResult(h, result, date).2, w.2, t.2, HeaderBlock(h.version, h.status, f.headers),
         BodyOf(f.chunked, result.chunks), t.2);
  }

  /** Every piece is empty: the trailer carries the header block, and
      the last chunk follows it. */
  lemma LayoutWithoutBody(h: Handler, result: AppResult, date: string)
    requires h.status != "" && !h.headersSent && !h.chunked && Chunked.Concat(result.chunks) == ""
    ensures var r := ProcessResult(h, result, date);
      var f := FinalizeHeaders(h.version, h.code, h.headers, result, date);
      && r.0.None?
      && r.2 == HeaderBlock(h.version, h.status, f.headers)
                + (if f.chunked then Chunked.Frames(NonEmpty(result.chunks)) + Chunked.LastChunk
                   else Chunked.Concat(result.chunks))
  {
    var w := WriteAll(h, result.chunks, result, date);
    WriteAllFromStart(h, result.chunks, result, date);
    NothingToWrite(result.chunks);
    assert w.1 == h && w.2 == "";
    assert Chunked.Frames(NonEmpty(result.chunks)) == "";
  }

  /** Pieces that add up to nothing leave no non-empty piece. */
  lemma NothingToWrite(chunks: seq<string>)
    requires Chunked.Concat(chunks) == ""
    ensures NonEmpty(chunks) == []
  {
    var ne := NonEmpty(chunks);
    if |ne| > 0 {
      ConcatHead(ne);
    }
  }

  lemma ConcatHead(ds: seq<string>)
    requires |ds| > 0
    ensures |Chunked.Concat(ds)| >= |ds[0]|
  {
  }

  /** A sized result is sent with a Content-Length equal to the body's
      length. */
  lemma ContentLengthMatchesBody(h: Handler, result: AppResult, date: string)
    requires h.status != "" && !h.headersSent && !h.chunked
    requires result.sized && !NoBody(h.code) && "Content-Length" !in Names(h.headers)
    ensures var f := FinalizeHeaders(h.version, h.code, h.headers, result, date);
      && !f.chunked
      && ("Content-Length", ShowNat(|Chunked.Concat(result.chunks)|)) in f.headers
      && ProcessResult(h, result, date).2 == HeaderBlock(h.version, h.status, f.headers) + Chunked.Concat(result.chunks)
  {
    ResponseLayout(h, result, date);
    FinalizeSized(h.version, h.code, h.headers, result, date);
    TotalLengthIsConcat(result.chunks);
  }

  /** A chunked response body is decoded by the server's own chunked body
      reader back into the concatenated pieces, stopping right after the
      last chunk. */
  lemma ChunkedBodyRoundTrip(chunks: seq<string>, rest: string)
    ensures var body := Chunked.Frames(NonEmpty(chunks)) + Chunked.LastChunk;
      var inp := WsgiInput.NewInput(body + rest, None, false, true);
      var out := WsgiInput.Read(inp, None);
      out.0 == Success(Chunked.Concat(chunks)) && out.1.rfile == rest
  {
    Chunked.ChunkedRoundTrip(NonEmpty(chunks), rest);
  }
}
